=== FILE: README.md ===
# A Dafny model of the Shin-chan episode site's decision rules

The site is a set of browser scripts. Around the DOM code they share a small
set of pure rules, and this project models those rules as pure functions:

- **Video-address resolvers.** Eight copies of `processVideoUrl`,
  `generateThumbnail` and the `VIDEO_PLATFORMS` table each map a pasted
  address to an embed address and an optional thumbnail, first match wins.
  The regular expressions are written out as leftmost, backtracking matchers
  with ASCII case folding (the `i` flag).
- **Episode collection operations.** Add, update, delete, bulk publish and
  delete, the duplicate rule, the next season/number suggestion, queries,
  counters and view increments, each as the file that holds it does them.
- **The session gate.** Constant credentials, expiry at `now + 24 h` or
  `now + 30 d`, validity as `expiry > now`, and the redirect rule of `auth.js`.
- **Small classifiers and state machines:**
  - the page label;
  - the Konami key window and the five-click logo counter;
  - the visitor notices;
  - the theme toggle;
  - the visit counter.

JavaScript values are modelled where they matter:

- `parseInt` gives an integer or `NaN` (`Js.Num`).
- `Math.max` over such values can give `NaN` or `-Infinity`.
- `||` defaults follow truthiness.
- A comparison with a missing value is false.
- `now`, fresh ids and whether `new URL(...)` accepts an address are parameters.

Layout:

- **Shared modules.**
  - `Js`: value semantics, strings, `parseInt`, `trim`.
  - `Patterns`: the regex matchers.
  - `Literals`: facts about literal strings.
  - `Video`: the ids and templates.
  - `Resolvers`: one function per resolver variant.
  - `Platforms`: the `VIDEO_PLATFORMS` table.
  - `Episodes`: the record, object spread, lookups, filters, a stable sort and `Math.max`.
  - `Sessions`.
- **One module per script** for the rest: `DataManager`, `EpisodesManager`,
  `EpisodesAdmin`, `AdminSystem`, `AdminSystemComplete`, `AdminSimpleFixed`,
  `Site` (main.js, main-fixed.js, script.js), `UiUpdater`, `Effects`,
  `Notifications`.

## Model

| member | source | states |
|---|---|---|
| Patterns.SearchFrom | data-manager.js:216-221 | `String.prototype.match` tries start positions left to right: a result is the first position where the pattern matches, and no result means no position matches |
| Patterns.YouTubeWatchShape | data-manager.js:195 | `…youtube.com/watch?v=ID` yields exactly the 11-character ID |
| Patterns.YouTubeShortShape | data-manager.js:195 | `…youtu.be/ID` yields ID |
| Patterns.YouTubeEmbedShape | data-manager.js:195 | `…youtube.com/embed/ID…` yields ID when no slash follows |
| Patterns.YouTubeVShape | data-manager.js:195 | `…youtube.com/v/ID…` yields ID when no slash follows |
| Patterns.VimeoShape | data-manager.js:199 | `vimeo.com/DIGITS` yields the whole digit run |
| Patterns.DailymotionVideoShape | data-manager.js:203 | `dailymotion.com/video/ID` yields the whole alphanumeric run |
| Patterns.DriveShape | data-manager.js:207 | `drive.google.com/file/d/ID` yields ID up to the first `/`, `?` or `&` |
| Patterns.StreamableShape | data-manager.js:211 | `streamable.com/ID` yields the alphanumeric run |
| Patterns.StreamableEmbedReadsE | data-manager.js:211-212 | Streamable's own embed address reads back as the id `e` |
| Patterns.VimeoPathShape | episodes-manager.js:50 | the detailed Vimeo pattern yields the digits when followed by the end, `/` or `?` |
| Patterns.DailymotionAnyMatchesAlnum | episodes-manager.js:78 | with the host prefix optional, the Dailymotion pattern matches exactly the inputs holding an ASCII letter or digit |
| Patterns.DailymotionAnyReadsScheme | episodes-manager.js:78-82 | any input starting `https:` reads as the video id `https` |
| Patterns.DailymotionHostShape | episodes-manager.js:78 | with the host required, a Dailymotion page yields its id |
| Video.YouTubeId | data-manager.js:195 | a YouTube id is 11 characters, none of them `"`, `&`, `?`, `/` or white space |
| Video.VimeoId | data-manager.js:199 | a Vimeo id is a non-empty digit run |
| Video.DailymotionId | data-manager.js:203 | a Dailymotion id is a non-empty ASCII alphanumeric run |
| Video.DriveId | data-manager.js:207 | a Drive id is non-empty and free of `/`, `?` and `&` |
| Video.StreamableId | data-manager.js:211 | a Streamable id is a non-empty ASCII alphanumeric run |
| Resolvers.FiveHostEmbed | data-manager.js:192-224 | YouTube, Vimeo, Dailymotion, Drive, Streamable in that order, each with its template; an unmatched input comes back unchanged |
| Resolvers.ThumbnailOrPlaceholder | data-manager.js:227-242 | YouTube thumbnail, else Dailymotion thumbnail, else `img/thumbnail-placeholder.jpg`: never null |
| Resolvers.ThreeHostEmbed | episodes-admin.js:201-225 | YouTube, Vimeo, Dailymotion in that order; otherwise the input unchanged (the same chain as admin-system.js:410-430 and admin-system-complete.js:490-510) |
| Resolvers.TwoHostThumbnail | episodes-admin.js:227-239 | YouTube thumbnail, else Dailymotion thumbnail, else null |
| Resolvers.YouTubeOnlyThumbnail | admin-system.js:432-438 | a thumbnail exactly for YouTube addresses, null otherwise (also admin-system-complete.js:512-518) |
| Resolvers.ShortHostEmbed | admin-simple.js:12-16 | the `dai.ly` rule embeds the slash-free tail that starts the input or follows a `/` |
| Resolvers.BareEmbed | admin-simple.js:4-24 | YouTube with no query string, then `dai.ly`, then Dailymotion pages, with no Vimeo rule; otherwise the input unchanged |
| Resolvers.ShortFirstEmbed | admin-simple-fixed.js:257-294 | YouTube, then `dai.ly`, then Dailymotion pages, then Vimeo; otherwise the input unchanged |
| Resolvers.ShortAwareThumbnail | admin-simple-fixed.js:296-309 | YouTube thumbnail; else the Dailymotion placeholder iff the input holds `dai.ly` or `dailymotion`; else null (admin-simple.js:26-38 is the same) |
| Resolvers.FiveHostIdempotent | data-manager.js:192-224 | resolving an address the resolver produced gives it back (Streamable and dotted Drive ids aside) |
| Resolvers.StreamableEmbedNotFixed | data-manager.js:211-212 | a Streamable embed resolves again to the embed of id `e` |
| Resolvers.ThreeHostIdempotent | episodes-admin.js:201-225 | the three-host resolver is idempotent on every input |
| Resolvers.BareIdempotent | admin-simple.js:4-24 | the admin-simple resolver is idempotent on every input |
| Resolvers.ShortFirstIdempotent | admin-simple-fixed.js:257-294 | the admin-simple-fixed resolver is idempotent on every input |
| Resolvers.DotlessPassesThrough | data-manager.js:223 | an input without a dot passes through every resolver unchanged and gets only a placeholder or no thumbnail |
| Resolvers.WatchAddressResolves | data-manager.js:195-196 | a `watch?v=` address resolves to the YouTube embed under every variant, with `?enablejsapi=1&rel=0` except in admin-simple.js |
| Resolvers.VimeoAddressResolves | episodes-admin.js:208-212 | a Vimeo page resolves to its player everywhere except admin-simple.js, which passes it through |
| Resolvers.DailymotionAddressResolves | data-manager.js:202-204 | a Dailymotion page resolves to its embed in every variant, and to its thumbnail in data-manager.js |
| Resolvers.ShortAddressResolves | admin-simple-fixed.js:268-273 | a `dai.ly/SEG` address embeds SEG and gets the Dailymotion placeholder |
| Platforms.DetectWith | episodes-manager.js:297-304 | `detectVideoPlatform` returns the first table entry, in table order, whose pattern matches, and null iff none does |
| Platforms.PlatformEmbed | episodes-manager.js:18-140 | each entry's `embedUrl` is non-null exactly when its own pattern matches |
| Platforms.PlatformThumbnail | episodes-manager.js:18-140 | only YouTube and Dailymotion have a thumbnail, and only when their pattern matches |
| Platforms.DetectIffAlnum | episodes-manager.js:78 | a platform is detected exactly when the input holds an ASCII letter or digit |
| Platforms.DetectNeverDriveOrArchive | episodes-manager.js:108-130 | Google Drive and Archive.org are never detected |
| Platforms.WatchAddressDetected | episodes-manager.js:20-30 | a `watch?v=` address is YouTube, embedded with `?enablejsapi=1` only, with the `mqdefault` thumbnail |
| Platforms.DriveAddressMisread | episodes-manager.js:78 | a Drive address is detected as Dailymotion with id `https` |
| Platforms.DriveAddressDetectedFixed | episodes-manager.js:109-113 | with the Dailymotion host required, a Drive address is Drive and embeds its preview |
| Platforms.DailymotionPageMisread | episodes-manager.js:78-82 | a Dailymotion page embeds the id `https` |
| Platforms.DailymotionPageDetectedFixed | episodes-manager.js:78-88 | with the host required, a Dailymotion page embeds and thumbnails its own id |
| Episodes.MergeLaws | episodes-admin.js:430 | `{...ep, ...{}}` is `ep`, and spreading two patches in turn equals spreading their combination once |
| Episodes.DateOrToday | admin-system.js:587 | the typed date, or for an empty field a UTC midnight no more than a day before `now` |
| Js.TodayUnique | admin-system.js:587 | that midnight is the only one in the day `now` falls in |
| Episodes.MergeSpreads | episodes-admin.js:430 | every field the patch carries lands in the record and every other field keeps the record's value |
| Episodes.IndexOf | data-manager.js:109 | `findIndex` by id: the first record with the id, or none iff no record has it |
| Episodes.FindDuplicate | episodes-manager.js:632-645 | the first considered record whose title matches ignoring case or whose season and number are strictly equal; none iff there is none |
| Episodes.OwnTitleClashes | episodes-manager.js:632-645 | a record clashes with its own title unless it is the one being edited |
| Episodes.EditingSkipsItself | admin-system-complete.js:661-665 | re-saving an edited record unchanged finds no duplicate when no other record clashes |
| Episodes.Filter | data-manager.js:451-453 | `filter` keeps exactly the records the test accepts, as a sub-multiset |
| Episodes.Take | data-manager.js:494-496 | `slice(0, end)` is a prefix of the right length, with a negative end counting from the back |
| Episodes.IncrementViews | data-manager.js:420-430 | the first record with the id gains one view and nothing else changes; an unknown id changes nothing |
| Episodes.IncrementViewsTotal | main.js:495-501 | the view total rises by exactly one when the id is present, and the like total does not move |
| Episodes.SortDesc | admin-system-complete.js:829-831 | `sort((a, b) => key(b) - key(a))` is a permutation |
| Episodes.SortDescSorted | admin-system-complete.js:829-831 | the sorted list is in descending key order |
| Episodes.SortDescStable | admin-system-complete.js:829-831 | records with equal keys keep their relative order (the sort is stable) |
| Episodes.MathMax | episodes-admin.js:171 | `Math.max(...xs)` is NaN iff an argument is NaN, `-Infinity` iff every argument is, and otherwise the largest argument |
| Episodes.SuggestIsFresh | episodes-manager.js:230-249 | whenever the suggested season and number are finite, no stored episode has that pair |
| DataManager.Validate | data-manager.js:246-282 | valid iff every required field is present and non-blank, season and number are numeric, the address parses, and no stored record clashes |
| DataManager.StatusOf | data-manager.js:62-74 | as written, status is `published` iff the input flag is truthy; corrected, iff the stored flag is set |
| DataManager.NewEpisode | data-manager.js:52-74 | the stored record: id, description, parsed numbers, resolved embed, thumbnail fallback, the given date or today's UTC midnight, `published`, `allowComments` and `notifySubscribers` unless exactly `false`, `featured` only when `true`, the status rule, no views or likes |
| DataManager.AddEpisodeWith | data-manager.js:41-78 | invalid data fails with the list untouched; valid data is prepended, and the new record clashes with no stored one |
| DataManager.AddEpisodeDraftButPublished | data-manager.js:62-74 | leaving `published` out stores a published record whose status reads `draft` |
| DataManager.AddEpisodeFixedAgrees | data-manager.js:62-74 | with the status derived from the stored flag, status and flag agree |
| DataManager.UpdateEpisode | data-manager.js:107-130 | an unknown id fails; otherwise only the first record with the id changes: it keeps its id, takes every field the patch carries and keeps the others, and a truthy new address re-resolves the embed and, unless a thumbnail is given, the thumbnail |
| DataManager.UpdateEpisodeLaws | data-manager.js:117-122 | an empty patch changes nothing, an id in the patch is ignored, and the record stays findable at the same index |
| DataManager.DeleteEpisode | data-manager.js:158-166 | an unknown id fails; otherwise exactly the first record with the id is spliced out and the rest keep their order |
| DataManager.DeleteEpisodeRemovesId | data-manager.js:158-166 | with unique ids, the deleted id is gone afterwards |
| DataManager.AddThenDelete | data-manager.js:41-166 | deleting a record just added under a fresh id gives the list back |
| DataManager.GetEpisodes | data-manager.js:445-497 | every result is a stored record passing every filter; with a positive limit exactly `min(limit, matches)` records, with a negative one all but the last `-limit`, without one every matching record with its multiplicity; without a ranking order, a prefix of the matches in stored order |
| DataManager.GetEpisodesKeepsTop | data-manager.js:477-496 | under `newest`, `oldest` or `mostViewed`, no matching record left out by the limit ranks above a returned one |
| DataManager.GetEpisodesOrdered | data-manager.js:477-484 | `newest`, `oldest` and `mostViewed` come out in their promised order |
| DataManager.UpdateStats | data-manager.js:390-402 | the published, featured, recent and season counts never exceed the episode count |
| DataManager.StatsAfterAdd | data-manager.js:41-84 | an add raises the episode and recent counts by one and the published count by one iff the record is published; the view and like totals stay, and the season count grows by at most one |
| DataManager.StatsAfterView | data-manager.js:420-430 | a view raises the stored view total by one and leaves the like total |
| DataManager.HashData | data-manager.js:711-722 | the empty string hashes to the empty string; otherwise the result is the decimal text of the 32-bit wrapped `h*31 + code` hash and reads back as it |
| DataManager.ToInt32Congruent | data-manager.js:717 | `h & h` depends only on `h` modulo 2^32 |
| DataManager.CleanCorruptedData | data-manager.js:807-818 | exactly the records with an id, a title and an address survive |
| DataManager.CleanLaws | data-manager.js:807-818 | cleaning is idempotent and never removes a record that `addEpisode` stored under a non-empty id |
| DataManager.IdSetSize | data-manager.js:833-837 | `ids.length !== new Set(ids).size` exactly when some id repeats |
| DataManager.KeyIssues | data-manager.js:840-849 | no `S{season}E{number}` key issue is reported iff all keys are distinct |
| DataManager.IntegrityIssuesIff | data-manager.js:830-855 | no issue is reported iff ids are unique and no two records share a season-and-number key |
| EpisodesManager.AutoDetectNumbersLaws | episodes-manager.js:230-249 | an empty list suggests (1, 1); with numeric records the season is the largest stored one, the number is one more than the largest number stored in it, and the pair is not stored |
| EpisodesManager.AutoDetectNumbersNaN | episodes-manager.js:241 | a NaN season anywhere makes the suggested season NaN |
| EpisodesManager.ValidationError | episodes-manager.js:604-648 | `Campo requerido` iff a field is blank, `URL inválida` iff the address is undetected, no error iff neither and no other record clashes |
| EpisodesManager.CollectEpisodeData | episodes-manager.js:651-674 | trimmed title, description and address, parsed numbers, the detected platform's embed, the typed thumbnail else the platform's else the placeholder, the three flags, the date as typed; new records start at zero views, likes and `now`, edited ones keep theirs |
| EpisodesManager.CreateEpisode | episodes-manager.js:677-680 | appends at the end |
| EpisodesManager.UpdateEpisode | episodes-manager.js:683-690 | an unknown id fails; otherwise only that record is replaced |
| EpisodesManager.SaveNewEpisode | episodes-manager.js:544-601 | a valid new form appends a record with the fresh id, no views, and no clash with a stored one |
| EpisodesManager.SaveEditedEpisode | episodes-manager.js:544-601 | a valid edit replaces only the edited record, keeps its id, views and creation time, and clashes with no other record |
| EpisodesManager.Copy | episodes-manager.js:817-828 | fresh id, title plus ` (Copia)`, number plus one, unpublished, unfeatured, no views or likes |
| EpisodesManager.CopyLaws | episodes-manager.js:817-828 | every other field is copied, and the copy does not clash with its original |
| EpisodesManager.DuplicateEpisode | episodes-manager.js:804-837 | an unknown id changes nothing; otherwise the copy is appended |
| EpisodesManager.TitleSuggestions | episodes-manager.js:448-463 | exactly three suggestions: the first three patterns with the lower-cased title in place of `{title}` |
| EpisodesManager.DollarTitleSuggestion | episodes-manager.js:461 | a title `$&` becomes `{title}` again through `replace`'s special pattern |
| EpisodesManager.TitleSuggestionsLiteral | episodes-manager.js:461 | with a literal replacement, each suggestion holds the lower-cased title verbatim |
| EpisodesAdmin.AutoDetectNumbersLaws | episodes-admin.js:159-177 | an empty list suggests (1, 1); a finite suggestion is a pair no stored record has, its number one more than the largest `number \|\| 0` stored under that season |
| Episodes.SuggestIsNextInSeason | episodes-admin.js:171-176 | when the suggested season holds stored episodes, the suggested number is above each of their numbers and exactly one above one of them |
| EpisodesAdmin.AutoDetectNumbersMinusInfinity | episodes-admin.js:171-173 | with a falsy stored season, the season defaults to 1 but no record has season 1, so the number is `-Infinity` |
| EpisodesAdmin.ValidationError | episodes-admin.js:355-391 | `Campo requerido` iff a field is blank; no error iff fields are filled and no other record clashes |
| EpisodesAdmin.FormThumbnail | episodes-admin.js:403 | the typed thumbnail if non-blank, else the generated one, else `../img/thumbnail-placeholder.jpg` |
| EpisodesAdmin.CollectEpisodeData | episodes-admin.js:393-414 | trimmed title, description and address, parsed numbers, the three-host embed, the date as typed, the three boxes; a new record starts at zero views and `now`, an edited one keeps its stored views and creation time |
| EpisodesAdmin.AllowCommentsIgnoresBox | episodes-admin.js:407 | as written, an unticked comments box still stores `allowComments: true`, new or edited |
| EpisodesAdmin.AllowCommentsFollowsBox | episodes-admin.js:407 | with the box read as it is, comments are on exactly when the box is ticked |
| EpisodesAdmin.CreateEpisode | episodes-admin.js:416-422 | prepends a record under the fresh id that carries every field of the collected data, the others at their falsy default |
| EpisodesAdmin.UpdateEpisode | episodes-admin.js:424-432 | an unknown id fails with `Episodio no encontrado`; otherwise only that record is merged |
| EpisodesAdmin.SaveNewEpisode | episodes-admin.js:300-353 | a valid new form prepends a record with no views or likes that clashes with no stored one |
| EpisodesAdmin.SaveEditedEpisode | episodes-admin.js:300-353 | a valid edit changes only the edited record and keeps its id, views, likes and status |
| AdminSystem.ValidationError | admin-system.js:555-574 | only blank required fields are rejected: there is no duplicate check |
| AdminSystem.FormThumbnail | admin-system.js:586 | the typed thumbnail, else the YouTube one, else the form placeholder |
| AdminSystem.CollectEpisodeData | admin-system.js:576-598 | trimmed fields and three-host embed; the typed date, or for an empty field the UTC midnight starting today; views and createdAt come from the edited record, else 0 and `now` |
| AdminSystem.SaveNewEpisode | admin-system.js:498-553 | a complete new form prepends a record under the fresh id even when it repeats a stored episode |
| AdminSystem.SaveEditedEpisode | admin-system.js:498-553 | an edit keeps the id, views, likes and stored creation time, and leaves the other records untouched |
| AdminSystem.BulkDelete | admin-system.js:879 | exactly the records whose id is not selected remain |
| AdminSystem.BulkDeleteCount | admin-system.js:879 | the records kept and the records removed add up to the list |
| AdminSystem.BulkUpdate | admin-system.js:888-894 | only the first record with each selected id changes, and only its `published` flag |
| AdminSystem.HandleBulkAction | admin-system.js:847-894 | an empty selection, an unknown action or an unconfirmed delete changes nothing; delete removes the selection; publish and unpublish set the flag on the first record of each selected id and change nothing else |
| AdminSystem.PublishThenUnpublish | admin-system.js:888-894 | unpublishing after publishing the same selection leaves the first record with each selected id unpublished and every other record as it was |
| AdminSystemComplete.AutoDetectNumbersFinite | admin-system-complete.js:440-466 | the suggestion is always finite, (1, 1) for an empty list, and no stored record has it |
| AdminSystemComplete.GuardFixesMinusInfinity | admin-system-complete.js:453-461 | where episodes-admin.js gives `-Infinity`, this version suggests number 1 |
| AdminSystemComplete.ValidationError | admin-system-complete.js:644-679 | `Campo requerido` iff a field is blank, a duplicate error iff another record clashes, no error otherwise |
| AdminSystemComplete.SaveNewEpisode | admin-system-complete.js:578-642 | a valid new form prepends a record under the fresh id that clashes with no stored one |
| AdminSystemComplete.SaveEditedEpisode | admin-system-complete.js:578-642 | an unknown edited id fails; a valid edit keeps views and creation time |
| AdminSystemComplete.RecentEpisodes | admin-system-complete.js:829-831 | at most five records, a prefix of the stored list, which comes back as a permutation of itself |
| AdminSystemComplete.RecentAreNewest | admin-system-complete.js:829-831 | the stored list comes back re-sorted newest first, and the five shown are at least as new as any left out |
| AdminSimpleFixed.SaveEpisode | admin-simple-fixed.js:160-254 | a missing field or a zero or NaN number fails first, then any clash with a stored episode; otherwise the record is prepended with the form's fields, no views or likes, and the typed date or, for an empty field, the UTC midnight starting today |
| AdminSimpleFixed.NewThumbnail | admin-simple-fixed.js:210 | the generated thumbnail, else `img/thumbnail-placeholder.jpg` |
| AdminSimpleFixed.SavedEpisodeIsNew | admin-simple-fixed.js:176-200 | a saved record has non-zero integer season and number and clashes with no stored one |
| AdminSimpleFixed.NextEpisodeNumber | admin-simple-fixed.js:328-332 | 1 for an empty list; otherwise one more than the largest `number \|\| 0` over all seasons |
| AdminSimpleFixed.NextEpisodeNumberIsFresh | admin-simple-fixed.js:328-332 | no stored record carries the suggested number |
| Sessions.CheckAuth | admin-system.js:31-42 | valid iff the session decodes and `expiry > now`; exactly a garbled session is removed (also admin-system-complete.js:39-61, main.js:360-376) |
| Sessions.InitializeAdmin | admin-simple-fixed.js:352-389 | invalid iff nothing decodes or `expiry <= now`, and then the session is removed |
| Sessions.InitializeAdminAgrees | admin-simple-fixed.js:363-370 | agrees with `expiry > now` whenever an expiry is stored, and accepts a session without one |
| Sessions.SiteLogin | main.js:203-224 | a session exists iff the credentials are `XMyUsername`/`admin123`, expiring at `now + 86 400 000` (main-fixed.js:274-287 and script.js:313-318 match) |
| Sessions.SiteLoginLasts | main.js:360-376 | a fresh login checks valid exactly until 24 hours have passed |
| Sessions.Login | auth.js:42-66 | success iff both credentials match; failure writes nothing; expiry is 30 days with remember-me, else 24 hours |
| Sessions.Logout | auth.js:69-72 | removes the session and nothing else |
| Sessions.LoginThenCheck | auth.js:10-25 | after login the session checks valid exactly until its lifetime ends; after logout it never does |
| Sessions.HandleAuth | auth.js:28-39 | redirect to login iff a protected page has no valid session; to the dashboard iff the login page has one |
| Site.FeaturedFirstSix | main.js:250-252 | at most six records, all featured and published, in stored order (script.js:448-450 matches) |
| Site.FeaturedFirstSixComplete | main.js:250-252 | with six or fewer showcase records all are shown, otherwise exactly six |
| Site.FeaturedOrRecent | main-fixed.js:70-78 | every showcase record, each once and uncapped; with none, exactly `min(6, published count)` published records |
| Site.FeaturedFallbackNewest | main-fixed.js:74-77 | the fallback is newest first and leaves out no published record newer than one it shows |
| Site.CountersAll | main.js:325-330 | every record, every distinct season and all views (script.js:528-536 matches) |
| Site.CountersPublished | main-fixed.js:212-217 | published records and their seasons, but the views of all |
| Site.CountersCompare | main-fixed.js:212-217 | the published counters never exceed the full ones and equal them when every record is published |
| Site.NewEpisodeWindow | main-fixed.js:206-210 | the new badge shows for exactly three days after the stamp and does not come back |
| Site.PlayerUrl | main-fixed.js:432-439 | the `dai.ly` embed whenever the address holds `dai.ly`; else the embed address if non-empty; else the video address |
| Site.PlayerUrlMatchesSavedEmbed | main-fixed.js:432-439 | a `dai.ly` episode saved by the stand-alone admin page plays the embed stored with it |
| Site.PlayEpisode | main-fixed.js:417-439 | an unknown id is an error that writes nothing; otherwise one view is added and the player opens |
| Site.PlayEpisodeCountsOnce | main-fixed.js:429-430 | playing adds exactly one view and keeps the like total and the length |
| Site.InitialTheme | script.js:95 | the stored theme, or `light` |
| Site.ToggleTheme | script.js:101-103 | `light` becomes `dark`, anything else becomes `light` |
| Site.ToggleThemeTwice | script.js:101-103 | two presses restore `light` or `dark`, and from any other value the toggle settles into the light/dark cycle |
| Site.ThemeSurvivesReload | script.js:93-110 | the theme a press stores is the one the next load shows; a first visit starts light and one press makes it dark |
| Site.TrackVisit | script.js:565-569 | a missing count becomes 1, a number `n` becomes `n + 1` |
| Site.VisitsCounted | script.js:565-569 | after `k` visits from an empty store the counter reads `k` |
| UiUpdater.DetectCurrentPage | ui-updater.js:21-35 | always one of seven labels, with `admin` first, then `dashboard`, `episodios`, `stats`, else plain `admin` inside it, and `episodios`, `acerca`, `home` outside |
| UiUpdater.AdminPrecedence | ui-updater.js:24-31 | the label starts with `admin` iff the path holds `admin`, so an admin path never gets `episodes` |
| UiUpdater.StatsGating | ui-updater.js:129-136 | the dashboard figures refresh exactly on paths holding `admin` |
| UiUpdater.GetEmptyState | ui-updater.js:622-634 | every kind gets the `episodios` placeholder |
| Effects.KeyDown | shin-chan-effects.js:207-216 | the window keeps at most ten codes, the last ten pressed; it fires iff they are the Konami sequence, and then empties |
| Effects.KeysKeepRecent | shin-chan-effects.js:207-211 | after any run of presses the buffer is a tail of everything pressed, in arrival order |
| Effects.ShortRunsHoldEverything | shin-chan-effects.js:208-216 | fewer than ten presses after a reset leave exactly those presses and never fire |
| Effects.KonamiFires | shin-chan-effects.js:213-216 | the sequence itself fires once and leaves the buffer empty |
| Effects.LogoClick | shin-chan-effects.js:223-228 | a click fires iff it is the fifth, and then the count resets |
| Effects.ClicksCycle | shin-chan-effects.js:220-229 | after `k` clicks the count is `k mod 5`, and the egg fires on every fifth click only |
| Notifications.ClassifyVisitor | notifications.js:54-69 | welcome iff no last visit is stored; welcome-back iff the stamp parses and more than seven whole days have passed; otherwise a content check; the stamp becomes `now` |
| Notifications.WeekPassed | notifications.js:56 | more than seven whole days have passed iff at least 8 × 86 400 000 ms have |
| Notifications.ReturnVisit | notifications.js:54-69 | the visit after one at `now` is welcomed back iff at least eight days have passed, and otherwise checks content |
| Notifications.CheckForNewContent | notifications.js:111-124 | the new episodes are exactly those stamped after the last check (`'0'` when none), as many as match and led by the first match in stored order; the notice shows iff there is one; the check stamp becomes `now` |
| Notifications.CheckForNewContentStamps | notifications.js:111-124 | a first check counts everything after the epoch; the next counts exactly the episodes stamped after the previous check |
| Notifications.NewEpisodeMessage | notifications.js:127-137 | the singular notice with the title for one episode; otherwise the count and `Incluyendo: ` plus the first title |
| Notifications.PromptScheduled | notifications.js:317-329 | the prompt is scheduled iff never asked, supported, and the permission is `default` |
| Notifications.PromptAskedOnce | notifications.js:317-342 | a first visit schedules the prompt when supported and undecided, and once it has been asked no visit schedules it again |

## Left out

- DOM rendering, modals, dialogs, event wiring, timers, animations, the preloader, audio, vibration, the service worker (sw.js), cross-tab sync and the update queue of ui-updater.js: presentation and concurrency.
- `localStorage`, `JSON` and `btoa`/`atob`: storage values are parameters and results. A stored session is `Missing`, `Garbled` or a decoded record. A JSON `null` or a non-numeric expiry is not modelled.
- Dates and clocks: `now`, `createdAt` and subtitle dates are integers in milliseconds. `Episodes.Stamp` reads a missing date as 0, and the `getEpisodes` sort treats a missing `createdAt` as 0.
- EpisodesManager.StoredDate: episodes-manager.js and episodes-admin.js store an empty date field as the empty text; the model stores 0, its falsy reading, because dates are integers here.
- Js.ParseInt: a `0x`/`0X` prefix is read as decimal 0, where `parseInt` with the default radix reads hexadecimal (`"0x1A"` is 26). Values above 2^53 are exact, where JavaScript rounds them to the nearest double.
- Fresh ids from `Math.random`/`Date.now` are parameters. So are the random choice of welcome messages and the `Math.random` description text.
- `new URL(...)` in `validateEpisodeData` is the `urlParses` parameter: it is a foreign parser.
- The `getVideoInfo` oEmbed calls of episodes-manager.js: network I/O.
- `toLowerCase` folds ASCII letters only. Full Unicode case mapping is not modelled. The non-Unicode `i` flag of the patterns folds only ASCII, as the model does.
- A non-BMP character counts as one code in the patterns and in `hashData`, where JavaScript counts two UTF-16 units. For example, `https://youtu.be/` followed by six astral emoji holds 12 units: the regex captures 11 of them, splitting a surrogate pair, while the model finds no id.
- `DataManager.GetEpisodes`: the `title` and `season` sort keys keep stored order. `localeCompare` and the chained numeric comparator are not modelled.
- Loose `==` in the `incrementViews` of main.js and script.js is modelled as strict id equality.
- The `updatedAt`, `creator`, `tags`, `quality`, `language` and `lastViewed` fields are not stored.
- The TypeError that episodes-manager.js throws when an edited id has vanished is modelled as a failed save.
- `getEmptyState` with an inherited prototype key such as `constructor` is not modelled.
- `document.hidden` in the permission prompt, and the `Notification`/push APIs behind the prompt: browser APIs.
- Resolvers.FiveHostIdempotent: stated only for inputs whose Streamable rule is unused and whose Drive id has no dot, because a Streamable embed reads back as id `e` (see Resolvers.StreamableEmbedNotFixed).
- Effects.KeyDown: its contract speaks of buffers of at most ten codes, the only ones the handler ever holds.
- Each script reads its own session key (`joshuaPlataSession`, `adminSession`, …). The model keeps one stored value per check and does not name keys.

## Findings

| source | as written | input that shows it | evidently intended | confidence | as-written member | corrected member |
|---|---|---|---|---|---|---|
| episodes-manager.js:78 | the `dailymotion.com/…` prefix of the Dailymotion pattern is optional, so it matches any letter or digit and captures the first alphanumeric run | `https://drive.google.com/file/d/abc/view` is detected as Dailymotion with id `https` | the host is required, so Drive and Archive addresses reach their own entries | high (not executed) | Platforms.DriveAddressMisread | Platforms.DriveAddressDetectedFixed |
| episodes-manager.js:78-82 | a real Dailymotion page embeds the id `https` | `https://www.dailymotion.com/video/x8abc` embeds `…/embed/video/https` | the page's own id `x8abc` | high (not executed) | Platforms.DailymotionPageMisread | Platforms.DailymotionPageDetectedFixed |
| data-manager.js:62,74 | `published` is `!== false` but `status` uses truthiness | data without `published` stores `published: true, status: 'draft'` | status derived from the stored flag | medium (not executed) | DataManager.AddEpisodeDraftButPublished | DataManager.AddEpisodeFixedAgrees |
| episodes-admin.js:407 | `checked \|\| true` is always true | an unticked comments box stores `allowComments: true` | the box's value | high (not executed) | EpisodesAdmin.AllowCommentsIgnoresBox | EpisodesAdmin.AllowCommentsFollowsBox |
| episodes-admin.js:171-173 | a falsy stored season defaults to 1 for the maximum, but the season filter compares the raw value, so no record is in season 1 | one stored record with no season suggests episode number `-Infinity` | a finite suggestion | high (not executed) | EpisodesAdmin.AutoDetectNumbersMinusInfinity | AdminSystemComplete.GuardFixesMinusInfinity |
| episodes-manager.js:461 | `replace('{title}', t)` expands `$&` and similar in the title | the title `$&` suggests `¡{title}!` | the title inserted literally | medium (not executed) | EpisodesManager.DollarTitleSuggestion | EpisodesManager.TitleSuggestionsLiteral |

=== FILE: admin_simple_fixed.dfy ===
/**
 * The stand-alone admin page of admin-simple-fixed.js: one save path that
 * only creates, its own form check (falsy text, a season or number that
 * parses to 0 or NaN, the duplicate rule over every stored episode), the
 * next-number suggestion and the session check on load.
 */
module AdminSimpleFixed {
  import opened Js
  import opened Episodes
  import Resolvers
  import Video

  /** The values `saveEpisode` reads from its form. */
  datatype Form = Form(
    title: string,
    description: string,
    season: string,
    number: string,
    videoUrl: string,
    subtitleStamp: Option<int>,
    published: bool,
    featured: bool)

  const MissingFields := "Todos los campos marcados con * son obligatorios"
  const DuplicateEpisode := "Episodio duplicado"

  /** `!title || !description || !videoUrl || !season || !episodeNum` after
      trimming and `parseInt`: a season or number of 0 counts as missing. */
  predicate FieldsGiven(f: Form) {
    Trim(f.title) != "" && Trim(f.description) != "" && Trim(f.videoUrl) != ""
    && Truthy(ParseInt(f.season)) && Truthy(ParseInt(f.number))
  }

  /** The thumbnail of a new episode: the generated one, else the site
      placeholder. */
  function NewThumbnail(url: string): (t: string)
    ensures Resolvers.ShortAwareThumbnail(url).None? ==> t == Video.ThumbnailPlaceholder
    ensures Resolvers.ShortAwareThumbnail(url).Some? && Resolvers.ShortAwareThumbnail(url).value != "" ==>
      t == Resolvers.ShortAwareThumbnail(url).value
  {
    var auto := Resolvers.ShortAwareThumbnail(url);
    if auto.Some? && auto.value != "" then auto.value else Video.ThumbnailPlaceholder
  }

  /** `saveEpisode`: on a complete form without a duplicate among all the
      stored episodes (nothing is skipped: this page only creates), the new
      record goes in front with no views or likes. An empty date field
      dates the episode to the start of today. */
  function SaveEpisode(eps: seq<Episode>, f: Form, freshId: string, now: int): (r: Result<seq<Episode>>)
    ensures !FieldsGiven(f) <==> r == Fail(MissingFields)
    ensures r == Fail(DuplicateEpisode) <==>
      FieldsGiven(f) && exists j :: 0 <= j < |eps| && Clashes(eps[j], Trim(f.title), ParseInt(f.season), ParseInt(f.number))
    ensures r.Ok? ==> (|r.value| == |eps| + 1 && r.value[1..] == eps
      && r.value[0].id == freshId && r.value[0].views == 0 && r.value[0].likes == 0
      && r.value[0].title == Trim(f.title) && r.value[0].videoUrl == Trim(f.videoUrl)
      && r.value[0].embedUrl == Resolvers.ShortFirstEmbed(Trim(f.videoUrl))
      && r.value[0].thumbnail == NewThumbnail(Trim(f.videoUrl))
      && r.value[0].createdAt == Some(now))
    ensures r.Ok? ==> (r.value[0].description == Trim(f.description)
      && r.value[0].season == ParseInt(f.season) && r.value[0].number == ParseInt(f.number)
      && r.value[0].published == f.published && r.value[0].featured == f.featured)
    ensures r.Ok? && f.subtitleStamp.Some? ==> r.value[0].subtitleDate == f.subtitleStamp.value
    ensures r.Ok? && f.subtitleStamp.None? ==> var d := r.value[0].subtitleDate;
      d <= now < d + DayMs && d % DayMs == 0
  {
    var title := Trim(f.title);
    var season := ParseInt(f.season);
    var number := ParseInt(f.number);
    var url := Trim(f.videoUrl);
    if !FieldsGiven(f) then Fail(MissingFields)
    else if FindDuplicate(eps, title, season, number, None).Some? then Fail(DuplicateEpisode)
    else
      var ep := Merge(Blank(freshId), Patch(
        None, Some(title), Some(Trim(f.description)), Some(season), Some(number),
        Some(url), Some(Resolvers.ShortFirstEmbed(url)), Some(NewThumbnail(url)),
        Some(DateOrToday(f.subtitleStamp, now)), Some(now), Some(f.published), Some(f.featured),
        None, None, Some(0), Some(0), None));
      Ok([ep] + eps)
  }

  /** A saved episode shares neither its title (in any letter case) nor its
      season and number with a stored one, and its season and number are
      non-zero integers. */
  lemma SavedEpisodeIsNew(eps: seq<Episode>, f: Form, freshId: string, now: int)
    requires SaveEpisode(eps, f, freshId, now).Ok?
    ensures var ep := SaveEpisode(eps, f, freshId, now).value[0];
      ep.season.Int? && ep.season.v != 0 && ep.number.Int? && ep.number.v != 0
      && forall j :: 0 <= j < |eps| ==> !Clashes(eps[j], ep.title, ep.season, ep.number)
  {
    var ep := SaveEpisode(eps, f, freshId, now).value[0];
    assert FindDuplicate(eps, Trim(f.title), ParseInt(f.season), ParseInt(f.number), None).None?;
  }

  /** `getNextEpisodeNumber`: 1 for an empty list, otherwise one more than
      the largest `number || 0` over every season. */
  function NextEpisodeNumber(eps: seq<Episode>): (n: int)
    ensures |eps| == 0 ==> n == 1
    ensures forall j :: 0 <= j < |eps| ==> OrDefault(eps[j].number, 0) < n
    ensures |eps| > 0 ==> exists j :: 0 <= j < |eps| && n == OrDefault(eps[j].number, 0) + 1
  {
    if |eps| == 0 then 1
    else
      var vs := Values(eps, (ep: Episode) => Fin(OrDefault(ep.number, 0)));
      var m := MathMax(vs);
      assert vs[0].Fin?;
      assert m.Fin?;
      m.v + 1
  }

  /** No stored episode, in any season, carries the suggested number. */
  lemma NextEpisodeNumberIsFresh(eps: seq<Episode>)
    ensures forall j :: 0 <= j < |eps| ==> !StrictEq(eps[j].number, Int(NextEpisodeNumber(eps)))
  {
    var n := NextEpisodeNumber(eps);
    forall j | 0 <= j < |eps| && eps[j].number.Int?
      ensures eps[j].number.v < n
    {
      assert OrDefault(eps[j].number, 0) < n;
    }
  }
}

=== FILE: admin_system.dfy ===
/**
 * The admin panel of admin-system.js: a form check that only asks for the
 * required fields, a record built from the form (three-host embed,
 * YouTube-only thumbnail, stored views and creation time kept when
 * editing), new episodes in front, and the bulk actions on a selection of
 * ids.
 */
module AdminSystem {
  import opened Js
  import opened Episodes
  import Resolvers
  import Video
  import EpisodesAdmin
  import EpisodesManager

  type Form = EpisodesManager.Form

  // ------------------------------------------------------------ validateEpisodeForm

  /** Title, description, video address, season and number are not blank. */
  predicate RequiredFilled(f: Form) {
    !IsBlank(f.title) && !IsBlank(f.description) && !IsBlank(f.videoUrl)
    && !IsBlank(f.season) && !IsBlank(f.number)
  }

  /** `validateEpisodeForm`: only the required fields; the stored episodes
      are not consulted, so a duplicate passes. */
  function ValidationError(f: Form): (r: Option<string>)
    ensures r.None? <==> RequiredFilled(f)
    ensures r.Some? ==> r.value == "Campo requerido"
  {
    if RequiredFilled(f) then None else Some("Campo requerido")
  }

  // ------------------------------------------------------------ collectEpisodeData

  /** The typed thumbnail, else the YouTube one, else the form placeholder. */
  function FormThumbnail(typed: string, url: string): (t: string)
    ensures Trim(typed) != "" ==> t == Trim(typed)
    ensures Trim(typed) == "" && Resolvers.YouTubeOnlyThumbnail(url).None? ==> t == Video.FormThumbnailPlaceholder
    ensures Trim(typed) == "" && Resolvers.YouTubeOnlyThumbnail(url).Some? && Resolvers.YouTubeOnlyThumbnail(url).value != "" ==>
      t == Resolvers.YouTubeOnlyThumbnail(url).value
  {
    var auto := Resolvers.YouTubeOnlyThumbnail(url);
    if Trim(typed) != "" then Trim(typed)
    else if auto.Some? && auto.value != "" then auto.value
    else Video.FormThumbnailPlaceholder
  }

  /** The stored record being edited, if it is there. */
  function Edited(eps: seq<Episode>, editing: Option<string>): (r: Option<Episode>)
    ensures r.Some? <==> editing.Some? && IndexOf(eps, editing.value).Some?
    ensures r.Some? ==> r.value == eps[IndexOf(eps, editing.value).value]
  {
    if editing.Some? && IndexOf(eps, editing.value).Some? then Some(eps[IndexOf(eps, editing.value).value])
    else None
  }

  /** `collectEpisodeData`: the trimmed form, the three-host embed, the
      typed date or else the start of today, the edited record's views
      (`|| 0`) and creation time (`|| now`). With the
      `?.` lookups a missing record reads as a new one. The record has no
      id, likes, status or comment flags. */
  function CollectEpisodeData(eps: seq<Episode>, f: Form, editing: Option<string>, now: int): (r: Patch)
    ensures r.id.None? && r.likes.None? && r.status.None? && r.allowComments.None? && r.notifySubscribers.None?
    ensures r.title == Some(Trim(f.title)) && r.description == Some(Trim(f.description))
    ensures r.season == Some(ParseInt(f.season)) && r.number == Some(ParseInt(f.number))
    ensures r.videoUrl == Some(Trim(f.videoUrl))
    ensures r.embedUrl == Some(Resolvers.ThreeHostEmbed(Trim(f.videoUrl)))
    ensures r.thumbnail == Some(FormThumbnail(f.thumbnail, Trim(f.videoUrl)))
    ensures r.published == Some(f.published) && r.featured == Some(f.featured)
    ensures f.subtitleStamp.Some? ==> r.subtitleDate == f.subtitleStamp
    ensures f.subtitleStamp.None? ==> r.subtitleDate.Some? && var d := r.subtitleDate.value;
      d <= now < d + DayMs && d % DayMs == 0
    ensures Edited(eps, editing).Some? ==> r.views == Some(Edited(eps, editing).value.views)
    ensures Edited(eps, editing).None? ==> r.views == Some(0) && r.createdAt == Some(now)
    ensures Edited(eps, editing).Some? && Edited(eps, editing).value.createdAt.Some? ==>
      r.createdAt == Edited(eps, editing).value.createdAt
  {
    var url := Trim(f.videoUrl);
    var prev := Edited(eps, editing);
    Patch(
      None, Some(Trim(f.title)), Some(Trim(f.description)),
      Some(ParseInt(f.season)), Some(ParseInt(f.number)),
      Some(url), Some(Resolvers.ThreeHostEmbed(url)), Some(FormThumbnail(f.thumbnail, url)),
      Some(DateOrToday(f.subtitleStamp, now)),
      if prev.Some? && prev.value.createdAt.Some? then prev.value.createdAt else Some(now),
      Some(f.published), Some(f.featured), None, None,
      Some(if prev.Some? then prev.value.views else 0),
      None, None)
  }

  // ------------------------------------------------------------ saving

  /** `saveEpisode`: check, collect, then `updateEpisode` (which throws for
      an unknown id) or `createEpisode` (in front, under a fresh id). */
  function SaveEpisode(eps: seq<Episode>, f: Form, editing: Option<string>, freshId: string, now: int)
    : (r: Result<seq<Episode>>)
    ensures !RequiredFilled(f) ==> r == Fail("Campo requerido")
    ensures RequiredFilled(f) && editing.Some? && IndexOf(eps, editing.value).None? ==>
      r == Fail("Episodio no encontrado")
    ensures r.Ok? ==> RequiredFilled(f)
  {
    var err := ValidationError(f);
    if err.Some? then Fail(err.value)
    else
      var data := CollectEpisodeData(eps, f, editing, now);
      if editing.Some? then EpisodesAdmin.UpdateEpisode(eps, editing.value, data)
      else Ok(EpisodesAdmin.CreateEpisode(eps, data, freshId))
  }

  /** A filled-in form for a new episode goes in front under the fresh id
      with no views or likes, even when it repeats a stored episode. */
  lemma SaveNewEpisode(eps: seq<Episode>, f: Form, freshId: string, now: int)
    requires RequiredFilled(f)
    ensures var r := SaveEpisode(eps, f, None, freshId, now);
      r.Ok? && |r.value| == |eps| + 1 && r.value[1..] == eps
      && r.value[0].id == freshId && r.value[0].views == 0 && r.value[0].likes == 0
      && r.value[0].title == Trim(f.title) && r.value[0].createdAt == Some(now)
  {
  }

  /** Editing keeps the length, the id, the views, the likes, a stored
      creation time and every other record. */
  lemma SaveEditedEpisode(eps: seq<Episode>, f: Form, id: string, freshId: string, now: int)
    requires RequiredFilled(f) && IndexOf(eps, id).Some?
    ensures var r := SaveEpisode(eps, f, Some(id), freshId, now);
      var k := IndexOf(eps, id).value;
      r.Ok? && |r.value| == |eps| && r.value[k].id == id
      && r.value[k].views == eps[k].views && r.value[k].likes == eps[k].likes
      && (eps[k].createdAt.Some? ==> r.value[k].createdAt == eps[k].createdAt)
      && forall j :: 0 <= j < |eps| && j != k ==> r.value[j] == eps[j]
  {
  }

  // ------------------------------------------------------------ bulk actions

  /** `bulkDeleteEpisodes` once confirmed: `filter(ep => !ids.includes(ep.id))`. */
  function BulkDelete(eps: seq<Episode>, ids: seq<string>): (r: seq<Episode>)
    ensures forall ep :: ep in r <==> ep in eps && ep.id !in ids
    ensures multiset(r) <= multiset(eps)
  {
    Filter(eps, (ep: Episode) => ep.id !in ids)
  }

  /** Exactly the selected records go: the remaining count is the
      original less the number of records with a selected id. */
  lemma BulkDeleteCount(eps: seq<Episode>, ids: seq<string>)
    ensures |BulkDelete(eps, ids)| + Count(eps, (ep: Episode) => ep.id in ids) == |eps|
  {
    FilterSplit(eps, (ep: Episode) => ep.id !in ids, (ep: Episode) => ep.id in ids);
  }

  /** Record `j` is the first with its id, the one `find` returns. */
  predicate FirstWithId(eps: seq<Episode>, j: nat)
    requires j < |eps|
  {
    IndexOf(eps, eps[j].id) == Some(j)
  }

  /** `find(ep => ep.id === id)` then `Object.assign(ep, { published })`. */
  function SetPublished(eps: seq<Episode>, id: string, published: bool): (r: seq<Episode>)
    ensures SameIds(r, eps)
    ensures forall j :: 0 <= j < |eps| ==>
      r[j] == if eps[j].id == id && FirstWithId(eps, j) then eps[j].(published := published) else eps[j]
  {
    var i := IndexOf(eps, id);
    if i.None? then eps else eps[i.value := eps[i.value].(published := published)]
  }

  /** `bulkUpdateEpisodes(ids, { published })`: for each selected id in
      turn, the first record with that id gets the flag. Only those
      records change, and only in that flag. */
  function BulkUpdate(eps: seq<Episode>, ids: seq<string>, published: bool): (r: seq<Episode>)
    ensures SameIds(r, eps)
    ensures forall j :: 0 <= j < |eps| ==>
      r[j] == if eps[j].id in ids && FirstWithId(eps, j) then eps[j].(published := published) else eps[j]
    decreases |ids|
  {
    if |ids| == 0 then eps
    else
      var step := SetPublished(eps, ids[0], published);
      var r := BulkUpdate(step, ids[1..], published);
      assert forall j :: 0 <= j < |eps| ==> (FirstWithId(step, j) <==> FirstWithId(eps, j)) by {
        forall j | 0 <= j < |eps|
          ensures FirstWithId(step, j) <==> FirstWithId(eps, j)
        {
          IndexOfSameIds(step, eps, eps[j].id);
        }
      }
      assert forall j :: 0 <= j < |eps| ==> (eps[j].id in ids <==> eps[j].id == ids[0] || eps[j].id in ids[1..]) by {
        assert ids == [ids[0]] + ids[1..];
      }
      r
  }

  /** The bulk actions. */
  datatype BulkAction = Delete | Publish | Unpublish | Other

  /** `handleBulkAction`: an empty selection changes nothing; a deletion
      waits for the confirmation; publishing and unpublishing set the flag. */
  function HandleBulkAction(eps: seq<Episode>, ids: seq<string>, action: BulkAction, confirmed: bool)
    : (r: seq<Episode>)
    ensures |ids| == 0 ==> r == eps
    ensures action.Delete? && !confirmed ==> r == eps
    ensures action.Other? ==> r == eps
    ensures action.Delete? && confirmed ==> forall ep :: ep in r <==> ep in eps && ep.id !in ids
    ensures !action.Delete? ==> SameIds(r, eps)
    ensures action.Publish? || action.Unpublish? ==> forall j :: 0 <= j < |eps| ==>
      r[j] == if eps[j].id in ids && FirstWithId(eps, j) then eps[j].(published := action.Publish?) else eps[j]
  {
    if |ids| == 0 then eps
    else
      match action
      case Delete => if confirmed then BulkDelete(eps, ids) else eps
      case Publish => BulkUpdate(eps, ids, true)
      case Unpublish => BulkUpdate(eps, ids, false)
      case Other => eps
  }

  /** Publishing then unpublishing the same selection gives back the
      stored flags of every record the selection does not reach, and
      clears the flag on those it does. */
  lemma PublishThenUnpublish(eps: seq<Episode>, ids: seq<string>)
    ensures var r := BulkUpdate(BulkUpdate(eps, ids, true), ids, false);
      SameIds(r, eps)
      && forall j :: 0 <= j < |eps| ==>
        r[j] == if eps[j].id in ids && FirstWithId(eps, j) then eps[j].(published := false) else eps[j]
  {
    var mid := BulkUpdate(eps, ids, true);
    forall j | 0 <= j < |eps|
      ensures FirstWithId(mid, j) <==> FirstWithId(eps, j)
    {
      IndexOfSameIds(mid, eps, eps[j].id);
    }
  }
}

=== FILE: admin_system_complete.dfy ===
/**
 * The admin panel of admin-system-complete.js. It builds records exactly
 * as admin-system.js does, and adds the duplicate rule to the form check,
 * a guarded next-number suggestion and the dashboard's five most recent
 * episodes.
 */
module AdminSystemComplete {
  import opened Js
  import opened Episodes
  import EpisodesAdmin
  import EpisodesManager
  import AdminSystem

  type Form = EpisodesManager.Form

  // ------------------------------------------------------------ autoDetectNumbers

  /** `autoDetectNumbers`: like the copy in episodes-admin.js, but an empty
      largest season gives number 0 before the increment. */
  function AutoDetectNumbers(eps: seq<Episode>): Suggestion {
    Suggest(eps, EpisodesAdmin.SeasonOrOne, EpisodesAdmin.NumberOrZero, true)
  }

  /** With the guard the suggestion is always a pair of finite numbers,
      where the unguarded copy can give `-Infinity`; it is (1, 1)
      for an empty list and never names a stored (season, number) pair. */
  lemma AutoDetectNumbersFinite(eps: seq<Episode>)
    ensures AutoDetectNumbers(eps).season.Fin? && AutoDetectNumbers(eps).number.Fin?
    ensures |eps| == 0 ==> AutoDetectNumbers(eps) == Suggestion(Fin(1), Fin(1))
    ensures var s := AutoDetectNumbers(eps);
      forall j :: 0 <= j < |eps| ==> !(StrictEq(eps[j].season, Int(s.season.v)) && StrictEq(eps[j].number, Int(s.number.v)))
  {
    if |eps| > 0 {
      var vs := Values(eps, EpisodesAdmin.SeasonOrOne);
      var m := MathMax(vs);
      assert vs[0].Fin?;
      assert !m.NotANumber? && !m.NegInf?;
      var inSeason := SeasonEpisodes(eps, m);
      if |inSeason| > 0 {
        var ns := Values(inSeason, EpisodesAdmin.NumberOrZero);
        assert ns[0].Fin?;
        assert forall i :: 0 <= i < |ns| ==> ns[i].Fin?;
      }
    }
    SuggestIsFresh(eps, EpisodesAdmin.SeasonOrOne, EpisodesAdmin.NumberOrZero, true);
  }

  /** The suggestion of episodes-admin.js for a single season-less episode
      is (1, `-Infinity`); the guarded rule gives (1, 1). */
  lemma GuardFixesMinusInfinity(ep: Episode)
    requires !Truthy(ep.season)
    ensures EpisodesAdmin.AutoDetectNumbers([ep]) == Suggestion(Fin(1), NegInf)
    ensures AutoDetectNumbers([ep]) == Suggestion(Fin(1), Fin(1))
  {
    EpisodesAdmin.AutoDetectNumbersMinusInfinity(ep);
    var m := MathMax(Values([ep], EpisodesAdmin.SeasonOrOne));
    assert Values([ep], EpisodesAdmin.SeasonOrOne)[0] == Fin(1);
    assert m == Fin(1);
    assert SeasonEpisodes([ep], m) == [] by {
      assert !InSeason(ep, m);
    }
  }

  // ------------------------------------------------------------ validateEpisodeForm

  /** `validateEpisodeForm`: the required fields, then no other episode may
      share the trimmed title in any letter case or the parsed season and
      number. */
  function ValidationError(eps: seq<Episode>, f: Form, editing: Option<string>): (r: Option<string>)
    ensures r.None? <==> AdminSystem.RequiredFilled(f) && EpisodesManager.NoDuplicate(eps, f, editing)
    ensures r == Some("Campo requerido") <==> !AdminSystem.RequiredFilled(f)
    ensures r == Some("Episodio duplicado") <==> AdminSystem.RequiredFilled(f) && !EpisodesManager.NoDuplicate(eps, f, editing)
  {
    if !AdminSystem.RequiredFilled(f) then Some("Campo requerido")
    else if FindDuplicate(eps, Trim(f.title), ParseInt(f.season), ParseInt(f.number), editing).Some? then
      Some("Episodio duplicado")
    else None
  }

  // ------------------------------------------------------------ saving

  /** `saveEpisode`: check, collect as admin-system.js does, then update or
      prepend. */
  function SaveEpisode(eps: seq<Episode>, f: Form, editing: Option<string>, freshId: string, now: int)
    : (r: Result<seq<Episode>>)
    ensures ValidationError(eps, f, editing).Some? ==> r == Fail(ValidationError(eps, f, editing).value)
    ensures r.Ok? ==> ValidationError(eps, f, editing).None?
  {
    var err := ValidationError(eps, f, editing);
    if err.Some? then Fail(err.value)
    else
      var data := AdminSystem.CollectEpisodeData(eps, f, editing, now);
      if editing.Some? then EpisodesAdmin.UpdateEpisode(eps, editing.value, data)
      else Ok(EpisodesAdmin.CreateEpisode(eps, data, freshId))
  }

  /** A new episode that passes the check goes in front with views 0 and
      clashes with no stored episode. */
  lemma SaveNewEpisode(eps: seq<Episode>, f: Form, freshId: string, now: int)
    requires ValidationError(eps, f, None).None?
    ensures var r := SaveEpisode(eps, f, None, freshId, now);
      r.Ok? && |r.value| == |eps| + 1 && r.value[1..] == eps
      && r.value[0].id == freshId && r.value[0].views == 0
      && forall j :: 0 <= j < |eps| ==> !Clashes(eps[j], r.value[0].title, r.value[0].season, r.value[0].number)
  {
  }

  /** Editing keeps the views and a stored creation time of the edited
      record, its id, and every other record; an unknown id is an error. */
  lemma SaveEditedEpisode(eps: seq<Episode>, f: Form, id: string, freshId: string, now: int)
    requires ValidationError(eps, f, Some(id)).None?
    ensures var r := SaveEpisode(eps, f, Some(id), freshId, now);
      IndexOf(eps, id).None? ==> r == Fail("Episodio no encontrado")
    ensures var r := SaveEpisode(eps, f, Some(id), freshId, now);
      IndexOf(eps, id).Some? ==> var k := IndexOf(eps, id).value;
        (r.Ok? && |r.value| == |eps| && r.value[k].id == id && r.value[k].views == eps[k].views
        && (eps[k].createdAt.Some? ==> r.value[k].createdAt == eps[k].createdAt)
        && forall j :: 0 <= j < |eps| && j != k ==> r.value[j] == eps[j])
  {
  }

  // ------------------------------------------------------------ renderRecentEpisodes

  /** The dashboard's recent list and the stored list afterwards: the
      `sort` runs on the stored array itself, so the store is left sorted
      newest first, and the list is its first five. */
  function RecentEpisodes(eps: seq<Episode>): (r: (seq<Episode>, seq<Episode>))
    ensures |r.0| <= 5 && |r.0| == if |eps| < 5 then |eps| else 5
    ensures r.0 <= r.1
    ensures multiset(r.1) == multiset(eps)
  {
    var sorted := SortDesc(eps, Stamp);
    (Take(sorted, 5), sorted)
  }

  /** The stored list comes back ordered newest first, and no episode left
      out of the recent list is newer than one in it. */
  lemma RecentAreNewest(eps: seq<Episode>)
    ensures SortedBy(RecentEpisodes(eps).1, Stamp)
    ensures var (recent, store) := RecentEpisodes(eps);
      forall i, j :: 0 <= i < |recent| <= j < |store| ==> Stamp(recent[i]) >= Stamp(store[j])
  {
    SortDescSorted(eps, Stamp);
  }
}

=== FILE: data_manager.dfy ===
/**
 * The shared store of data-manager.js: validation, add / update / delete,
 * the view counter, the filtered query, the statistics, the change hash,
 * the cleanup pass and the integrity report. The stored list is a value;
 * every operation returns the new list, or `Fail` with the message the
 * source throws. Fresh ids, `now` and the `new URL(...)` verdict are
 * parameters; today's date is the UTC day of `now`.
 */
module DataManager {
  import opened Js
  import opened Episodes
  import Resolvers

  /** A boolean the caller may leave out. */
  datatype Flag = Unset | Set(b: bool)

  /** `value !== false` */
  predicate NotFalse(f: Flag) { f != Set(false) }

  /** `value || false`, and equally `value ? … : …` */
  predicate IsTrue(f: Flag) { f == Set(true) }

  /** What a caller passes to `addEpisode`: the form's text fields, an
      optional subtitle date and the optional flags. */
  datatype EpisodeData = EpisodeData(
    title: string,
    description: string,
    season: string,
    number: string,
    videoUrl: string,
    thumbnail: string,
    subtitleDate: Option<int>,
    published: Flag,
    featured: Flag,
    allowComments: Flag,
    notifySubscribers: Flag)

  const InvalidData := "Datos de episodio inválidos"
  const NotFound := "Episodio no encontrado"

  // ------------------------------------------------------------ validateEpisodeData

  /** Every required field present and not only white space. A missing
      field is the empty string, which is blank. */
  predicate HasRequired(data: EpisodeData) {
    !IsBlank(data.title) && !IsBlank(data.description) && !IsBlank(data.season)
    && !IsBlank(data.number) && !IsBlank(data.videoUrl)
  }

  /** `isNaN(season) || isNaN(number)` */
  predicate NumbersBad(data: EpisodeData) {
    NumberIsNaN(data.season) || NumberIsNaN(data.number)
  }

  /** The duplicate lookup: no record is skipped, the title is compared
      untrimmed, season and number are `parseInt`-ed. */
  function Duplicate(eps: seq<Episode>, data: EpisodeData): Option<nat> {
    FindDuplicate(eps, data.title, ParseInt(data.season), ParseInt(data.number), None)
  }

  /** `validateEpisodeData`: the checks in order, the first failure wins.
      `urlParses` is whether `new URL(videoUrl)` succeeds. */
  function Validate(eps: seq<Episode>, data: EpisodeData, urlParses: bool): (ok: bool)
    ensures ok ==> HasRequired(data) && !NumbersBad(data) && urlParses
    ensures ok <==> (HasRequired(data) && !NumbersBad(data) && urlParses
      && forall j :: 0 <= j < |eps| ==> !Clashes(eps[j], data.title, ParseInt(data.season), ParseInt(data.number)))
  {
    if !HasRequired(data) then false
    else if NumbersBad(data) then false
    else if !urlParses then false
    else Duplicate(eps, data).None?
  }

  // ------------------------------------------------------------ addEpisode

  /** `episodeData.published ? 'published' : 'draft'` as written, or the
      status read from the stored `published` flag when `fixed`. */
  function StatusOf(data: EpisodeData, fixed: bool): (s: string)
    ensures fixed ==> (s == "published" <==> NotFalse(data.published))
    ensures !fixed ==> (s == "published" <==> IsTrue(data.published))
  {
    if fixed then (if NotFalse(data.published) then "published" else "draft")
    else if IsTrue(data.published) then "published" else "draft"
  }

  /** The record `addEpisode` builds. */
  function NewEpisode(data: EpisodeData, id: string, now: int, fixed: bool): (ep: Episode)
    ensures ep.id == id && ep.title == data.title && ep.videoUrl == data.videoUrl
    ensures ep.season == ParseInt(data.season) && ep.number == ParseInt(data.number)
    ensures ep.embedUrl == Resolvers.FiveHostEmbed(data.videoUrl)
    ensures data.thumbnail != "" ==> ep.thumbnail == data.thumbnail
    ensures data.thumbnail == "" ==> ep.thumbnail == Resolvers.ThumbnailOrPlaceholder(data.videoUrl)
    ensures ep.published <==> data.published != Set(false)
    ensures ep.views == 0 && ep.likes == 0 && ep.createdAt == Some(now)
    ensures ep.description == data.description
    ensures data.subtitleDate.Some? ==> ep.subtitleDate == data.subtitleDate.value
    ensures data.subtitleDate.None? ==> ep.subtitleDate <= now < ep.subtitleDate + DayMs && ep.subtitleDate % DayMs == 0
    ensures ep.featured <==> data.featured == Set(true)
    ensures ep.allowComments <==> data.allowComments != Set(false)
    ensures ep.notifySubscribers <==> data.notifySubscribers != Set(false)
    ensures ep.status == StatusOf(data, fixed)
  {
    Episode(
      id, data.title, data.description, ParseInt(data.season), ParseInt(data.number),
      data.videoUrl, Resolvers.FiveHostEmbed(data.videoUrl),
      if data.thumbnail != "" then data.thumbnail else Resolvers.ThumbnailOrPlaceholder(data.videoUrl),
      DateOrToday(data.subtitleDate, now),
      Some(now),
      NotFalse(data.published), IsTrue(data.featured), NotFalse(data.allowComments),
      NotFalse(data.notifySubscribers), 0, 0, StatusOf(data, fixed))
  }

  function AddEpisodeWith(eps: seq<Episode>, data: EpisodeData, id: string, now: int,
                          urlParses: bool, fixed: bool): (r: Result<seq<Episode>>)
    ensures r.Fail? <==> !Validate(eps, data, urlParses)
    ensures r.Fail? ==> r.error == InvalidData
    ensures r.Ok? ==> (|r.value| == |eps| + 1 && r.value[1..] == eps
      && r.value[0] == NewEpisode(data, id, now, fixed))
    ensures r.Ok? ==> forall j :: 1 <= j < |r.value| ==>
      !Clashes(r.value[j], r.value[0].title, r.value[0].season, r.value[0].number)
  {
    if !Validate(eps, data, urlParses) then Fail(InvalidData)
    else Ok([NewEpisode(data, id, now, fixed)] + eps)
  }

  /** `addEpisode` as written: prepends the new record, which clashes
      with no stored episode. */
  function AddEpisode(eps: seq<Episode>, data: EpisodeData, id: string, now: int, urlParses: bool)
    : Result<seq<Episode>>
  {
    AddEpisodeWith(eps, data, id, now, urlParses, false)
  }

  /** `addEpisode` with the status derived from the stored flag. */
  function AddEpisodeFixed(eps: seq<Episode>, data: EpisodeData, id: string, now: int, urlParses: bool)
    : Result<seq<Episode>>
  {
    AddEpisodeWith(eps, data, id, now, urlParses, true)
  }

  /** As written, leaving `published` out stores a published episode
      whose status reads "draft". */
  lemma AddEpisodeDraftButPublished(eps: seq<Episode>, data: EpisodeData, id: string, now: int)
    requires data.published == Unset && Validate(eps, data, true)
    ensures AddEpisode(eps, data, id, now, true).Ok?
    ensures AddEpisode(eps, data, id, now, true).value[0].published
    ensures AddEpisode(eps, data, id, now, true).value[0].status == "draft"
  {
  }

  /** With the status read from the flag, status and flag always agree. */
  lemma AddEpisodeFixedAgrees(eps: seq<Episode>, data: EpisodeData, id: string, now: int, urlParses: bool)
    ensures var r := AddEpisodeFixed(eps, data, id, now, urlParses);
      r.Ok? ==> (r.value[0].status == "published" <==> r.value[0].published)
  {
  }

  // ------------------------------------------------------------ updateEpisode

  /** A truthy string field of the patch. */
  predicate Given(o: Option<string>) { o.Some? && o.value != "" }

  /** `updateEpisode`: `{ ...old, ...patch, id }`, then, when the patch
      carries a video address, the embed and (unless the patch carries
      a thumbnail) the thumbnail are derived from it again. */
  function UpdateEpisode(eps: seq<Episode>, id: string, patch: Patch): (r: Result<seq<Episode>>)
    ensures r.Fail? <==> IndexOf(eps, id).None?
    ensures r.Fail? ==> r.error == NotFound
    ensures r.Ok? ==> |r.value| == |eps| && var k := IndexOf(eps, id).value;
      r.value[k].id == id && forall j :: 0 <= j < |eps| && j != k ==> r.value[j] == eps[j]
    ensures r.Ok? && Given(patch.videoUrl) ==> var k := IndexOf(eps, id).value;
      r.value[k].videoUrl == patch.videoUrl.value
      && r.value[k].embedUrl == Resolvers.FiveHostEmbed(patch.videoUrl.value)
      && (!Given(patch.thumbnail) ==> r.value[k].thumbnail == Resolvers.ThumbnailOrPlaceholder(patch.videoUrl.value))
    ensures r.Ok? ==> var k := IndexOf(eps, id).value;
      SpreadOver(r.value[k], eps[k], patch)
    ensures r.Ok? && !Given(patch.videoUrl) ==> var k := IndexOf(eps, id).value;
      r.value[k].embedUrl == Pick(patch.embedUrl, eps[k].embedUrl)
      && r.value[k].thumbnail == Pick(patch.thumbnail, eps[k].thumbnail)
    ensures r.Ok? && Given(patch.videoUrl) && Given(patch.thumbnail) ==> var k := IndexOf(eps, id).value;
      r.value[k].thumbnail == patch.thumbnail.value
  {
    var i := IndexOf(eps, id);
    if i.None? then Fail(NotFound)
    else
      var merged := Merge(eps[i.value], patch).(id := id);
      var ep :=
        if !Given(patch.videoUrl) then merged
        else if Given(patch.thumbnail) then merged.(embedUrl := Resolvers.FiveHostEmbed(patch.videoUrl.value))
        else merged.(embedUrl := Resolvers.FiveHostEmbed(patch.videoUrl.value),
                     thumbnail := Resolvers.ThumbnailOrPlaceholder(patch.videoUrl.value));
      Ok(eps[i.value := ep])
  }

  /** An empty patch changes nothing, an id in the patch is ignored, and
      the updated episode is still the first one with its id. */
  lemma UpdateEpisodeLaws(eps: seq<Episode>, id: string, patch: Patch)
    requires IndexOf(eps, id).Some?
    ensures UpdateEpisode(eps, id, NoChange) == Ok(eps)
    ensures IndexOf(UpdateEpisode(eps, id, patch).value, id) == IndexOf(eps, id)
    ensures UpdateEpisode(eps, id, patch.(id := Some("other"))) == UpdateEpisode(eps, id, patch)
  {
    var k := IndexOf(eps, id).value;
    assert Merge(eps[k], NoChange) == eps[k] by {
      MergeLaws(eps[k], NoChange, NoChange);
    }
    assert eps[k := eps[k]] == eps;
    var r := UpdateEpisode(eps, id, patch).value;
    assert forall j :: 0 <= j < k ==> r[j].id != id;
  }

  // ------------------------------------------------------------ deleteEpisode

  /** `deleteEpisode`: splices out the first episode with the id. */
  function DeleteEpisode(eps: seq<Episode>, id: string): (r: Result<seq<Episode>>)
    ensures r.Fail? <==> IndexOf(eps, id).None?
    ensures r.Fail? ==> r.error == NotFound
    ensures r.Ok? ==> var k := IndexOf(eps, id).value;
      |r.value| == |eps| - 1 && multiset(r.value) + multiset{eps[k]} == multiset(eps)
      && r.value[..k] == eps[..k] && r.value[k..] == eps[k + 1..]
  {
    var i := IndexOf(eps, id);
    if i.None? then Fail(NotFound)
    else
      var k := i.value;
      assert eps == eps[..k] + [eps[k]] + eps[k + 1..];
      Ok(RemoveAt(eps, k))
  }

  /** With unique ids, the deleted id is gone afterwards. */
  lemma DeleteEpisodeRemovesId(eps: seq<Episode>, id: string)
    requires UniqueIds(eps) && IndexOf(eps, id).Some?
    ensures IndexOf(DeleteEpisode(eps, id).value, id).None?
  {
    var k := IndexOf(eps, id).value;
    var r := DeleteEpisode(eps, id).value;
    forall j | 0 <= j < |r| ensures r[j].id != id {
      if j < k {
        assert r[j] == eps[j];
      } else {
        assert r[j] == eps[j + 1];
        assert eps[k].id != eps[j + 1].id;
      }
    }
  }

  /** Deleting the episode just added, under a fresh id, gives the list
      back. */
  lemma AddThenDelete(eps: seq<Episode>, data: EpisodeData, id: string, now: int, urlParses: bool)
    requires IndexOf(eps, id).None?
    requires AddEpisode(eps, data, id, now, urlParses).Ok?
    ensures DeleteEpisode(AddEpisode(eps, data, id, now, urlParses).value, id) == Ok(eps)
  {
    var r := AddEpisode(eps, data, id, now, urlParses).value;
    assert IndexOf(r, id) == Some(0);
    assert RemoveAt(r, 0) == r[1..];
  }

  // ------------------------------------------------------------ getEpisodes

  /** The query object of `getEpisodes`; a falsy `season`, `search`,
      `sortBy` or `limit` is the empty string or 0. */
  datatype Query = Query(
    published: Option<bool>,
    featured: Option<bool>,
    season: string,
    search: string,
    sortBy: string,
    limit: int)

  /** The four filters, each applied only when given. */
  predicate Matches(ep: Episode, q: Query) {
    (q.published.None? || ep.published == q.published.value)
    && (q.featured.None? || ep.featured == q.featured.value)
    && (q.season == "" || StrictEq(ep.season, ParseInt(q.season)))
    && (q.search == "" || Contains(LowerStr(ep.title), LowerStr(q.search))
        || Contains(LowerStr(ep.description), LowerStr(q.search)))
  }

  /** `new Date(createdAt)`; a record without one sorts as time 0. */
  function Created(ep: Episode): int {
    if ep.createdAt.Some? then ep.createdAt.value else 0
  }

  function OlderFirst(ep: Episode): int { -Created(ep) }

  /** The comparator chosen by `sortBy`. `title` and `season` keep the
      stored order in this model; any other name compares everything
      equal, which a stable sort leaves in place. */
  function Order(xs: seq<Episode>, sortBy: string): (r: seq<Episode>)
    ensures multiset(r) == multiset(xs)
  {
    if Ranked(sortBy) then SortDesc(xs, RankKey(sortBy)) else xs
  }

  /** The key a ranking comparator sorts by, largest first. */
  function RankKey(sortBy: string): Episode -> int {
    if sortBy == "newest" then Created
    else if sortBy == "oldest" then OlderFirst
    else Views
  }

  /** The `sortBy` names that reorder the list in this model. */
  predicate Ranked(sortBy: string) {
    sortBy == "newest" || sortBy == "oldest" || sortBy == "mostViewed"
  }

  /** `getEpisodes` on a copy of the list: the stored list is an input
      value, so it cannot change. The matching records, ordered, then
      `slice(0, limit)` when a limit is given: the first `limit` of them,
      or all but the last `-limit` for a negative one. */
  function GetEpisodes(eps: seq<Episode>, q: Query): (r: seq<Episode>)
    ensures forall x :: x in r ==> x in eps && Matches(x, q)
    ensures multiset(r) <= multiset(Kept(eps, q)) && multiset(r) <= multiset(eps)
    ensures var n := |Kept(eps, q)|;
      q.limit > 0 ==> |r| == (if q.limit < n then q.limit else n)
    ensures var n := |Kept(eps, q)|;
      q.limit < 0 ==> |r| == (if n + q.limit > 0 then n + q.limit else 0)
    ensures q.limit == 0 ==> multiset(r) == multiset(Kept(eps, q))
    ensures q.limit == 0 ==> forall x :: x in r <==> x in eps && Matches(x, q)
    ensures !Ranked(q.sortBy) ==> r <= Kept(eps, q)
  {
    var kept := Kept(eps, q);
    var sorted := Order(kept, q.sortBy);
    assert forall x :: x in sorted <==> x in kept by {
      assert forall x :: x in sorted <==> x in multiset(sorted);
      assert forall x :: x in kept <==> x in multiset(kept);
    }
    if q.limit != 0 then Take(sorted, q.limit) else sorted
  }

  /** The filtered copy, before ordering and limiting. */
  function Kept(eps: seq<Episode>, q: Query): (r: seq<Episode>)
    ensures forall x :: x in r <==> x in eps && Matches(x, q)
    ensures multiset(r) <= multiset(eps)
  {
    Filter(eps, ep => Matches(ep, q))
  }

  /** The orders the query promises: newest first, oldest first, most
      viewed first. */
  lemma GetEpisodesOrdered(eps: seq<Episode>, q: Query)
    ensures q.sortBy == "newest" ==> SortedBy(GetEpisodes(eps, q), Created)
    ensures q.sortBy == "oldest" ==> SortedBy(GetEpisodes(eps, q), OlderFirst)
    ensures q.sortBy == "mostViewed" ==> SortedBy(GetEpisodes(eps, q), Views)
  {
    var kept := Kept(eps, q);
    if q.sortBy == "newest" {
      OrderedBy(kept, q.limit, Created);
    } else if q.sortBy == "oldest" {
      OrderedBy(kept, q.limit, OlderFirst);
    } else if q.sortBy == "mostViewed" {
      OrderedBy(kept, q.limit, Views);
    }
  }

  /** Under a ranking order, no matching record left out ranks above one
      that is returned: newest first keeps the newest, oldest first the
      oldest, most viewed the most viewed. */
  lemma GetEpisodesKeepsTop(eps: seq<Episode>, q: Query, x: Episode)
    requires Ranked(q.sortBy) && x in eps && Matches(x, q) && x !in GetEpisodes(eps, q)
    ensures var r := GetEpisodes(eps, q);
      forall i :: 0 <= i < |r| ==> RankKey(q.sortBy)(x) <= RankKey(q.sortBy)(r[i])
  {
    var kept := Kept(eps, q);
    assert x in kept;
    LeftOutRanksLower(kept, q.limit, RankKey(q.sortBy), x);
  }

  lemma LeftOutRanksLower(kept: seq<Episode>, limit: int, key: Episode -> int, x: Episode)
    requires x in kept && x !in (if limit != 0 then Take(SortDesc(kept, key), limit) else SortDesc(kept, key))
    ensures var r := if limit != 0 then Take(SortDesc(kept, key), limit) else SortDesc(kept, key);
      forall i :: 0 <= i < |r| ==> key(x) <= key(r[i])
  {
    var sorted := SortDesc(kept, key);
    assert x in multiset(kept);
    assert x in sorted;
    SortDescSorted(kept, key);
    if limit != 0 {
      TakeLeavesLower(sorted, limit, key, x);
    }
  }

  lemma OrderedBy(kept: seq<Episode>, limit: int, key: Episode -> int)
    ensures SortedBy(SortDesc(kept, key), key)
    ensures SortedBy(Take(SortDesc(kept, key), limit), key)
  {
    SortDescSorted(kept, key);
    TakeSorted(SortDesc(kept, key), limit, key);
  }

  // ------------------------------------------------------------ updateStats

  datatype Stats = Stats(
    totalEpisodes: nat,
    publishedEpisodes: nat,
    featuredEpisodes: nat,
    totalViews: int,
    totalLikes: int,
    uniqueSeasons: nat,
    recentEpisodes: nat)

  /** Created, or else subtitled, within the last seven days. */
  predicate IsRecent(ep: Episode, now: int) {
    Stamp(ep) > now - 7 * DayMs
  }

  function UpdateStats(eps: seq<Episode>, now: int): (s: Stats)
    ensures s.publishedEpisodes <= s.totalEpisodes && s.featuredEpisodes <= s.totalEpisodes
    ensures s.recentEpisodes <= s.totalEpisodes && s.uniqueSeasons <= s.totalEpisodes
    ensures s.totalEpisodes == |eps|
  {
    SeasonsBound(eps);
    Stats(|eps|, Count(eps, IsPublished), Count(eps, IsFeatured),
      Total(eps, Views), Total(eps, Likes), |Seasons(eps)|,
      Count(eps, ep => IsRecent(ep, now)))
  }

  /** One more episode, one more recent episode, the same view and like
      totals, at most one more season, and one more published episode
      exactly when the new record is published. */
  lemma StatsAfterAdd(eps: seq<Episode>, data: EpisodeData, id: string, now: int, urlParses: bool)
    requires AddEpisode(eps, data, id, now, urlParses).Ok?
    ensures var before := UpdateStats(eps, now);
      var after := UpdateStats(AddEpisode(eps, data, id, now, urlParses).value, now);
      after.totalEpisodes == before.totalEpisodes + 1
      && after.recentEpisodes == before.recentEpisodes + 1
      && after.totalViews == before.totalViews && after.totalLikes == before.totalLikes
      && after.publishedEpisodes == before.publishedEpisodes + (if data.published != Set(false) then 1 else 0)
      && before.uniqueSeasons <= after.uniqueSeasons <= before.uniqueSeasons + 1
  {
    var x := NewEpisode(data, id, now, false);
    var r := [x] + eps;
    assert AddEpisode(eps, data, id, now, urlParses).value == r;
    assert r[1..] == eps;
    TotalsAfterPrepend(x, eps);
    SeasonsAfterPrepend(x, eps);
  }

  lemma TotalsAfterPrepend(x: Episode, eps: seq<Episode>)
    ensures Total([x] + eps, Views) == x.views + Total(eps, Views)
    ensures Total([x] + eps, Likes) == x.likes + Total(eps, Likes)
  {
    TotalConcat([x], eps, Views);
    TotalConcat([x], eps, Likes);
    TotalOne(x, Views);
    TotalOne(x, Likes);
  }

  lemma SeasonsAfterPrepend(x: Episode, eps: seq<Episode>)
    ensures |Seasons(eps)| <= |Seasons([x] + eps)| <= |Seasons(eps)| + 1
  {
    var r := [x] + eps;
    assert Seasons(r) == {x.season} + Seasons(eps) by {
      forall ep | ep in r ensures ep == x || ep in eps {
        var i :| 0 <= i < |r| && r[i] == ep;
        if i > 0 {
          assert r[i] == eps[i - 1];
        }
      }
    }
    if x.season in Seasons(eps) {
      assert Seasons(r) == Seasons(eps);
    } else {
      assert |Seasons(r)| == |Seasons(eps)| + 1;
    }
  }

  /** A view raises the stored total by one and leaves the rest. */
  lemma StatsAfterView(eps: seq<Episode>, id: string, now: int)
    requires IndexOf(eps, id).Some?
    ensures UpdateStats(IncrementViews(eps, id), now).totalViews == UpdateStats(eps, now).totalViews + 1
    ensures UpdateStats(IncrementViews(eps, id), now).totalLikes == UpdateStats(eps, now).totalLikes
  {
    IncrementViewsTotal(eps, id);
  }

  // ------------------------------------------------------------ hashData

  const TwoTo31: int := 0x8000_0000
  const TwoTo32: int := 0x1_0000_0000

  /** ECMAScript ToInt32 on an integer. */
  function ToInt32(x: int): (r: int)
    ensures -TwoTo31 <= r < TwoTo31
  {
    (x + TwoTo31) % TwoTo32 - TwoTo31
  }

  lemma ToInt32Congruent(a: int, b: int, q: int)
    requires a == b + q * TwoTo32
    ensures ToInt32(a) == ToInt32(b)
  {
    assert (b + TwoTo31 + q * TwoTo32) % TwoTo32 == (b + TwoTo31) % TwoTo32;
  }

  /** The rolling hash `h = h * 31 + code`, kept to 32 bits after every
      character. */
  function HashOf(s: string): (h: int)
    ensures -TwoTo31 <= h < TwoTo31
  {
    if |s| == 0 then 0 else ToInt32(31 * HashOf(s[..|s| - 1]) + s[|s| - 1] as int)
  }

  /** `hashData`: the empty string hashes to the empty string; otherwise
      the shift-and-subtract loop computes the 32-bit rolling hash, which
      reads back as that number. */
  method HashData(data: string) returns (r: string)
    ensures data == "" ==> r == ""
    ensures data != "" ==> ParseInt(r) == Int(HashOf(data)) && r == ShowInt(HashOf(data))
  {
    if data == "" {
      return "";
    }
    var hash := 0;
    var i := 0;
    while i < |data|
      invariant 0 <= i <= |data|
      invariant hash == HashOf(data[..i])
    {
      var c := data[i] as int;
      var shifted := ToInt32(hash * 32);
      ToInt32Congruent(shifted - hash + c, 31 * hash + c, (shifted - hash * 32) / TwoTo32);
      hash := ToInt32(shifted - hash + c);
      assert data[..i + 1][..i] == data[..i];
      i := i + 1;
    }
    assert data[..|data|] == data;
    r := ShowInt(hash);
    ParseIntShowInt(hash);
  }

  // ------------------------------------------------------------ cleanCorruptedData

  /** A record with an id, a title and a video address. */
  predicate Sound(ep: Episode) {
    ep.id != "" && ep.title != "" && ep.videoUrl != ""
  }

  function CleanCorruptedData(eps: seq<Episode>): (r: seq<Episode>)
    ensures forall x :: x in r <==> x in eps && Sound(x)
  {
    Filter(eps, Sound)
  }

  /** Cleaning twice is cleaning once, and a record `addEpisode` stores
      under a non-empty id survives cleaning. */
  lemma CleanLaws(eps: seq<Episode>, data: EpisodeData, id: string, now: int, urlParses: bool)
    ensures CleanCorruptedData(CleanCorruptedData(eps)) == CleanCorruptedData(eps)
    ensures id != "" && AddEpisode(eps, data, id, now, urlParses).Ok? ==>
      NewEpisode(data, id, now, false) in CleanCorruptedData(AddEpisode(eps, data, id, now, urlParses).value)
  {
    FilterKeepsAll(CleanCorruptedData(eps), Sound);
    if id != "" && AddEpisode(eps, data, id, now, urlParses).Ok? {
      var x := NewEpisode(data, id, now, false);
      assert x.title != "" && x.videoUrl != "" by {
        assert !IsBlank(data.title) && !IsBlank(data.videoUrl);
      }
      assert x in AddEpisode(eps, data, id, now, urlParses).value;
    }
  }

  // ------------------------------------------------------------ verifyDataIntegrity

  /** The set the ids make; `new Set(ids).size` is its size. */
  function IdSet(eps: seq<Episode>): set<string> {
    if |eps| == 0 then {} else {eps[0].id} + IdSet(eps[1..])
  }

  lemma {:induction false} IdSetMembers(eps: seq<Episode>)
    ensures forall x :: x in IdSet(eps) <==> exists i :: 0 <= i < |eps| && eps[i].id == x
  {
    if |eps| > 0 {
      var t := eps[1..];
      IdSetMembers(t);
      assert IdSet(eps) == {eps[0].id} + IdSet(t);
      forall x | x in IdSet(eps) ensures exists i :: 0 <= i < |eps| && eps[i].id == x {
        if x != eps[0].id {
          var i :| 0 <= i < |t| && t[i].id == x;
          assert eps[i + 1].id == x;
        }
      }
      forall x | exists i :: 0 <= i < |eps| && eps[i].id == x ensures x in IdSet(eps) {
        var i :| 0 <= i < |eps| && eps[i].id == x;
        if i > 0 {
          assert t[i - 1].id == x;
        }
      }
    }
  }

  /** `ids.length !== new Set(ids).size` exactly when some id repeats. */
  lemma {:induction false} IdSetSize(eps: seq<Episode>)
    ensures |IdSet(eps)| <= |eps|
    ensures |IdSet(eps)| == |eps| <==> UniqueIds(eps)
  {
    if |eps| > 0 {
      var t := eps[1..];
      IdSetSize(t);
      IdSetMembers(t);
      UniqueCons(eps);
      if eps[0].id in IdSet(t) {
        assert IdSet(eps) == IdSet(t);
        var i :| 0 <= i < |t| && t[i].id == eps[0].id;
        assert eps[i + 1].id == eps[0].id;
      } else {
        assert |IdSet(eps)| == |IdSet(t)| + 1;
        forall i | 1 <= i < |eps| ensures eps[i].id != eps[0].id {
          assert eps[i] == t[i - 1];
        }
      }
    }
  }

  /** A list has unique ids exactly when its tail has and its head's id
      is not in the tail. */
  lemma UniqueCons(eps: seq<Episode>)
    requires |eps| > 0
    ensures UniqueIds(eps) <==> UniqueIds(eps[1..]) && forall i :: 1 <= i < |eps| ==> eps[i].id != eps[0].id
  {
    var t := eps[1..];
    if UniqueIds(t) && forall i :: 1 <= i < |eps| ==> eps[i].id != eps[0].id {
      forall i, j | 0 <= i < j < |eps| ensures eps[i].id != eps[j].id {
        if i > 0 {
          assert eps[i] == t[i - 1] && eps[j] == t[j - 1];
        }
      }
    }
    if UniqueIds(eps) {
      forall i, j | 0 <= i < j < |t| ensures t[i].id != t[j].id {
        assert eps[i + 1] == t[i] && eps[j + 1] == t[j];
      }
    }
  }

  /** `S${season}E${number}` */
  function Key(ep: Episode): string {
    "S" + ShowNum(ep.season) + "E" + ShowNum(ep.number)
  }

  /** One "Episodio duplicado" line for each episode whose key an earlier
      one (or `seen`) already had. */
  function KeyIssues(eps: seq<Episode>, seen: set<string>): (r: seq<string>)
    ensures |r| <= |eps|
    ensures r == [] <==> ((forall i :: 0 <= i < |eps| ==> Key(eps[i]) !in seen)
      && forall i, j :: 0 <= i < j < |eps| ==> Key(eps[i]) != Key(eps[j]))
  {
    if |eps| == 0 then []
    else
      var k := Key(eps[0]);
      var rest := KeyIssues(eps[1..], seen + {k});
      assert forall i :: 1 <= i < |eps| ==> eps[i] == eps[1..][i - 1];
      (if k in seen then ["Episodio duplicado: " + k] else []) + rest
  }

  /** `verifyDataIntegrity`: the issues it reports. */
  function IntegrityIssues(eps: seq<Episode>): seq<string> {
    (if |IdSet(eps)| != |eps| then ["IDs duplicados encontrados"] else []) + KeyIssues(eps, {})
  }

  /** No issue is reported exactly when the ids are unique and no two
      episodes share a season-and-number key. */
  lemma IntegrityIssuesIff(eps: seq<Episode>)
    ensures IntegrityIssues(eps) == [] <==>
      UniqueIds(eps) && forall i, j :: 0 <= i < j < |eps| ==> Key(eps[i]) != Key(eps[j])
  {
    IdSetSize(eps);
  }
}

=== FILE: effects.dfy ===
/**
 * The two easter eggs of shin-chan-effects.js: a sliding window over the
 * last ten key codes that fires on the Konami sequence and then empties,
 * and a logo click counter that fires on the fifth click and starts over.
 */
module Effects {

  /** Up, up, down, down, left, right, left, right, B, A. */
  const KonamiSequence: seq<int> := [38, 38, 40, 40, 37, 39, 37, 39, 66, 65]

  /** The last `n` elements of `s`, or all of it when it is shorter. */
  function Last(s: seq<int>, n: nat): (r: seq<int>)
    ensures |r| == if |s| < n then |s| else n
    ensures r == s[|s| - |r|..]
  {
    if |s| <= n then s else s[|s| - n..]
  }

  /** One `keydown`: push the code, drop the oldest once there are more
      than ten, then fire and empty the buffer on the sequence. */
  function KeyDown(buffer: seq<int>, code: int): (r: (bool, seq<int>))
    ensures |buffer| <= |KonamiSequence| ==> (r.0 <==> Last(buffer + [code], 10) == KonamiSequence)
    ensures r.0 ==> r.1 == []
    ensures !r.0 && |buffer| <= |KonamiSequence| ==> r.1 == Last(buffer + [code], 10)
    ensures |buffer| <= |KonamiSequence| ==> |r.1| <= |KonamiSequence|
  {
    var pushed := buffer + [code];
    var window := if |pushed| > |KonamiSequence| then pushed[1..] else pushed;
    assert |buffer| <= |KonamiSequence| ==> window == Last(pushed, 10);
    if window == KonamiSequence then (true, []) else (false, window)
  }

  /** A run of key presses from a buffer: how many times the egg fired and
      the buffer left at the end. */
  function Keys(buffer: seq<int>, codes: seq<int>): (r: (nat, seq<int>))
    ensures |buffer| <= |KonamiSequence| ==> |r.1| <= |KonamiSequence|
    decreases |codes|
  {
    if |codes| == 0 then (0, buffer)
    else
      var before := Keys(buffer, codes[..|codes| - 1]);
      var step := KeyDown(before.1, codes[|codes| - 1]);
      (before.0 + if step.0 then 1 else 0, step.1)
  }

  /** `b` is a tail of `s`. */
  predicate IsTail(b: seq<int>, s: seq<int>) {
    |b| <= |s| && b == s[|s| - |b|..]
  }

  lemma TailTrans(a: seq<int>, b: seq<int>, s: seq<int>)
    requires IsTail(a, b) && IsTail(b, s)
    ensures IsTail(a, s)
  {
    assert s[|s| - |a|..] == s[|s| - |b|..][|b| - |a|..];
  }

  lemma TailPush(b: seq<int>, s: seq<int>, c: int)
    requires IsTail(b, s)
    ensures IsTail(b + [c], s + [c])
  {
    assert (s + [c])[|s + [c]| - |b + [c]|..] == s[|s| - |b|..] + [c];
  }

  /** One press leaves a tail of the buffer and the new code. */
  lemma KeyDownTail(buffer: seq<int>, code: int)
    requires |buffer| <= |KonamiSequence|
    ensures IsTail(KeyDown(buffer, code).1, buffer + [code])
  {
    var s := buffer + [code];
    if KeyDown(buffer, code).0 {
      assert s[|s|..] == [];
    }
  }

  /** Whatever happened before, the buffer holds the most recent codes in
      arrival order: it is a tail of everything pressed. */
  lemma {:induction false} KeysKeepRecent(buffer: seq<int>, codes: seq<int>)
    requires |buffer| <= |KonamiSequence|
    ensures IsTail(Keys(buffer, codes).1, buffer + codes)
    decreases |codes|
  {
    if |codes| == 0 {
      assert buffer + codes == buffer;
    } else {
      var init := codes[..|codes| - 1];
      var c := codes[|codes| - 1];
      var pre := buffer + init;
      var all := buffer + codes;
      assert codes == init + [c];
      assert pre + [c] == all;
      var before := Keys(buffer, init).1;
      var after := KeyDown(before, c).1;
      KeysKeepRecent(buffer, init);
      TailPush(before, pre, c);
      KeyDownTail(before, c);
      TailTrans(after, before + [c], all);
      assert Keys(buffer, codes).1 == after;
    }
  }

  /** Fewer than ten presses after a reset leave exactly those presses in
      the buffer, and the egg cannot fire. */
  lemma {:induction false} ShortRunsHoldEverything(codes: seq<int>)
    requires |codes| < |KonamiSequence|
    ensures Keys([], codes) == (0, codes)
    decreases |codes|
  {
    if |codes| > 0 {
      var init := codes[..|codes| - 1];
      var c := codes[|codes| - 1];
      ShortRunsHoldEverything(init);
      assert init + [c] == codes;
      assert Last(codes, 10) == codes;
      assert |codes| != |KonamiSequence|;
      assert codes != KonamiSequence;
      assert KeyDown(init, c) == (false, codes);
    }
  }

  /** From an empty buffer the sequence itself fires once and leaves the
      buffer empty. */
  lemma KonamiFires()
    ensures Keys([], KonamiSequence) == (1, [])
  {
    var k := KonamiSequence;
    ShortRunsHoldEverything(k[..9]);
    assert k[..9] + [k[9]] == k;
  }

  // ------------------------------------------------------------ logo clicks

  /** One click on the logo: count it, and at five fire and start over. */
  function LogoClick(count: nat): (r: (bool, nat))
    ensures r.0 <==> count + 1 >= 5
    ensures r.1 == if r.0 then 0 else count + 1
  {
    if count + 1 >= 5 then (true, 0) else (false, count + 1)
  }

  /** The counter after `k` clicks from zero. */
  function Clicks(k: nat): nat {
    if k == 0 then 0 else LogoClick(Clicks(k - 1)).1
  }

  /** After `k` clicks the counter is `k mod 5`, so the egg fires on every
      fifth click and on no other. */
  lemma {:induction false} ClicksCycle(k: nat)
    ensures Clicks(k) == k % 5
    ensures k > 0 ==> (LogoClick(Clicks(k - 1)).0 <==> k % 5 == 0)
  {
    if k > 0 {
      ClicksCycle(k - 1);
    }
  }
}

=== FILE: episode.dfy ===
/**
 * The episode record the scripts store (under `joshuaPlataEpisodes`, or
 * `shinChanEpisodes` in episodes-manager.js and notifications.js), and the
 * list operations the scripts share: object spread, `findIndex`,
 * `find`, `filter`, `slice`, the duplicate rule, the counters, a stable
 * newest-first sort and `Math.max` over the numbers of a list.
 *
 * Fields a script leaves out of a record read as their falsy default:
 * the empty string, `false`, `0`, or no creation stamp. Dates are the
 * millisecond stamps `new Date(...)` would give; `now` is a parameter.
 */
module Episodes {
  import opened Js

  datatype Episode = Episode(
    id: string,
    title: string,
    description: string,
    season: Num,
    number: Num,
    videoUrl: string,
    embedUrl: string,
    thumbnail: string,
    subtitleDate: int,
    createdAt: Option<int>,
    published: bool,
    featured: bool,
    allowComments: bool,
    notifySubscribers: bool,
    views: int,
    likes: int,
    status: string)

  /** An object spread over an episode: the fields it holds replace the
      episode's, the rest stay. */
  datatype Patch = Patch(
    id: Option<string>,
    title: Option<string>,
    description: Option<string>,
    season: Option<Num>,
    number: Option<Num>,
    videoUrl: Option<string>,
    embedUrl: Option<string>,
    thumbnail: Option<string>,
    subtitleDate: Option<int>,
    createdAt: Option<int>,
    published: Option<bool>,
    featured: Option<bool>,
    allowComments: Option<bool>,
    notifySubscribers: Option<bool>,
    views: Option<int>,
    likes: Option<int>,
    status: Option<string>)

  const NoChange: Patch := Patch(None, None, None, None, None, None, None, None, None, None, None, None, None, None, None, None, None)

  function Pick<T>(o: Option<T>, d: T): T {
    if o.Some? then o.value else d
  }

  /** `{ ...ep, ...p }` */
  function Merge(ep: Episode, p: Patch): Episode {
    Episode(
      Pick(p.id, ep.id), Pick(p.title, ep.title), Pick(p.description, ep.description),
      Pick(p.season, ep.season), Pick(p.number, ep.number), Pick(p.videoUrl, ep.videoUrl),
      Pick(p.embedUrl, ep.embedUrl), Pick(p.thumbnail, ep.thumbnail),
      Pick(p.subtitleDate, ep.subtitleDate),
      if p.createdAt.Some? then p.createdAt else ep.createdAt,
      Pick(p.published, ep.published), Pick(p.featured, ep.featured),
      Pick(p.allowComments, ep.allowComments), Pick(p.notifySubscribers, ep.notifySubscribers),
      Pick(p.views, ep.views), Pick(p.likes, ep.likes), Pick(p.status, ep.status))
  }

  /** `{ ...p, ...q }`: the later spread wins field by field. */
  function Then(p: Patch, q: Patch): Patch {
    Patch(
      Or(q.id, p.id), Or(q.title, p.title), Or(q.description, p.description),
      Or(q.season, p.season), Or(q.number, p.number), Or(q.videoUrl, p.videoUrl),
      Or(q.embedUrl, p.embedUrl), Or(q.thumbnail, p.thumbnail), Or(q.subtitleDate, p.subtitleDate),
      Or(q.createdAt, p.createdAt), Or(q.published, p.published), Or(q.featured, p.featured),
      Or(q.allowComments, p.allowComments), Or(q.notifySubscribers, p.notifySubscribers),
      Or(q.views, p.views), Or(q.likes, p.likes), Or(q.status, p.status))
  }

  function Or<T>(a: Option<T>, b: Option<T>): Option<T> {
    if a.Some? then a else b
  }

  /** Spreading nothing changes nothing, and spreading twice is spreading
      the combined object once. */
  lemma MergeLaws(ep: Episode, p: Patch, q: Patch)
    ensures Merge(ep, NoChange) == ep
    ensures Merge(Merge(ep, p), q) == Merge(ep, Then(p, q))
    ensures p.id.None? ==> Merge(ep, p).id == ep.id
  {
  }

  /** `ep` is `base` with every field `p` carries laid over it and every
      other field left as it was; the id, the embed and the thumbnail,
      which some scripts set afterwards, are not constrained. */
  predicate SpreadOver(ep: Episode, base: Episode, p: Patch) {
    && ep.title == Pick(p.title, base.title)
    && ep.description == Pick(p.description, base.description)
    && ep.season == Pick(p.season, base.season)
    && ep.number == Pick(p.number, base.number)
    && ep.videoUrl == Pick(p.videoUrl, base.videoUrl)
    && ep.subtitleDate == Pick(p.subtitleDate, base.subtitleDate)
    && ep.createdAt == Or(p.createdAt, base.createdAt)
    && ep.published == Pick(p.published, base.published)
    && ep.featured == Pick(p.featured, base.featured)
    && ep.allowComments == Pick(p.allowComments, base.allowComments)
    && ep.notifySubscribers == Pick(p.notifySubscribers, base.notifySubscribers)
    && ep.views == Pick(p.views, base.views)
    && ep.likes == Pick(p.likes, base.likes)
    && ep.status == Pick(p.status, base.status)
  }

  /** A spread lays the patch over the record, the embed and thumbnail
      included, and a patch without an id keeps the record's. */
  lemma MergeSpreads(ep: Episode, p: Patch)
    ensures SpreadOver(Merge(ep, p), ep, p)
    ensures Merge(ep, p).embedUrl == Pick(p.embedUrl, ep.embedUrl)
    ensures Merge(ep, p).thumbnail == Pick(p.thumbnail, ep.thumbnail)
    ensures Merge(ep, p).id == Pick(p.id, ep.id)
  {
  }

  /** The record `{ id, ...data }` builds, before the spread: only the id. */
  function Blank(id: string): (r: Episode)
    ensures r.id == id && r.views == 0 && r.likes == 0 && !r.published && !r.featured
  {
    Episode(id, "", "", NaN, NaN, "", "", "", 0, None, false, false, false, false, 0, 0, "")
  }

  // ------------------------------------------------------------ lookup

  /** `eps.findIndex(ep => ep.id === id)`, with -1 as None. */
  function IndexOf(eps: seq<Episode>, id: string): (r: Option<nat>)
    ensures r.Some? ==> r.value < |eps| && eps[r.value].id == id
    ensures r.Some? ==> forall j :: 0 <= j < r.value ==> eps[j].id != id
    ensures r.None? <==> forall j :: 0 <= j < |eps| ==> eps[j].id != id
  {
    if |eps| == 0 then None
    else if eps[0].id == id then Some(0)
    else
      var r := IndexOf(eps[1..], id);
      if r.Some? then Some(r.value + 1) else None
  }

  /** Every id occurs at most once. */
  predicate UniqueIds(eps: seq<Episode>) {
    forall i, j :: 0 <= i < j < |eps| ==> eps[i].id != eps[j].id
  }

  /** Two lists with the same ids in the same places. */
  predicate SameIds(a: seq<Episode>, b: seq<Episode>) {
    |a| == |b| && forall j :: 0 <= j < |a| ==> a[j].id == b[j].id
  }

  /** Lookups see only the ids, so they agree on such lists. */
  lemma {:induction false} IndexOfSameIds(a: seq<Episode>, b: seq<Episode>, id: string)
    requires SameIds(a, b)
    ensures IndexOf(a, id) == IndexOf(b, id)
  {
    if |a| > 0 && a[0].id != id {
      assert SameIds(a[1..], b[1..]);
      IndexOfSameIds(a[1..], b[1..], id);
    }
  }

  function RemoveAt(eps: seq<Episode>, i: nat): (r: seq<Episode>)
    requires i < |eps|
    ensures |r| == |eps| - 1
    ensures forall j :: 0 <= j < i ==> r[j] == eps[j]
    ensures forall j :: i <= j < |r| ==> r[j] == eps[j + 1]
  {
    eps[..i] + eps[i + 1..]
  }

  // ------------------------------------------------------------ the duplicate rule

  /** Same title ignoring case, or the same season and number under `===`
      (NaN never equals anything). */
  predicate Clashes(ep: Episode, title: string, season: Num, number: Num) {
    EqualsIgnoreCase(ep.title, title) || (StrictEq(ep.season, season) && StrictEq(ep.number, number))
  }

  /** Whether the duplicate check looks at `ep`: while editing, the edited
      record is skipped; otherwise (`currentEditingEpisode` null) no
      record is. */
  predicate Considered(ep: Episode, editing: Option<string>) {
    editing.None? || ep.id != editing.value
  }

  /** `eps.find(...)` with the duplicate rule: the first considered
      episode that clashes. */
  function FindDuplicate(eps: seq<Episode>, title: string, season: Num, number: Num, editing: Option<string>)
    : (r: Option<nat>)
    ensures r.Some? ==> (r.value < |eps| && Considered(eps[r.value], editing)
      && Clashes(eps[r.value], title, season, number))
    ensures r.Some? ==> forall j :: 0 <= j < r.value ==>
      !(Considered(eps[j], editing) && Clashes(eps[j], title, season, number))
    ensures r.None? <==> forall j :: 0 <= j < |eps| ==>
      !(Considered(eps[j], editing) && Clashes(eps[j], title, season, number))
  {
    if |eps| == 0 then None
    else if Considered(eps[0], editing) && Clashes(eps[0], title, season, number) then Some(0)
    else
      var r := FindDuplicate(eps[1..], title, season, number, editing);
      if r.Some? then Some(r.value + 1) else None
  }

  /** An episode always clashes with its own title: once in the list, a
      second record with the same title (in any letter case) is refused
      unless the check is editing that very episode. */
  lemma OwnTitleClashes(ep: Episode, eps: seq<Episode>, title: string, season: Num, number: Num)
    requires EqualsIgnoreCase(ep.title, title)
    ensures FindDuplicate([ep] + eps, title, season, number, None) == Some(0)
    ensures FindDuplicate([ep] + eps, title, season, number, Some(ep.id)) != Some(0)
  {
  }

  /** Editing never reports the edited record itself; with unique ids and
      no other clash, saving an episode unchanged passes. */
  lemma {:induction false} EditingSkipsItself(eps: seq<Episode>, i: nat)
    requires i < |eps| && UniqueIds(eps)
    requires forall j :: 0 <= j < |eps| && j != i ==>
      !Clashes(eps[j], eps[i].title, eps[i].season, eps[i].number)
    ensures FindDuplicate(eps, eps[i].title, eps[i].season, eps[i].number, Some(eps[i].id)).None?
  {
    var ep := eps[i];
    forall j | 0 <= j < |eps|
      ensures !(Considered(eps[j], Some(ep.id)) && Clashes(eps[j], ep.title, ep.season, ep.number))
    {
      if j == i {
        assert !Considered(eps[j], Some(ep.id));
      } else if j < i {
        assert eps[j].id != eps[i].id;
      } else {
        assert eps[i].id != eps[j].id;
      }
    }
  }

  // ------------------------------------------------------------ filter, slice, counters

  /** `eps.filter(keep)` */
  function Filter(eps: seq<Episode>, keep: Episode -> bool): (r: seq<Episode>)
    ensures |r| <= |eps|
    ensures forall x :: x in r <==> x in eps && keep(x)
    ensures multiset(r) <= multiset(eps)
  {
    if |eps| == 0 then []
    else
      assert eps == [eps[0]] + eps[1..];
      if keep(eps[0]) then [eps[0]] + Filter(eps[1..], keep)
      else Filter(eps[1..], keep)
  }

  lemma {:induction false} FilterConcat(a: seq<Episode>, b: seq<Episode>, keep: Episode -> bool)
    ensures Filter(a + b, keep) == Filter(a, keep) + Filter(b, keep)
  {
    if |a| == 0 {
      assert a + b == b;
    } else {
      assert (a + b)[1..] == a[1..] + b;
      FilterConcat(a[1..], b, keep);
    }
  }

  /** The first record a filter keeps is the first record of the list
      that passes the test. */
  lemma {:induction false} FilterHead(eps: seq<Episode>, keep: Episode -> bool)
    ensures |Filter(eps, keep)| > 0 ==>
      exists i :: 0 <= i < |eps| && eps[i] == Filter(eps, keep)[0] && keep(eps[i])
                  && forall k :: 0 <= k < i ==> !keep(eps[k])
  {
    if |eps| > 0 && !keep(eps[0]) && |Filter(eps, keep)| > 0 {
      FilterHead(eps[1..], keep);
      var i :| 0 <= i < |eps[1..]| && eps[1..][i] == Filter(eps[1..], keep)[0]
        && keep(eps[1..][i]) && forall k :: 0 <= k < i ==> !keep(eps[1..][k]);
      assert eps[i + 1] == Filter(eps, keep)[0] && keep(eps[i + 1]);
      assert forall k :: 0 <= k < i + 1 ==> !keep(eps[k]) by {
        forall k | 0 <= k < i + 1 ensures !keep(eps[k]) {
          if k > 0 {
            assert eps[k] == eps[1..][k - 1];
          }
        }
      }
    }
  }

  /** A list splits into the records a test keeps and those it drops. */
  lemma {:induction false} FilterSplit(eps: seq<Episode>, keep: Episode -> bool, drop: Episode -> bool)
    requires forall ep: Episode :: drop(ep) == !keep(ep)
    ensures |Filter(eps, keep)| + |Filter(eps, drop)| == |eps|
  {
    if |eps| > 0 {
      FilterSplit(eps[1..], keep, drop);
    }
  }

  /** A test every record passes keeps the list as it is. */
  lemma {:induction false} FilterKeepsAll(eps: seq<Episode>, keep: Episode -> bool)
    requires forall x :: x in eps ==> keep(x)
    ensures Filter(eps, keep) == eps
  {
    if |eps| > 0 {
      assert eps[0] in eps;
      assert forall x :: x in eps[1..] ==> x in eps;
      FilterKeepsAll(eps[1..], keep);
    }
  }

  /** `eps.slice(0, end)`: a negative end counts from the back. */
  function Take(eps: seq<Episode>, end: int): (r: seq<Episode>)
    ensures end >= 0 ==> |r| == if end < |eps| then end else |eps|
    ensures end < 0 ==> |r| == if |eps| + end > 0 then |eps| + end else 0
    ensures r <= eps
    ensures multiset(r) <= multiset(eps)
    ensures forall x :: x in r ==> x in eps
  {
    var k := if end >= 0 then (if end < |eps| then end else |eps|)
             else (if |eps| + end > 0 then |eps| + end else 0);
    assert eps == eps[..k] + eps[k..];
    eps[..k]
  }

  predicate IsPublished(ep: Episode) { ep.published }
  predicate IsFeatured(ep: Episode) { ep.featured }

  /** `eps.filter(p).length` */
  function Count(eps: seq<Episode>, p: Episode -> bool): (n: nat)
    ensures n == |Filter(eps, p)|
  {
    if |eps| == 0 then 0 else (if p(eps[0]) then 1 else 0) + Count(eps[1..], p)
  }

  function Views(ep: Episode): int { ep.views }
  function Likes(ep: Episode): int { ep.likes }

  /** `eps.reduce((sum, ep) => sum + (field(ep) || 0), 0)`: a missing
      count is already 0 here. */
  function Total(eps: seq<Episode>, field: Episode -> int): int {
    if |eps| == 0 then 0 else Total(eps[..|eps| - 1], field) + field(eps[|eps| - 1])
  }

  lemma {:induction false} TotalConcat(a: seq<Episode>, b: seq<Episode>, field: Episode -> int)
    ensures Total(a + b, field) == Total(a, field) + Total(b, field)
    decreases |b|
  {
    if |b| == 0 {
      assert a + b == a;
    } else {
      assert (a + b)[..|a + b| - 1] == a + b[..|b| - 1];
      TotalConcat(a, b[..|b| - 1], field);
    }
  }

  lemma TotalOne(ep: Episode, field: Episode -> int)
    ensures Total([ep], field) == field(ep)
  {
    assert [ep][..0] == [];
  }

  /** `new Set(eps.map(ep => ep.season)).size`: `Set` identifies NaN with
      NaN, as datatype equality does. */
  function Seasons(eps: seq<Episode>): set<Num> {
    set ep | ep in eps :: ep.season
  }

  lemma SeasonsBound(eps: seq<Episode>)
    ensures |Seasons(eps)| <= |eps|
    ensures |eps| > 0 ==> |Seasons(eps)| > 0
  {
    SeasonsBoundRec(eps);
  }

  lemma {:induction false} SeasonsBoundRec(eps: seq<Episode>)
    ensures |Seasons(eps)| <= |eps|
    ensures |eps| > 0 ==> eps[0].season in Seasons(eps)
  {
    if |eps| > 0 {
      SeasonsBoundRec(eps[1..]);
      assert Seasons(eps) == {eps[0].season} + Seasons(eps[1..]) by {
        forall x | x in eps ensures x == eps[0] || x in eps[1..] {
          var i :| 0 <= i < |eps| && eps[i] == x;
          if i > 0 {
            assert eps[1..][i - 1] == x;
          }
        }
      }
    }
  }

  // ------------------------------------------------------------ views

  /** `find(ep => ep.id === id)`, then `views = (views || 0) + 1`: only
      the first record with that id changes, and only in its view count;
      nothing changes when no episode has that id. */
  function IncrementViews(eps: seq<Episode>, id: string): (r: seq<Episode>)
    ensures |r| == |eps|
    ensures IndexOf(eps, id).None? ==> r == eps
    ensures IndexOf(eps, id).Some? ==> var k := IndexOf(eps, id).value;
      r[k].views == eps[k].views + 1 && r[k].(views := eps[k].views) == eps[k]
      && forall j :: 0 <= j < |eps| && j != k ==> r[j] == eps[j]
  {
    var i := IndexOf(eps, id);
    if i.None? then eps else eps[i.value := eps[i.value].(views := eps[i.value].views + 1)]
  }

  /** The total view count grows by one exactly when the id is present;
      the like count does not move. */
  lemma IncrementViewsTotal(eps: seq<Episode>, id: string)
    ensures Total(IncrementViews(eps, id), Views) == Total(eps, Views) + (if IndexOf(eps, id).Some? then 1 else 0)
    ensures Total(IncrementViews(eps, id), Likes) == Total(eps, Likes)
  {
    var i := IndexOf(eps, id);
    if i.Some? {
      var k := i.value;
      var x := eps[k].(views := eps[k].views + 1);
      assert IncrementViews(eps, id) == eps[k := x];
      TotalReplace(eps, k, x, Views);
      TotalReplace(eps, k, x, Likes);
    }
  }

  /** Replacing one record changes a total by that record's difference. */
  lemma TotalReplace(eps: seq<Episode>, k: nat, x: Episode, field: Episode -> int)
    requires k < |eps|
    ensures Total(eps[k := x], field) == Total(eps, field) - field(eps[k]) + field(x)
  {
    assert eps == eps[..k] + [eps[k]] + eps[k + 1..];
    assert eps[k := x] == eps[..k] + [x] + eps[k + 1..];
    TotalConcat(eps[..k] + [eps[k]], eps[k + 1..], field);
    TotalConcat(eps[..k], [eps[k]], field);
    TotalConcat(eps[..k] + [x], eps[k + 1..], field);
    TotalConcat(eps[..k], [x], field);
    TotalOne(eps[k], field);
    TotalOne(x, field);
  }

  // ------------------------------------------------------------ newest first

  /** `field.value || new Date().toISOString().split('T')[0]`: the typed
      date, or, for an empty field, the UTC midnight that starts today. */
  function DateOrToday(typed: Option<int>, now: int): (d: int)
    ensures typed.Some? ==> d == typed.value
    ensures typed.None? ==> d <= now < d + DayMs && d % DayMs == 0
  {
    if typed.Some? then typed.value else Today(now)
  }

  /** `new Date(ep.createdAt || ep.subtitleDate)` */
  function Stamp(ep: Episode): int {
    if ep.createdAt.Some? then ep.createdAt.value else ep.subtitleDate
  }

  predicate SortedBy(s: seq<Episode>, key: Episode -> int) {
    forall i, j :: 0 <= i < j < |s| ==> key(s[i]) >= key(s[j])
  }

  /** The episodes whose key is `k`, in their order. */
  function WithKey(s: seq<Episode>, key: Episode -> int, k: int): seq<Episode> {
    if |s| == 0 then []
    else if key(s[0]) == k then [s[0]] + WithKey(s[1..], key, k)
    else WithKey(s[1..], key, k)
  }

  /** Places `x` before the first element whose key is not larger. */
  function Insert(x: Episode, t: seq<Episode>, key: Episode -> int): (r: seq<Episode>)
    ensures multiset(r) == multiset{x} + multiset(t)
    ensures |r| == |t| + 1
  {
    if |t| == 0 || key(x) >= key(t[0]) then [x] + t
    else
      assert t == [t[0]] + t[1..];
      [t[0]] + Insert(x, t[1..], key)
  }

  /** `sort((a, b) => key(b) - key(a))`: descending by key, equal keys in
      their original order (the sort is stable). */
  function SortDesc(s: seq<Episode>, key: Episode -> int): (r: seq<Episode>)
    ensures multiset(r) == multiset(s)
    ensures |r| == |s|
  {
    if |s| == 0 then []
    else
      assert s == [s[0]] + s[1..];
      Insert(s[0], SortDesc(s[1..], key), key)
  }

  lemma {:induction false} InsertSorted(x: Episode, t: seq<Episode>, key: Episode -> int)
    requires SortedBy(t, key)
    ensures SortedBy(Insert(x, t, key), key)
    ensures |Insert(x, t, key)| > 0 && (Insert(x, t, key)[0] == x || (|t| > 0 && Insert(x, t, key)[0] == t[0]))
  {
    if |t| == 0 || key(x) >= key(t[0]) {
    } else {
      var rest := Insert(x, t[1..], key);
      InsertSorted(x, t[1..], key);
      var r := [t[0]] + rest;
      forall k | 0 <= k < |rest| ensures key(rest[k]) <= key(t[0]) {
        assert rest[k] in multiset(rest);
        if rest[k] != x {
          assert rest[k] in multiset(t[1..]);
          var q :| 0 <= q < |t[1..]| && t[1..][q] == rest[k];
          assert t[q + 1] == rest[k];
        }
      }
      forall i, j | 0 <= i < j < |r| ensures key(r[i]) >= key(r[j]) {
        assert r[j] == rest[j - 1];
        if i > 0 {
          assert r[i] == rest[i - 1];
        }
      }
    }
  }

  lemma TakeSorted(s: seq<Episode>, end: int, key: Episode -> int)
    requires SortedBy(s, key)
    ensures SortedBy(Take(s, end), key)
  {
    var r := Take(s, end);
    assert forall i :: 0 <= i < |r| ==> r[i] == s[i];
  }

  /** What a sorted list's prefix leaves out ranks no higher than what
      it keeps. */
  lemma TakeLeavesLower(s: seq<Episode>, end: int, key: Episode -> int, x: Episode)
    requires SortedBy(s, key) && x in s && x !in Take(s, end)
    ensures forall i :: 0 <= i < |Take(s, end)| ==> key(x) <= key(Take(s, end)[i])
  {
    var j :| 0 <= j < |s| && s[j] == x;
    var r := Take(s, end);
    assert forall i :: 0 <= i < |r| ==> r[i] == s[i];
    assert j >= |r|;
  }

  lemma {:induction false} SortDescSorted(s: seq<Episode>, key: Episode -> int)
    ensures SortedBy(SortDesc(s, key), key)
  {
    if |s| > 0 {
      SortDescSorted(s[1..], key);
      InsertSorted(s[0], SortDesc(s[1..], key), key);
    }
  }

  lemma {:induction false} InsertWithKey(x: Episode, t: seq<Episode>, key: Episode -> int, k: int)
    requires SortedBy(t, key)
    ensures WithKey(Insert(x, t, key), key, k) ==
      (if key(x) == k then [x] + WithKey(t, key, k) else WithKey(t, key, k))
  {
    if |t| == 0 || key(x) >= key(t[0]) {
      assert ([x] + t)[1..] == t;
    } else {
      assert SortedBy(t[1..], key) by {
        forall i, j | 0 <= i < j < |t[1..]| ensures key(t[1..][i]) >= key(t[1..][j]) {
          assert t[1..][i] == t[i + 1] && t[1..][j] == t[j + 1];
        }
      }
      InsertWithKey(x, t[1..], key, k);
      var r := [t[0]] + Insert(x, t[1..], key);
      assert r[1..] == Insert(x, t[1..], key);
      if key(x) == k {
        // key(t[0]) > k, so t[0] is not kept
        assert key(t[0]) != k;
      }
    }
  }

  /** Stability: the episodes sharing any one key come out in the order
      they went in. */
  lemma {:induction false} SortDescStable(s: seq<Episode>, key: Episode -> int, k: int)
    ensures WithKey(SortDesc(s, key), key, k) == WithKey(s, key, k)
  {
    if |s| > 0 {
      SortDescStable(s[1..], key, k);
      SortDescSorted(s[1..], key);
      InsertWithKey(s[0], SortDesc(s[1..], key), key, k);
    }
  }

  // ------------------------------------------------------------ Math.max

  /** The numbers `Math.max` works with here: integers, `-Infinity` and
      NaN. */
  datatype Ext = Fin(v: int) | NegInf | NotANumber

  function ExtOf(n: Num): Ext {
    if n.Int? then Fin(n.v) else NotANumber
  }

  function MaxExt(a: Ext, b: Ext): Ext {
    if a.NotANumber? || b.NotANumber? then NotANumber
    else if a.NegInf? then b
    else if b.NegInf? then a
    else if a.v >= b.v then a else b
  }

  /** `Math.max(...xs)`: NaN if any argument is NaN, `-Infinity` for no
      arguments, otherwise the largest. */
  function MathMax(xs: seq<Ext>): (r: Ext)
    ensures r.NotANumber? <==> exists i :: 0 <= i < |xs| && xs[i].NotANumber?
    ensures r.NegInf? <==> forall i :: 0 <= i < |xs| ==> xs[i].NegInf?
    ensures r.Fin? ==> exists i :: 0 <= i < |xs| && xs[i] == r
    ensures r.Fin? ==> forall i :: 0 <= i < |xs| && xs[i].Fin? ==> xs[i].v <= r.v
  {
    if |xs| == 0 then NegInf
    else
      var m := MathMax(xs[1..]);
      var r := MaxExt(xs[0], m);
      assert forall i :: 1 <= i < |xs| ==> xs[i] == xs[1..][i - 1];
      assert r.Fin? && r != xs[0] ==> exists i :: 0 <= i < |xs| && xs[i] == r by {
        if r.Fin? && r != xs[0] {
          var i :| 0 <= i < |xs[1..]| && xs[1..][i] == m;
          assert xs[i + 1] == r;
        }
      }
      r
  }

  /** `x + 1` */
  function PlusOne(x: Ext): Ext {
    match x
    case Fin(v) => Fin(v + 1)
    case NegInf => NegInf
    case NotANumber => NotANumber
  }

  // ------------------------------------------------------------ next season and number

  /** `eps.map(f)` */
  function Values(eps: seq<Episode>, f: Episode -> Ext): (r: seq<Ext>)
    ensures |r| == |eps| && forall i :: 0 <= i < |eps| ==> r[i] == f(eps[i])
  {
    seq(|eps|, i requires 0 <= i < |eps| => f(eps[i]))
  }

  /** `ep.season === m` */
  predicate InSeason(ep: Episode, m: Ext) {
    ep.season.Int? && m.Fin? && ep.season.v == m.v
  }

  function SeasonEpisodes(eps: seq<Episode>, m: Ext): (r: seq<Episode>)
    ensures forall x :: x in r <==> x in eps && InSeason(x, m)
  {
    Filter(eps, ep => InSeason(ep, m))
  }

  /** The season and number a new-episode form is filled with. */
  datatype Suggestion = Suggestion(season: Ext, number: Ext)

  /** The rule the `autoDetectNumbers` copies share: (1, 1) for an empty
      list; otherwise the largest season under `seasonOf`, and one more
      than the largest number under `numberOf` among the episodes whose
      stored season is that one. With `guarded`, no such episode gives
      number 0 before the increment, where `Math.max()` would give
      `-Infinity`. */
  function Suggest(eps: seq<Episode>, seasonOf: Episode -> Ext, numberOf: Episode -> Ext, guarded: bool)
    : (s: Suggestion)
    ensures |eps| == 0 ==> s == Suggestion(Fin(1), Fin(1))
  {
    if |eps| == 0 then Suggestion(Fin(1), Fin(1))
    else
      var m := MathMax(Values(eps, seasonOf));
      var inSeason := SeasonEpisodes(eps, m);
      var top := if guarded && |inSeason| == 0 then Fin(0) else MathMax(Values(inSeason, numberOf));
      Suggestion(m, PlusOne(top))
  }

  /** `numberOf` reads an integer number as itself. */
  ghost predicate KeepsNumbers(numberOf: Episode -> Ext) {
    forall ep: Episode :: ep.number.Int? ==> numberOf(ep) == Fin(ep.number.v)
  }

  /** When the suggested season holds stored episodes, the suggested
      number is one more than the largest of their numbers: it is above
      every finite one, and the returned episode `w` of that season sits
      exactly one below it. */
  lemma SuggestIsNextInSeason(eps: seq<Episode>, seasonOf: Episode -> Ext, numberOf: Episode -> Ext, guarded: bool)
    returns (w: nat)
    requires |eps| > 0
    requires Suggest(eps, seasonOf, numberOf, guarded).number.Fin?
    requires |SeasonEpisodes(eps, Suggest(eps, seasonOf, numberOf, guarded).season)| > 0
    ensures var s := Suggest(eps, seasonOf, numberOf, guarded);
      w < |eps| && InSeason(eps[w], s.season) && numberOf(eps[w]) == Fin(s.number.v - 1)
    ensures var s := Suggest(eps, seasonOf, numberOf, guarded);
      forall j :: 0 <= j < |eps| && InSeason(eps[j], s.season) && numberOf(eps[j]).Fin? ==> numberOf(eps[j]).v < s.number.v
  {
    var s := Suggest(eps, seasonOf, numberOf, guarded);
    var m := MathMax(Values(eps, seasonOf));
    var inSeason := SeasonEpisodes(eps, m);
    var ns := Values(inSeason, numberOf);
    var top := MathMax(ns);
    assert s.number == PlusOne(top);
    forall j | 0 <= j < |eps| && InSeason(eps[j], m) && numberOf(eps[j]).Fin?
      ensures numberOf(eps[j]).v < s.number.v
    {
      assert eps[j] in inSeason;
      var i :| 0 <= i < |inSeason| && inSeason[i] == eps[j];
      assert ns[i] == numberOf(eps[j]);
    }
    var i :| 0 <= i < |ns| && ns[i] == top;
    assert inSeason[i] in eps;
    w :| 0 <= w < |eps| && eps[w] == inSeason[i];
  }

  /** Whatever the mappings, a finite suggestion names a (season, number)
      pair no stored episode has. */
  lemma SuggestIsFresh(eps: seq<Episode>, seasonOf: Episode -> Ext, numberOf: Episode -> Ext, guarded: bool)
    requires KeepsNumbers(numberOf)
    ensures var s := Suggest(eps, seasonOf, numberOf, guarded);
      s.season.Fin? && s.number.Fin? ==>
        forall j :: 0 <= j < |eps| ==> !(StrictEq(eps[j].season, Int(s.season.v)) && StrictEq(eps[j].number, Int(s.number.v)))
  {
    var s := Suggest(eps, seasonOf, numberOf, guarded);
    if |eps| > 0 && s.season.Fin? && s.number.Fin? {
      var m := MathMax(Values(eps, seasonOf));
      var inSeason := SeasonEpisodes(eps, m);
      forall j | 0 <= j < |eps| && StrictEq(eps[j].season, Int(s.season.v)) && eps[j].number.Int?
        ensures eps[j].number.v < s.number.v
      {
        assert InSeason(eps[j], m);
        assert eps[j] in inSeason;
        var i :| 0 <= i < |inSeason| && inSeason[i] == eps[j];
        assert Values(inSeason, numberOf)[i] == Fin(eps[j].number.v);
      }
    }
  }
}

=== FILE: episodes_admin.dfy ===
/**
 * The episode form of episodes-admin.js. It shares the form fields and
 * the duplicate rule with episodes-manager.js but resolves the video with
 * the three-host rules, has no platform check, builds a record without
 * id, likes or status, prepends new episodes under a fresh id and spreads
 * the form's fields over an edited one.
 */
module EpisodesAdmin {
  import opened Js
  import opened Episodes
  import Resolvers
  import Video
  import EpisodesManager

  type Form = EpisodesManager.Form

  // ------------------------------------------------------------ autoDetectNumbers

  /** `ep.season || 1` and `ep.number || 0` */
  function SeasonOrOne(ep: Episode): Ext { Fin(OrDefault(ep.season, 1)) }
  function NumberOrZero(ep: Episode): Ext { Fin(OrDefault(ep.number, 0)) }

  /** `autoDetectNumbers`: the largest season after `|| 1`, but the
      episodes of that season are picked by their stored season, and
      `Math.max()` of none is `-Infinity`. */
  function AutoDetectNumbers(eps: seq<Episode>): Suggestion {
    Suggest(eps, SeasonOrOne, NumberOrZero, false)
  }

  /** (1, 1) for an empty list; a finite suggestion names a pair no stored
      episode has: the number is one more than the largest `number || 0`
      among the episodes stored under the suggested season. */
  lemma AutoDetectNumbersLaws(eps: seq<Episode>)
    ensures |eps| == 0 ==> AutoDetectNumbers(eps) == Suggestion(Fin(1), Fin(1))
    ensures var s := AutoDetectNumbers(eps);
      s.season.Fin? && s.number.Fin? ==>
        forall j :: 0 <= j < |eps| ==> !(StrictEq(eps[j].season, Int(s.season.v)) && StrictEq(eps[j].number, Int(s.number.v)))
    ensures var s := AutoDetectNumbers(eps);
      |eps| > 0 && s.number.Fin? ==>
        s.season.Fin?
        && (forall j :: 0 <= j < |eps| && eps[j].season == Int(s.season.v) ==> OrDefault(eps[j].number, 0) < s.number.v)
        && (exists j :: 0 <= j < |eps| && eps[j].season == Int(s.season.v) && OrDefault(eps[j].number, 0) + 1 == s.number.v)
  {
    SuggestIsFresh(eps, SeasonOrOne, NumberOrZero, false);
    if |eps| > 0 {
      AutoDetectNumberIsNext(eps);
    }
  }

  lemma AutoDetectNumberIsNext(eps: seq<Episode>)
    requires |eps| > 0
    ensures var s := AutoDetectNumbers(eps);
      s.number.Fin? ==>
        s.season.Fin?
        && (forall j :: 0 <= j < |eps| && eps[j].season == Int(s.season.v) ==> OrDefault(eps[j].number, 0) < s.number.v)
        && (exists j :: 0 <= j < |eps| && eps[j].season == Int(s.season.v) && OrDefault(eps[j].number, 0) + 1 == s.number.v)
  {
    var s := AutoDetectNumbers(eps);
    var m := MathMax(Values(eps, SeasonOrOne));
    assert Values(eps, SeasonOrOne)[0].Fin?;
    assert s.season == m && m.Fin?;
    if s.number.Fin? {
      var inSeason := SeasonEpisodes(eps, m);
      assert |inSeason| > 0;
      var w := SuggestIsNextInSeason(eps, SeasonOrOne, NumberOrZero, false);
      assert eps[w].season == Int(s.season.v) && OrDefault(eps[w].number, 0) + 1 == s.number.v;
      forall j | 0 <= j < |eps| && eps[j].season == Int(s.season.v)
        ensures OrDefault(eps[j].number, 0) < s.number.v
      {
        assert InSeason(eps[j], s.season) && NumberOrZero(eps[j]).Fin?;
      }
    }
  }

  /** A list whose only episode has no season (or season 0) suggests
      season 1 and number `-Infinity`: the `|| 1` makes the largest
      season 1, but no stored season equals 1. */
  lemma AutoDetectNumbersMinusInfinity(ep: Episode)
    requires !Truthy(ep.season)
    ensures AutoDetectNumbers([ep]) == Suggestion(Fin(1), NegInf)
  {
    var m := MathMax(Values([ep], SeasonOrOne));
    assert Values([ep], SeasonOrOne)[0] == Fin(1);
    assert m == Fin(1);
    assert SeasonEpisodes([ep], m) == [] by {
      assert !InSeason(ep, m);
    }
    assert Values([], NumberOrZero) == [];
  }

  // ------------------------------------------------------------ validateEpisodeForm

  /** `validateEpisodeForm`: required fields, then the duplicate rule with
      the edited record skipped; no platform check. */
  function ValidationError(eps: seq<Episode>, f: Form, editing: Option<string>): (r: Option<string>)
    ensures r.None? <==> EpisodesManager.FieldsFilled(f) && EpisodesManager.NoDuplicate(eps, f, editing)
    ensures r == Some("Campo requerido") <==> !EpisodesManager.FieldsFilled(f)
  {
    if !EpisodesManager.FieldsFilled(f) then Some("Campo requerido")
    else if FindDuplicate(eps, Trim(f.title), ParseInt(f.season), ParseInt(f.number), editing).Some? then
      Some("Episodio duplicado")
    else None
  }

  // ------------------------------------------------------------ collectEpisodeData

  /** The typed thumbnail, else the generated one, else the form
      placeholder. */
  function FormThumbnail(typed: string, url: string): (t: string)
    ensures Trim(typed) != "" ==> t == Trim(typed)
    ensures Trim(typed) == "" && Resolvers.TwoHostThumbnail(url).None? ==> t == Video.FormThumbnailPlaceholder
    ensures Trim(typed) == "" && Resolvers.TwoHostThumbnail(url).Some? && Resolvers.TwoHostThumbnail(url).value != "" ==>
      t == Resolvers.TwoHostThumbnail(url).value
  {
    var auto := Resolvers.TwoHostThumbnail(url);
    if Trim(typed) != "" then Trim(typed)
    else if auto.Some? && auto.value != "" then auto.value
    else Video.FormThumbnailPlaceholder
  }

  /** `collectEpisodeData`, as written (`allowComments` is `checked ||
      true`) or with the checkbox read as it is (`fixed`). The record has
      no id, likes or status. When editing, it reads the stored views and
      creation time, and throws a TypeError when the record is missing. */
  function CollectEpisodeData(eps: seq<Episode>, f: Form, editing: Option<string>, now: int, fixed: bool)
    : (r: Result<Patch>)
    ensures r.Ok? <==> (editing.Some? ==> IndexOf(eps, editing.value).Some?)
    ensures r.Ok? ==> (r.value.id.None? && r.value.likes.None? && r.value.status.None?
      && r.value.title == Some(Trim(f.title))
      && r.value.season == Some(ParseInt(f.season)) && r.value.number == Some(ParseInt(f.number))
      && r.value.embedUrl == Some(Resolvers.ThreeHostEmbed(Trim(f.videoUrl)))
      && r.value.thumbnail == Some(FormThumbnail(f.thumbnail, Trim(f.videoUrl))))
    ensures r.Ok? ==> r.value.allowComments == Some(if fixed then f.allowComments else true)
    ensures r.Ok? ==> (r.value.description == Some(Trim(f.description))
      && r.value.videoUrl == Some(Trim(f.videoUrl))
      && r.value.subtitleDate == Some(EpisodesManager.StoredDate(f))
      && r.value.published == Some(f.published) && r.value.featured == Some(f.featured)
      && r.value.notifySubscribers == Some(f.notifySubscribers))
    ensures r.Ok? && editing.None? ==> r.value.views == Some(0) && r.value.createdAt == Some(now)
    ensures r.Ok? && editing.Some? ==> var k := IndexOf(eps, editing.value).value;
      r.value.views == Some(eps[k].views) && r.value.createdAt == eps[k].createdAt
  {
    if editing.Some? && IndexOf(eps, editing.value).None? then Fail("TypeError")
    else
      var url := Trim(f.videoUrl);
      var prev := if editing.Some? then Some(eps[IndexOf(eps, editing.value).value]) else None;
      Ok(Patch(
        None, Some(Trim(f.title)), Some(Trim(f.description)),
        Some(ParseInt(f.season)), Some(ParseInt(f.number)),
        Some(url), Some(Resolvers.ThreeHostEmbed(url)), Some(FormThumbnail(f.thumbnail, url)),
        Some(EpisodesManager.StoredDate(f)),
        if prev.Some? then prev.value.createdAt else Some(now),
        Some(f.published), Some(f.featured),
        Some(if fixed then f.allowComments else true),
        Some(f.notifySubscribers),
        Some(if prev.Some? then prev.value.views else 0),
        None, None))
  }

  /** As written, comments are always allowed, even with the box
      unchecked. */
  lemma AllowCommentsIgnoresBox(eps: seq<Episode>, f: Form, editing: Option<string>, now: int)
    requires !f.allowComments
    ensures var r := CollectEpisodeData(eps, f, editing, now, false);
      r.Ok? ==> r.value.allowComments == Some(true)
  {
  }

  /** Read as it is, the box decides: an unticked box turns comments off. */
  lemma AllowCommentsFollowsBox(eps: seq<Episode>, f: Form, editing: Option<string>, now: int)
    ensures var r := CollectEpisodeData(eps, f, editing, now, true);
      r.Ok? ==> (r.value.allowComments == Some(true) <==> f.allowComments)
  {
  }


  // ------------------------------------------------------------ saving

  /** `createEpisode`: `{ id, ...data }` in front. Every field of `data`
      lands in the new record; the others keep their falsy default. */
  function CreateEpisode(eps: seq<Episode>, data: Patch, freshId: string): (r: seq<Episode>)
    requires data.id.None?
    ensures |r| == |eps| + 1 && r[1..] == eps && r[0].id == freshId
    ensures SpreadOver(r[0], Blank(freshId), data)
    ensures r[0].embedUrl == Pick(data.embedUrl, "") && r[0].thumbnail == Pick(data.thumbnail, "")
  {
    [Merge(Blank(freshId), data)] + eps
  }

  /** `updateEpisode`: `{ ...stored, ...data }`, or the error for an
      unknown id. */
  function UpdateEpisode(eps: seq<Episode>, id: string, data: Patch): (r: Result<seq<Episode>>)
    ensures r.Fail? <==> IndexOf(eps, id).None?
    ensures r.Fail? ==> r.error == "Episodio no encontrado"
    ensures r.Ok? ==> var k := IndexOf(eps, id).value;
      |r.value| == |eps| && r.value[k] == Merge(eps[k], data)
      && forall j :: 0 <= j < |eps| && j != k ==> r.value[j] == eps[j]
  {
    var i := IndexOf(eps, id);
    if i.None? then Fail("Episodio no encontrado")
    else Ok(eps[i.value := Merge(eps[i.value], data)])
  }

  /** `saveEpisode`: check, collect, then update or prepend. */
  function SaveEpisodeWith(eps: seq<Episode>, f: Form, editing: Option<string>, freshId: string, now: int, fixed: bool)
    : (r: Result<seq<Episode>>)
    ensures r.Ok? ==> ValidationError(eps, f, editing).None?
    ensures ValidationError(eps, f, editing).Some? ==> r == Fail(ValidationError(eps, f, editing).value)
  {
    var err := ValidationError(eps, f, editing);
    if err.Some? then Fail(err.value)
    else
      var data := CollectEpisodeData(eps, f, editing, now, fixed);
      if data.Fail? then Fail(data.error)
      else if editing.Some? then UpdateEpisode(eps, editing.value, data.value)
      else Ok(CreateEpisode(eps, data.value, freshId))
  }

  function SaveEpisode(eps: seq<Episode>, f: Form, editing: Option<string>, freshId: string, now: int)
    : Result<seq<Episode>>
  {
    SaveEpisodeWith(eps, f, editing, freshId, now, false)
  }

  /** A new episode that passes the check goes in front under the fresh
      id, with no views or likes, and shares neither its title nor its
      season and number with a stored episode; this holds whether or not
      the comments box is read as it is. */
  lemma SaveNewEpisode(eps: seq<Episode>, f: Form, freshId: string, now: int, fixed: bool)
    requires ValidationError(eps, f, None).None?
    ensures var r := SaveEpisodeWith(eps, f, None, freshId, now, fixed);
      r.Ok? && |r.value| == |eps| + 1 && r.value[1..] == eps
      && r.value[0].id == freshId && r.value[0].views == 0 && r.value[0].likes == 0
      && forall j :: 0 <= j < |eps| ==> !Clashes(eps[j], r.value[0].title, r.value[0].season, r.value[0].number)
  {
  }

  /** Editing keeps the length, the id, the likes, the status, the views
      and every other record, whichever way the comments box is read. */
  lemma SaveEditedEpisode(eps: seq<Episode>, f: Form, id: string, freshId: string, now: int, fixed: bool)
    requires ValidationError(eps, f, Some(id)).None? && IndexOf(eps, id).Some?
    ensures var r := SaveEpisodeWith(eps, f, Some(id), freshId, now, fixed);
      var k := IndexOf(eps, id).value;
      r.Ok? && |r.value| == |eps| && r.value[k].id == id
      && r.value[k].likes == eps[k].likes && r.value[k].status == eps[k].status
      && r.value[k].views == eps[k].views
      && forall j :: 0 <= j < |eps| && j != k ==> r.value[j] == eps[j]
  {
  }
}

=== FILE: episodes_manager.dfy ===
/**
 * The episode form of episodes-manager.js: the suggested season and
 * number, the form check (required fields, a supported platform, no
 * duplicate other than the record being edited), the record the form
 * produces, saving it (appended when new, spread over the stored record
 * when editing), the copy `duplicateEpisode` makes and the title
 * suggestions. `editing` is `currentEditingEpisode`; ids are never empty.
 */
module EpisodesManager {
  import opened Js
  import opened Episodes
  import opened Platforms
  import Video

  // ------------------------------------------------------------ autoDetectNumbers

  /** The stored season and number, taken as they are. */
  function RawSeason(ep: Episode): Ext { ExtOf(ep.season) }
  function RawNumber(ep: Episode): Ext { ExtOf(ep.number) }

  /** `autoDetectNumbers` */
  function AutoDetectNumbers(eps: seq<Episode>): Suggestion {
    Suggest(eps, RawSeason, RawNumber, false)
  }

  predicate AllNumeric(eps: seq<Episode>) {
    forall j :: 0 <= j < |eps| ==> eps[j].season.Int? && eps[j].number.Int?
  }

  /** (1, 1) for an empty list. With only integer seasons and numbers the
      suggestion is the largest stored season, and one more than the
      largest number stored in that season, so it names a pair not yet
      taken. */
  lemma AutoDetectNumbersLaws(eps: seq<Episode>)
    ensures |eps| == 0 ==> AutoDetectNumbers(eps) == Suggestion(Fin(1), Fin(1))
    ensures |eps| > 0 && AllNumeric(eps) ==>
      var s := AutoDetectNumbers(eps);
      s.season.Fin? && s.number.Fin?
      && (exists j :: 0 <= j < |eps| && eps[j].season == Int(s.season.v))
      && (forall j :: 0 <= j < |eps| ==> eps[j].season.v <= s.season.v)
      && (forall j :: 0 <= j < |eps| ==> !(eps[j].season == Int(s.season.v) && eps[j].number == Int(s.number.v)))
    ensures |eps| > 0 && AllNumeric(eps) ==>
      var s := AutoDetectNumbers(eps);
      s.season.Fin? && s.number.Fin?
      && (forall j :: 0 <= j < |eps| && eps[j].season == Int(s.season.v) ==> eps[j].number.v < s.number.v)
      && (exists j :: 0 <= j < |eps| && eps[j].season == Int(s.season.v) && eps[j].number.v + 1 == s.number.v)
  {
    if |eps| > 0 && AllNumeric(eps) {
      AutoDetectSeasonIsLargest(eps);
      AutoDetectNumberIsFresh(eps);
      AutoDetectNumberIsNext(eps);
    }
  }

  lemma AutoDetectNumberIsNext(eps: seq<Episode>)
    requires |eps| > 0 && AllNumeric(eps)
    ensures var s := AutoDetectNumbers(eps);
      s.season.Fin? && s.number.Fin?
      && (forall j :: 0 <= j < |eps| && eps[j].season == Int(s.season.v) ==> eps[j].number.v < s.number.v)
      && (exists j :: 0 <= j < |eps| && eps[j].season == Int(s.season.v) && eps[j].number.v + 1 == s.number.v)
  {
    var s := AutoDetectNumbers(eps);
    var m, i := MaxStoredSeason(eps);
    assert s.season == m;
    assert s.number.Fin? by {
      assert eps[i] in SeasonEpisodes(eps, m);
      NumbersInSeasonFinite(eps, m);
    }
    assert |SeasonEpisodes(eps, m)| > 0 by {
      assert eps[i] in SeasonEpisodes(eps, m);
    }
    var w := SuggestIsNextInSeason(eps, RawSeason, RawNumber, false);
    assert eps[w].season == Int(s.season.v) && eps[w].number.v + 1 == s.number.v;
    forall j | 0 <= j < |eps| && eps[j].season == Int(s.season.v)
      ensures eps[j].number.v < s.number.v
    {
      assert InSeason(eps[j], s.season) && RawNumber(eps[j]).Fin?;
    }
  }

  lemma AutoDetectSeasonIsLargest(eps: seq<Episode>)
    requires |eps| > 0 && AllNumeric(eps)
    ensures var s := AutoDetectNumbers(eps);
      s.season.Fin?
      && (exists j :: 0 <= j < |eps| && eps[j].season == Int(s.season.v))
      && (forall j :: 0 <= j < |eps| ==> eps[j].season.v <= s.season.v)
  {
    var m, i := MaxStoredSeason(eps);
    assert AutoDetectNumbers(eps).season == m;
    assert eps[i].season == Int(m.v);
  }

  lemma AutoDetectNumberIsFresh(eps: seq<Episode>)
    requires |eps| > 0 && AllNumeric(eps)
    ensures var s := AutoDetectNumbers(eps);
      s.season.Fin? && s.number.Fin?
      && (forall j :: 0 <= j < |eps| ==> !(eps[j].season == Int(s.season.v) && eps[j].number == Int(s.number.v)))
  {
    var s := AutoDetectNumbers(eps);
    var m, i := MaxStoredSeason(eps);
    assert s.season == m;
    assert s.number.Fin? by {
      assert eps[i] in SeasonEpisodes(eps, m);
      NumbersInSeasonFinite(eps, m);
    }
    SuggestIsFresh(eps, RawSeason, RawNumber, false);
  }

  /** With only integer seasons, the largest is a stored season. */
  lemma MaxStoredSeason(eps: seq<Episode>) returns (m: Ext, i: nat)
    requires |eps| > 0 && AllNumeric(eps)
    ensures m == MathMax(Values(eps, RawSeason)) && m.Fin?
    ensures i < |eps| && eps[i].season == Int(m.v)
    ensures forall j :: 0 <= j < |eps| ==> eps[j].season.v <= m.v
  {
    var seasons := Values(eps, RawSeason);
    m := MathMax(seasons);
    assert seasons[0].Fin?;
    i :| 0 <= i < |seasons| && seasons[i] == m;
    assert eps[i].season == Int(m.v);
    forall j | 0 <= j < |eps| ensures eps[j].season.v <= m.v {
      assert seasons[j] == Fin(eps[j].season.v);
    }
  }

  /** With only integer numbers and some episode in the season, the
      largest number there is finite. */
  lemma NumbersInSeasonFinite(eps: seq<Episode>, m: Ext)
    requires AllNumeric(eps) && |SeasonEpisodes(eps, m)| > 0
    ensures MathMax(Values(SeasonEpisodes(eps, m), RawNumber)).Fin?
  {
    var inSeason := SeasonEpisodes(eps, m);
    var numbers := Values(inSeason, RawNumber);
    forall k | 0 <= k < |numbers| ensures numbers[k].Fin? {
      assert inSeason[k] in eps;
    }
    assert numbers[0].Fin?;
  }

  /** One stored episode without a numeric season makes the suggested
      season NaN. */
  lemma AutoDetectNumbersNaN(eps: seq<Episode>, j: nat)
    requires j < |eps| && eps[j].season == NaN
    ensures AutoDetectNumbers(eps).season == NotANumber
  {
    assert Values(eps, RawSeason)[j] == NotANumber;
  }

  // ------------------------------------------------------------ validateEpisodeForm

  /** The form fields, as the inputs hold them; `subtitleStamp` is the
      date the subtitle-date field names, None when the field is empty. A
      missing checkbox is unchecked. */
  datatype Form = Form(
    title: string,
    description: string,
    videoUrl: string,
    season: string,
    number: string,
    subtitleDate: string,
    thumbnail: string,
    subtitleStamp: Option<int>,
    published: bool,
    featured: bool,
    allowComments: bool,
    notifySubscribers: bool)

  predicate FieldsFilled(f: Form) {
    !IsBlank(f.title) && !IsBlank(f.description) && !IsBlank(f.videoUrl)
    && !IsBlank(f.season) && !IsBlank(f.number) && !IsBlank(f.subtitleDate)
  }

  /** No episode other than the edited one has the trimmed title (in any
      letter case) or the parsed season and number. */
  predicate NoDuplicate(eps: seq<Episode>, f: Form, editing: Option<string>) {
    forall j :: 0 <= j < |eps| ==>
      !(Considered(eps[j], editing) && Clashes(eps[j], Trim(f.title), ParseInt(f.season), ParseInt(f.number)))
  }

  /** `validateEpisodeForm`: the title of the warning it shows, or None
      when the form passes. */
  function ValidationError(eps: seq<Episode>, f: Form, editing: Option<string>): (r: Option<string>)
    ensures r.None? <==> FieldsFilled(f) && Detect(f.videoUrl).Some? && NoDuplicate(eps, f, editing)
    ensures r == Some("Campo requerido") <==> !FieldsFilled(f)
    ensures r == Some("URL inválida") <==> FieldsFilled(f) && Detect(f.videoUrl).None?
  {
    if !FieldsFilled(f) then Some("Campo requerido")
    else if Detect(f.videoUrl).None? then Some("URL inválida")
    else if FindDuplicate(eps, Trim(f.title), ParseInt(f.season), ParseInt(f.number), editing).Some? then
      Some("Episodio duplicado")
    else None
  }

  // ------------------------------------------------------------ collectEpisodeData

  /** `platform.thumbnailUrl?.(videoUrl)`, then the placeholder, unless
      a thumbnail was typed. */
  function FormThumbnail(typed: string, p: Platform, url: string): (t: string)
    ensures Trim(typed) != "" ==> t == Trim(typed)
    ensures Trim(typed) == "" && PlatformThumbnail(p, url, false).None? ==> t == Video.FormThumbnailPlaceholder
    ensures Trim(typed) == "" && PlatformThumbnail(p, url, false).Some? && PlatformThumbnail(p, url, false).value != "" ==>
      t == PlatformThumbnail(p, url, false).value
  {
    var auto := PlatformThumbnail(p, url, false);
    if Trim(typed) != "" then Trim(typed)
    else if auto.Some? && auto.value != "" then auto.value
    else Video.FormThumbnailPlaceholder
  }

  /** `subtitleDate: field.value`: the date as typed, with no fallback;
      an empty field stores the empty text, which reads as the falsy 0. */
  function StoredDate(f: Form): (d: int)
    ensures f.subtitleStamp.Some? ==> d == f.subtitleStamp.value
    ensures f.subtitleStamp.None? ==> d == 0
  {
    if f.subtitleStamp.Some? then f.subtitleStamp.value else 0
  }

  /** `collectEpisodeData`. It reads the detected platform and, when
      editing, the stored record; when either is missing the source
      throws a TypeError. `allowComments` is `checked || true`. */
  function CollectEpisodeData(eps: seq<Episode>, f: Form, editing: Option<string>, freshId: string, now: int)
    : (r: Result<Episode>)
    ensures r.Ok? <==> Detect(Trim(f.videoUrl)).Some? && (editing.Some? ==> IndexOf(eps, editing.value).Some?)
    ensures r.Ok? ==> (r.value.id == (if editing.Some? then editing.value else freshId)
      && r.value.title == Trim(f.title) && r.value.videoUrl == Trim(f.videoUrl)
      && r.value.season == ParseInt(f.season) && r.value.number == ParseInt(f.number)
      && r.value.allowComments
      && Some(r.value.embedUrl) == PlatformEmbed(Detect(Trim(f.videoUrl)).value, Trim(f.videoUrl), false))
    ensures r.Ok? ==> (r.value.description == Trim(f.description)
      && r.value.thumbnail == FormThumbnail(f.thumbnail, Detect(Trim(f.videoUrl)).value, Trim(f.videoUrl))
      && r.value.published == f.published && r.value.featured == f.featured
      && r.value.notifySubscribers == f.notifySubscribers
      && r.value.subtitleDate == StoredDate(f))
    ensures r.Ok? && editing.None? ==> r.value.views == 0 && r.value.likes == 0 && r.value.createdAt == Some(now)
    ensures r.Ok? && editing.Some? ==> var prev := eps[IndexOf(eps, editing.value).value];
      r.value.views == prev.views && r.value.likes == prev.likes && r.value.createdAt == prev.createdAt
  {
    var url := Trim(f.videoUrl);
    var p := Detect(url);
    if p.None? then Fail("TypeError")
    else if editing.Some? && IndexOf(eps, editing.value).None? then Fail("TypeError")
    else
      var prev := if editing.Some? then Some(eps[IndexOf(eps, editing.value).value]) else None;
      Ok(Episode(
        if editing.Some? then editing.value else freshId,
        Trim(f.title), Trim(f.description), ParseInt(f.season), ParseInt(f.number),
        url, PlatformEmbed(p.value, url, false).value, FormThumbnail(f.thumbnail, p.value, url),
        StoredDate(f),
        if prev.Some? then prev.value.createdAt else Some(now),
        f.published, f.featured, true, f.notifySubscribers,
        if prev.Some? then prev.value.views else 0,
        if prev.Some? then prev.value.likes else 0,
        ""))
  }

  /** Whatever passes the platform check also has a platform once
      trimmed, so a checked form never makes collection throw for it. */
  lemma DetectSurvivesTrim(url: string)
    requires Detect(url).Some?
    ensures Detect(Trim(url)).Some?
  {
    DetectIffAlnum(url);
    var k :| 0 <= k < |url| && IsAlnum(url[k]);
    TrimKeepsAlnum(url, k);
    DetectIffAlnum(Trim(url));
  }

  // ------------------------------------------------------------ saving

  /** `createEpisode`: appended at the end. */
  function CreateEpisode(eps: seq<Episode>, ep: Episode): (r: seq<Episode>)
    ensures |r| == |eps| + 1 && r[..|eps|] == eps && r[|eps|] == ep
  {
    eps + [ep]
  }

  /** `updateEpisode`: `{ ...stored, ...data }`; the form's record holds
      every field but `status`, which stays. */
  function UpdateEpisode(eps: seq<Episode>, id: string, data: Episode): (r: Result<seq<Episode>>)
    ensures r.Fail? <==> IndexOf(eps, id).None?
    ensures r.Ok? ==> var k := IndexOf(eps, id).value;
      |r.value| == |eps| && r.value[k] == data.(status := eps[k].status)
      && forall j :: 0 <= j < |eps| && j != k ==> r.value[j] == eps[j]
  {
    var i := IndexOf(eps, id);
    if i.None? then Fail("Episodio no encontrado")
    else Ok(eps[i.value := data.(status := eps[i.value].status)])
  }

  /** `saveEpisode`: check, collect, then update or append. */
  function SaveEpisode(eps: seq<Episode>, f: Form, editing: Option<string>, freshId: string, now: int)
    : (r: Result<seq<Episode>>)
    ensures r.Ok? ==> ValidationError(eps, f, editing).None?
    ensures ValidationError(eps, f, editing).Some? ==> r == Fail(ValidationError(eps, f, editing).value)
  {
    var err := ValidationError(eps, f, editing);
    if err.Some? then Fail(err.value)
    else
      var ep := CollectEpisodeData(eps, f, editing, freshId, now);
      if ep.Fail? then Fail(ep.error)
      else if editing.Some? then UpdateEpisode(eps, editing.value, ep.value)
      else Ok(CreateEpisode(eps, ep.value))
  }

  /** A new episode that passes the check is appended, fresh, with no
      stored episode sharing its title or its season and number. */
  lemma SaveNewEpisode(eps: seq<Episode>, f: Form, freshId: string, now: int)
    requires ValidationError(eps, f, None).None?
    ensures var r := SaveEpisode(eps, f, None, freshId, now);
      r.Ok? && |r.value| == |eps| + 1 && r.value[..|eps|] == eps
      && r.value[|eps|].id == freshId && r.value[|eps|].views == 0
      && forall j :: 0 <= j < |eps| ==>
        !Clashes(eps[j], r.value[|eps|].title, r.value[|eps|].season, r.value[|eps|].number)
  {
    DetectSurvivesTrim(f.videoUrl);
  }

  /** Editing a stored episode that passes the check keeps the list's
      length, the record's id, its views and creation time, and every
      other record; no other record shares the new title or numbers. */
  lemma SaveEditedEpisode(eps: seq<Episode>, f: Form, id: string, freshId: string, now: int)
    requires ValidationError(eps, f, Some(id)).None? && IndexOf(eps, id).Some?
    ensures var r := SaveEpisode(eps, f, Some(id), freshId, now);
      var k := IndexOf(eps, id).value;
      r.Ok? && |r.value| == |eps| && r.value[k].id == id
      && r.value[k].views == eps[k].views && r.value[k].createdAt == eps[k].createdAt
      && (forall j :: 0 <= j < |eps| && j != k ==> r.value[j] == eps[j])
      && forall j :: 0 <= j < |eps| && eps[j].id != id ==>
        !Clashes(eps[j], r.value[k].title, r.value[k].season, r.value[k].number)
  {
    DetectSurvivesTrim(f.videoUrl);
  }

  // ------------------------------------------------------------ duplicateEpisode

  /** The copy `duplicateEpisode` appends. */
  function Copy(ep: Episode, freshId: string, now: int): (c: Episode)
    ensures c.id == freshId && c.title == ep.title + " (Copia)"
    ensures c.number == PlusOneNum(ep.number)
    ensures !c.published && !c.featured && c.views == 0 && c.likes == 0 && c.createdAt == Some(now)
  {
    ep.(id := freshId, title := ep.title + " (Copia)", number := PlusOneNum(ep.number),
        published := false, featured := false, views := 0, likes := 0, createdAt := Some(now))
  }

  /** The copy keeps every other field, and never duplicates the episode
      it was made from: its title is longer and its number differs. */
  lemma CopyLaws(ep: Episode, freshId: string, now: int)
    ensures var c := Copy(ep, freshId, now);
      c.(id := ep.id, title := ep.title, number := ep.number, published := ep.published,
         featured := ep.featured, views := ep.views, likes := ep.likes, createdAt := ep.createdAt) == ep
    ensures !Clashes(ep, Copy(ep, freshId, now).title, Copy(ep, freshId, now).season, Copy(ep, freshId, now).number)
  {
    var c := Copy(ep, freshId, now);
    assert |LowerStr(c.title)| == |ep.title| + 8;
  }

  /** `duplicateEpisode`: nothing happens for an unknown id; otherwise the
      copy of the first episode with the id goes at the end. */
  function DuplicateEpisode(eps: seq<Episode>, id: string, freshId: string, now: int): (r: seq<Episode>)
    ensures IndexOf(eps, id).None? ==> r == eps
    ensures IndexOf(eps, id).Some? ==>
      r == CreateEpisode(eps, Copy(eps[IndexOf(eps, id).value], freshId, now))
  {
    var i := IndexOf(eps, id);
    if i.None? then eps else CreateEpisode(eps, Copy(eps[i.value], freshId, now))
  }

  // ------------------------------------------------------------ generateTitleSuggestions

  /** A title pattern, split at its `{title}` placeholder. */
  datatype Template = Template(before: string, after: string)

  const TitlePatterns: seq<Template> := [
    Template("¡", "!"),
    Template("¡Shin-chan y ", "!"),
    Template("¡", " con Shin-chan!"),
    Template("¡La aventura de ", "!"),
    Template("¡Shin-chan en ", "!"),
    Template("¡", " - Diversión garantizada!"),
    Template("¡Un día de ", "!"),
    Template("¡", " y más travesuras!")
  ]

  /** `pattern.replace('{title}', title)`: the replacement's `$` patterns
      are expanded, as `replace` does with a string replacement. */
  function Fill(t: Template, title: string): string {
    t.before + ReplaceExpand(title, t.before, "{title}", t.after) + t.after
  }

  /** The same, inserting the title as it is. */
  function FillLiteral(t: Template, title: string): (r: string)
    ensures |r| == |t.before| + |title| + |t.after|
    ensures r[|t.before|..|t.before| + |title|] == title
  {
    t.before + title + t.after
  }

  lemma LowerKeepsDollarOut(s: string)
    requires '$' !in s
    ensures '$' !in LowerStr(s)
  {
    forall i | 0 <= i < |s| ensures LowerStr(s)[i] != '$' {
      assert s[i] != '$';
    }
  }

  /** `generateTitleSuggestions`: the first three patterns filled with
      the lower-cased input. */
  function TitleSuggestions(partial: string): (r: seq<string>)
    ensures |r| == 3
    ensures '$' !in partial ==> r == [
      "¡" + LowerStr(partial) + "!",
      "¡Shin-chan y " + LowerStr(partial) + "!",
      "¡" + LowerStr(partial) + " con Shin-chan!"]
  {
    var lower := LowerStr(partial);
    assert '$' !in partial ==> (ReplaceExpand(lower, "¡", "{title}", "!") == lower
      && ReplaceExpand(lower, "¡Shin-chan y ", "{title}", "!") == lower
      && ReplaceExpand(lower, "¡", "{title}", " con Shin-chan!") == lower) by {
      if '$' !in partial {
        LowerKeepsDollarOut(partial);
        ReplaceExpandPlain(lower, "¡", "{title}", "!");
        ReplaceExpandPlain(lower, "¡Shin-chan y ", "{title}", "!");
        ReplaceExpandPlain(lower, "¡", "{title}", " con Shin-chan!");
      }
    }
    seq(|TitlePatterns|, i requires 0 <= i < |TitlePatterns| => Fill(TitlePatterns[i], lower))[..3]
  }

  /** The suggestions with the title inserted as typed (lower-cased). */
  function TitleSuggestionsLiteral(partial: string): (r: seq<string>)
    ensures |r| == 3
    ensures forall i :: 0 <= i < 3 ==> r[i] == FillLiteral(TitlePatterns[i], LowerStr(partial))
  {
    var lower := LowerStr(partial);
    seq(|TitlePatterns|, i requires 0 <= i < |TitlePatterns| => FillLiteral(TitlePatterns[i], lower))[..3]
  }

  /** As written, a title typed as `$&` suggests the placeholder itself. */
  lemma DollarTitleSuggestion()
    ensures TitleSuggestions("$&")[0] == "¡{title}!"
    ensures TitleSuggestionsLiteral("$&")[0] == "¡$&!"
  {
    assert LowerStr("$&") == "$&";
    ReplaceExpandMatched("", "¡", "{title}", "!");
    assert "$&" + "" == "$&";
  }
}

=== FILE: js.dfy ===
/**
 * The slice of JavaScript value semantics the site's scripts rely on:
 * optional values, the numbers `parseInt` produces, the `\s` character
 * class, `trim`, ASCII case folding, `includes`, `split('/').pop()` and
 * the decimal text of integers.
 */
module Js {

  /** `null`/`undefined` versus a present value. */
  datatype Option<+T> = None | Some(value: T)

  /** What a function returns, or the message of the error it throws. */
  datatype Result<+T> = Ok(value: T) | Fail(error: string)

  /** What `parseInt` returns: an integer or NaN. */
  datatype Num = Int(v: int) | NaN

  /** `a === b` on numbers: NaN equals nothing, not even itself. */
  predicate StrictEq(a: Num, b: Num) {
    a.Int? && b.Int? && a.v == b.v
  }

  /** `a || d` on a number: zero and NaN are falsy. */
  function OrDefault(a: Num, d: int): int {
    if a.Int? && a.v != 0 then a.v else d
  }

  /** `n + 1` */
  function PlusOneNum(n: Num): (r: Num)
    ensures r.Int? <==> n.Int?
    ensures n.Int? ==> r.v == n.v + 1
  {
    if n.Int? then Int(n.v + 1) else NaN
  }

  /** A number is truthy unless it is zero or NaN. */
  predicate Truthy(a: Num) {
    a.Int? && a.v != 0
  }

  /** A subset is no larger. */
  lemma {:induction false} SubsetSize<T>(a: set<T>, b: set<T>)
    requires a <= b
    ensures |a| <= |b|
  {
    if a != {} {
      var x :| x in a;
      SubsetSize(a - {x}, b - {x});
    }
  }

  // ---------------------------------------------------------------- chars

  predicate IsLineTerminator(c: char) {
    c == '\n' || c == '\r' || c == '\U{2028}' || c == '\U{2029}'
  }

  /** The `\s` class: WhiteSpace and LineTerminator code points. `trim` and
      `parseInt` strip the same set. */
  predicate IsWhiteSpace(c: char) {
    || c == '\t' || c == '\U{000B}' || c == '\U{000C}' || c == ' '
    || c == '\U{00A0}' || c == '\U{1680}' || ('\U{2000}' <= c <= '\U{200A}')
    || c == '\U{202F}' || c == '\U{205F}' || c == '\U{3000}' || c == '\U{FEFF}'
    || IsLineTerminator(c)
  }

  predicate IsDigit(c: char) { '0' <= c <= '9' }

  predicate IsAsciiLetter(c: char) { 'a' <= c <= 'z' || 'A' <= c <= 'Z' }

  /** `[a-zA-Z0-9]` */
  predicate IsAlnum(c: char) { IsAsciiLetter(c) || IsDigit(c) }

  /** `\w` without the `u` flag. */
  predicate IsWordChar(c: char) { IsAlnum(c) || c == '_' }

  predicate IsHexDigit(c: char) { IsDigit(c) || 'a' <= c <= 'f' || 'A' <= c <= 'F' }

  /** ASCII lower-casing of one character. */
  function Lower(c: char): char {
    if 'A' <= c <= 'Z' then (c as int + 32) as char else c
  }

  /** `toLowerCase`, restricted to the ASCII letters. */
  function LowerStr(s: string): (r: string)
    ensures |r| == |s|
    ensures forall i :: 0 <= i < |s| ==> r[i] == Lower(s[i])
  {
    seq(|s|, i requires 0 <= i < |s| => Lower(s[i]))
  }

  /** `a.toLowerCase() === b.toLowerCase()` */
  predicate EqualsIgnoreCase(a: string, b: string) {
    LowerStr(a) == LowerStr(b)
  }

  lemma EqualsIgnoreCaseIsEquivalence(a: string, b: string, c: string)
    ensures EqualsIgnoreCase(a, a)
    ensures EqualsIgnoreCase(a, b) ==> EqualsIgnoreCase(b, a)
    ensures EqualsIgnoreCase(a, b) && EqualsIgnoreCase(b, c) ==> EqualsIgnoreCase(a, c)
  {
  }

  /** Titles that differ only in ASCII letter case compare equal. */
  lemma {:induction false} EqualsIgnoreCaseOfCaseVariant(a: string, b: string)
    requires |a| == |b|
    requires forall i :: 0 <= i < |a| ==> a[i] == b[i] || Lower(a[i]) == Lower(b[i])
    ensures EqualsIgnoreCase(a, b)
  {
    assert forall i :: 0 <= i < |a| ==> LowerStr(a)[i] == LowerStr(b)[i];
  }

  // ---------------------------------------------------------------- trim

  /** Number of white-space characters at the start of `s`. */
  function LeadingSpace(s: string): (n: nat)
    ensures n <= |s|
    ensures forall i :: 0 <= i < n ==> IsWhiteSpace(s[i])
    ensures n < |s| ==> !IsWhiteSpace(s[n])
  {
    if |s| > 0 && IsWhiteSpace(s[0]) then 1 + LeadingSpace(s[1..]) else 0
  }

  /** Number of white-space characters at the end of `s`. */
  function TrailingSpace(s: string): (n: nat)
    ensures n <= |s|
    ensures forall i :: |s| - n <= i < |s| ==> IsWhiteSpace(s[i])
    ensures n < |s| ==> !IsWhiteSpace(s[|s| - n - 1])
  {
    if |s| > 0 && IsWhiteSpace(s[|s| - 1]) then 1 + TrailingSpace(s[..|s| - 1]) else 0
  }

  /** `trimStart` */
  function TrimStart(s: string): string {
    s[LeadingSpace(s)..]
  }

  /** `trim`: what lies between the leading and the trailing white space. It
      keeps a contiguous part of `s`, that part starts and ends with
      something other than white space, and it is empty exactly when `s` is
      all white space. */
  function Trim(s: string): (r: string)
    ensures LeadingSpace(s) + |r| <= |s|
    ensures forall i :: 0 <= i < |r| ==> r[i] == s[LeadingSpace(s) + i]
    ensures forall i :: LeadingSpace(s) + |r| <= i < |s| ==> IsWhiteSpace(s[i])
    ensures |r| > 0 ==> !IsWhiteSpace(r[0]) && !IsWhiteSpace(r[|r| - 1])
    ensures r == "" <==> forall i :: 0 <= i < |s| ==> IsWhiteSpace(s[i])
  {
    var a := LeadingSpace(s);
    if a == |s| then ""
    else
      var b := |s| - TrailingSpace(s);
      assert a < b by {
        assert !IsWhiteSpace(s[a]);
      }
      s[a..b]
  }

  /** `!x.trim()`: empty after trimming. */
  predicate IsBlank(s: string) {
    Trim(s) == ""
  }

  // ---------------------------------------------------------------- search

  predicate StartsWith(s: string, p: string) {
    |p| <= |s| && s[..|p|] == p
  }

  /** `s.includes(sub)` */
  predicate Contains(s: string, sub: string)
    decreases |s|
  {
    StartsWith(s, sub) || (|s| > 0 && Contains(s[1..], sub))
  }

  /** `sub` occurs in `s` starting at index `i`. */
  predicate OccursAt(s: string, sub: string, i: nat) {
    i + |sub| <= |s| && s[i..i + |sub|] == sub
  }

  lemma {:induction false} ContainsIff(s: string, sub: string)
    ensures Contains(s, sub) <==> exists i: nat :: OccursAt(s, sub, i)
    decreases |s|
  {
    if StartsWith(s, sub) {
      assert OccursAt(s, sub, 0);
    }
    if |s| > 0 {
      ContainsIff(s[1..], sub);
      if Contains(s[1..], sub) {
        var i: nat :| OccursAt(s[1..], sub, i);
        assert s[1..][i..i + |sub|] == s[i + 1..i + 1 + |sub|];
        assert OccursAt(s, sub, i + 1);
      }
      if exists i: nat :: OccursAt(s, sub, i) {
        var i: nat :| OccursAt(s, sub, i);
        if i > 0 {
          assert s[1..][i - 1..i - 1 + |sub|] == s[i..i + |sub|];
          assert OccursAt(s[1..], sub, i - 1);
        }
      }
    } else if exists i: nat :: OccursAt(s, sub, i) {
      var i: nat :| OccursAt(s, sub, i);
      assert sub == [];
    }
  }

  /** A string without the first character of `sub` cannot contain `sub`. */
  lemma {:induction false} NotContainsWithoutHead(s: string, sub: string)
    requires |sub| > 0 && sub[0] !in s
    ensures !Contains(s, sub)
    decreases |s|
  {
    if |s| > 0 {
      NotContainsWithoutHead(s[1..], sub);
    }
  }

  /** Every character of a contained string appears in the text. */
  lemma ContainedCharOccurs(s: string, sub: string, k: nat)
    requires Contains(s, sub) && k < |sub|
    ensures sub[k] in s
  {
    ContainsIff(s, sub);
    var i: nat :| OccursAt(s, sub, i);
    assert s[i + k] == s[i..i + |sub|][k];
  }

  lemma ContainsItself(s: string)
    ensures Contains(s, s)
  {
  }

  /** An occurrence in the left part is an occurrence in the whole. */
  lemma {:induction false} ContainsInPrefix(a: string, b: string, sub: string)
    requires Contains(a, sub)
    ensures Contains(a + b, sub)
    decreases |a|
  {
    if StartsWith(a, sub) {
      assert (a + b)[..|sub|] == a[..|sub|];
    } else {
      assert (a + b)[1..] == a[1..] + b;
      ContainsInPrefix(a[1..], b, sub);
    }
  }

  /** An occurrence in the right part is an occurrence in the whole. */
  lemma {:induction false} ContainsInSuffix(a: string, b: string, sub: string)
    requires Contains(b, sub)
    ensures Contains(a + b, sub)
    decreases |a|
  {
    if |a| > 0 {
      assert (a + b)[1..] == a[1..] + b;
      ContainsInSuffix(a[1..], b, sub);
    } else {
      assert a + b == b;
    }
  }

  /** `s.split('/').pop()`: the text after the last slash, or all of `s`. */
  function LastSegment(s: string): (r: string)
    ensures '/' !in r
    ensures |r| <= |s| && s[|s| - |r|..] == r
    ensures |r| < |s| ==> s[|s| - |r| - 1] == '/'
    decreases |s|
  {
    if |s| == 0 || s[|s| - 1] == '/' then ""
    else LastSegment(s[..|s| - 1]) + [s[|s| - 1]]
  }

  /** The last segment is the slash-free tail that starts the text or
      follows a `/`. */
  lemma LastSegmentIsTail(s: string)
    ensures exists k :: 0 <= k <= |s| && (k == 0 || s[k - 1] == '/')
                        && '/' !in s[k..] && LastSegment(s) == s[k..]
  {
    var k := |s| - |LastSegment(s)|;
    assert s[k..] == LastSegment(s);
  }

  /** The last segment of `p + "/" + seg` is `seg` whenever `seg` has no slash. */
  lemma LastSegmentAfterSlash(p: string, seg: string)
    requires '/' !in seg
    ensures LastSegment(p + "/" + seg) == seg
  {
    var s := p + "/" + seg;
    assert s[|s| - |seg| - 1] == '/';
    assert forall k :: |s| - |seg| <= k < |s| ==> s[k] == seg[k - (|s| - |seg|)];
    assert s[|s| - |seg|..] == seg;
  }

  // ---------------------------------------------------------------- numbers

  function DigitValue(c: char): nat
    requires IsDigit(c)
  {
    c as int - '0' as int
  }

  function DigitChar(d: nat): (c: char)
    requires d < 10
    ensures IsDigit(c) && DigitValue(c) == d
  {
    ('0' as int + d) as char
  }

  predicate AllDigits(s: string) {
    forall i :: 0 <= i < |s| ==> IsDigit(s[i])
  }

  /** Decimal value of a digit string. */
  function DigitsValue(ds: string): nat
    requires AllDigits(ds)
  {
    if |ds| == 0 then 0 else DigitsValue(ds[..|ds| - 1]) * 10 + DigitValue(ds[|ds| - 1])
  }

  /** End of the longest run of characters of class `p` starting at `i`:
      what a greedy `p*` consumes. */
  function RunEnd(s: string, i: nat, p: char -> bool): (k: nat)
    requires i <= |s|
    ensures i <= k <= |s|
    ensures forall j :: i <= j < k ==> p(s[j])
    ensures k == |s| || !p(s[k])
    decreases |s| - i
  {
    if i < |s| && p(s[i]) then RunEnd(s, i + 1, p) else i
  }

  /** The run from `i` ends exactly where the class stops. */
  lemma {:induction false} RunEndAt(s: string, i: nat, k: nat, p: char -> bool)
    requires i <= k <= |s|
    requires forall j :: i <= j < k ==> p(s[j])
    requires k == |s| || !p(s[k])
    ensures RunEnd(s, i, p) == k
    decreases k - i
  {
    if i < k {
      RunEndAt(s, i + 1, k, p);
    }
  }

  /** `parseInt(s)` with the default radix, for decimal text: leading white
      space, an optional sign, then the longest run of digits. A `0x`
      prefix is read as the digit 0, not as hexadecimal, and the value is
      exact however many digits there are. */
  function ParseInt(s: string): Num {
    ParseSigned(TrimStart(s))
  }

  function ParseSigned(t: string): Num {
    if |t| > 0 && t[0] == '-' then Negate(ParseDigits(t[1..]))
    else if |t| > 0 && t[0] == '+' then ParseDigits(t[1..])
    else ParseDigits(t)
  }

  function Negate(a: Num): Num {
    if a.Int? then Int(-a.v) else NaN
  }

  /** The value of the digit run at the start of `u`, NaN when there is none. */
  function ParseDigits(u: string): Num {
    var k := RunEnd(u, 0, IsDigit);
    if k == 0 then NaN else Int(DigitsValue(u[..k]))
  }

  /** Decimal text of a natural number, without leading zeros. */
  function ShowNat(n: nat): (r: string)
    ensures |r| > 0 && AllDigits(r)
    decreases n
  {
    if n < 10 then [DigitChar(n)] else ShowNat(n / 10) + [DigitChar(n % 10)]
  }

  /** `String(n)` for an integer. */
  function ShowInt(n: int): string {
    if n < 0 then "-" + ShowNat(-n) else ShowNat(n)
  }

  lemma {:induction false} DigitsValueOfShowNat(n: nat)
    ensures DigitsValue(ShowNat(n)) == n
    decreases n
  {
    if n >= 10 {
      DigitsValueOfShowNat(n / 10);
      var r := ShowNat(n);
      assert r[..|r| - 1] == ShowNat(n / 10);
    }
  }

  /** Text that starts and ends with something other than white space is
      left alone by `trim`. */
  lemma TrimOfTight(s: string)
    requires |s| > 0 && !IsWhiteSpace(s[0]) && !IsWhiteSpace(s[|s| - 1])
    ensures LeadingSpace(s) == 0 && Trim(s) == s
  {
    assert TrailingSpace(s) == 0;
  }

  /** A digit string followed by a non-digit (or nothing) reads as its value. */
  lemma ParseDigitsOf(ds: string, tail: string)
    requires |ds| > 0 && AllDigits(ds)
    requires |tail| == 0 || !IsDigit(tail[0])
    ensures ParseDigits(ds + tail) == Int(DigitsValue(ds))
  {
    var u := ds + tail;
    RunEndAt(u, 0, |ds|, IsDigit);
    assert u[..|ds|] == ds;
  }

  /** Text that does not start with white space is read as it is. */
  lemma ParseIntUntrimmed(s: string)
    requires |s| > 0 && !IsWhiteSpace(s[0])
    ensures ParseInt(s) == ParseSigned(s)
  {
    assert LeadingSpace(s) == 0;
  }

  /** Reading back the text of an integer with `parseInt` gives the integer. */
  /** `String(n)` for a number `parseInt` produced. */
  function ShowNum(n: Num): (r: string)
    ensures n.Int? ==> ParseInt(r) == n
  {
    if n.Int? then ParseIntShowInt(n.v); ShowInt(n.v) else "NaN"
  }

  lemma ParseIntShowInt(n: int)
    ensures ParseInt(ShowInt(n)) == Int(n)
  {
    var m: nat := if n < 0 then -n else n;
    var ds := ShowNat(m);
    DigitsValueOfShowNat(m);
    ParseDigitsOf(ds, "");
    assert ds + "" == ds;
    if n < 0 {
      var s := "-" + ds;
      ParseIntUntrimmed(s);
      assert s[1..] == ds;
    } else {
      ParseIntUntrimmed(ds);
    }
  }

  /** `parseInt` stops at the first character that is not a digit. */
  lemma ParseIntIgnoresTail(n: nat, tail: string)
    requires |tail| == 0 || !IsDigit(tail[0])
    ensures ParseInt(ShowNat(n) + tail) == Int(n)
  {
    var ds := ShowNat(n);
    DigitsValueOfShowNat(n);
    ParseDigitsOf(ds, tail);
    var s := ds + tail;
    assert s[0] == ds[0];
    ParseIntUntrimmed(s);
  }

  /** `isNaN(s)` for a string: `Number(s)` accepts, after trimming, the empty
      string, a signed decimal literal (with fraction and exponent), a signed
      `Infinity`, or an unsigned `0x`/`0o`/`0b` integer. */
  predicate NumberIsNaN(s: string) {
    var t := Trim(s);
    t != "" && !IsSignedDecimal(t) && !IsNonDecimalInteger(t)
  }

  predicate IsSignedDecimal(t: string) {
    var u := if |t| > 0 && (t[0] == '+' || t[0] == '-') then t[1..] else t;
    u == "Infinity" || IsUnsignedDecimal(u)
  }

  predicate IsUnsignedDecimal(u: string) {
    var a := RunEnd(u, 0, IsDigit);
    if a < |u| && u[a] == '.' then
      var b := RunEnd(u, a + 1, IsDigit);
      (a > 0 || b > a + 1) && ExponentTail(u, b)
    else
      a > 0 && ExponentTail(u, a)
  }

  /** The rest of `u` from `i` is empty or an exponent `e[+-]digits`. */
  predicate ExponentTail(u: string, i: nat)
    requires i <= |u|
  {
    i == |u| ||
    ((u[i] == 'e' || u[i] == 'E') &&
     var j := if i + 1 < |u| && (u[i + 1] == '+' || u[i + 1] == '-') then i + 2 else i + 1;
     var k := RunEnd(u, j, IsDigit);
     k > j && k == |u|)
  }

  predicate IsNonDecimalInteger(t: string) {
    |t| > 2 && t[0] == '0' &&
    ((t[1] in "xX" && forall i :: 2 <= i < |t| ==> IsHexDigit(t[i])) ||
     (t[1] in "oO" && forall i :: 2 <= i < |t| ==> '0' <= t[i] <= '7') ||
     (t[1] in "bB" && forall i :: 2 <= i < |t| ==> t[i] == '0' || t[i] == '1'))
  }

  /** A non-empty digit string, with or without a minus sign, is a decimal
      literal. */
  lemma SignedDigitsAreDecimal(t: string, ds: string)
    requires |ds| > 0 && AllDigits(ds)
    requires t == ds || t == "-" + ds
    ensures IsSignedDecimal(t)
  {
    RunEndAt(ds, 0, |ds|, IsDigit);
    if t != ds {
      assert t[1..] == ds;
    }
  }

  /** Every integer's text is a number to `isNaN`. */
  lemma ShowIntIsNumber(n: int)
    ensures !NumberIsNaN(ShowInt(n))
  {
    var s := ShowInt(n);
    var ds := ShowNat(if n < 0 then -n else n);
    assert s[|s| - 1] == ds[|ds| - 1];
    TrimOfTight(s);
    SignedDigitsAreDecimal(s, ds);
  }

  /** Trimming keeps every ASCII letter and digit: they are not white
      space. */
  lemma TrimKeepsAlnum(s: string, k: nat)
    requires k < |s| && IsAlnum(s[k])
    ensures exists j :: 0 <= j < |Trim(s)| && Trim(s)[j] == s[k]
  {
    var a := LeadingSpace(s);
    assert !IsWhiteSpace(s[k]);
    assert a <= k < a + |Trim(s)|;
    assert Trim(s)[k - a] == s[k];
  }

  // ---------------------------------------------------------------- replace

  /** The replacement text `String.prototype.replace` inserts for a plain
      string pattern: `$$` is a dollar sign, `$&` the matched text, `` $` ``
      the text before the match, `$'` the text after it; every other
      character (including a `$` before anything else) stands for itself. */
  function ReplaceExpand(rep: string, before: string, matched: string, after: string): string
    decreases |rep|
  {
    if |rep| == 0 then ""
    else if rep[0] == '$' && |rep| >= 2 && rep[1] == '$' then "$" + ReplaceExpand(rep[2..], before, matched, after)
    else if rep[0] == '$' && |rep| >= 2 && rep[1] == '&' then matched + ReplaceExpand(rep[2..], before, matched, after)
    else if rep[0] == '$' && |rep| >= 2 && rep[1] == '`' then before + ReplaceExpand(rep[2..], before, matched, after)
    else if rep[0] == '$' && |rep| >= 2 && rep[1] == '\'' then after + ReplaceExpand(rep[2..], before, matched, after)
    else [rep[0]] + ReplaceExpand(rep[1..], before, matched, after)
  }

  /** Without a dollar sign the replacement is inserted as it is. */
  lemma {:induction false} ReplaceExpandPlain(rep: string, before: string, matched: string, after: string)
    requires '$' !in rep
    ensures ReplaceExpand(rep, before, matched, after) == rep
  {
    if |rep| > 0 {
      assert '$' !in rep[1..];
      ReplaceExpandPlain(rep[1..], before, matched, after);
      assert rep == [rep[0]] + rep[1..];
    }
  }

  /** `$&` at the front of a replacement brings the matched text back. */
  lemma ReplaceExpandMatched(rest: string, before: string, matched: string, after: string)
    ensures ReplaceExpand("$&" + rest, before, matched, after) == matched + ReplaceExpand(rest, before, matched, after)
  {
    var rep := "$&" + rest;
    assert rep[0] == '$' && rep[1] == '&' && rep[2..] == rest;
  }

  // ---------------------------------------------------------------- dates

  /** Milliseconds in a day, `24 * 60 * 60 * 1000`. */
  const DayMs := 86_400_000

  /** `new Date().toISOString().split('T')[0]`, read back as a date: the
      UTC midnight that starts the day `now` falls in. */
  function Today(now: int): (d: int)
    ensures d <= now < d + DayMs
    ensures d % DayMs == 0
  {
    now - now % DayMs
  }

  /** A day has one midnight: any midnight at most a day before `now` is
      the one `Today` gives. */
  lemma TodayUnique(now: int, d: int)
    requires d % DayMs == 0 && d <= now < d + DayMs
    ensures d == Today(now)
  {
  }
}

=== FILE: literals.dfy ===
/**
 * Facts about the fixed text in the address templates and in the pattern
 * literals: lengths, where the letters that can start a pattern sit, and
 * the characters that rule a pattern out at those places. Each is stated
 * once here, on its own, and used by the proofs about the resolvers.
 */
module Literals {

  // ------------------------------------------------------------ pattern literals

  lemma YouTubeText()
    ensures var a, b := "youtube.com/", "youtu.be/";
      && |a| == 12 && a[0] == 'y' && a[1] == 'o' && a[7] == '.' && a[11] == '/'
      && |b| == 9 && b[0] == 'y' && b[1] == 'o' && b[5] == '.' && b[8] == '/'
  {
  }

  lemma VimeoText()
    ensures var a := "vimeo.com/";
      |a| == 10 && a[0] == 'v' && a[1] == 'i' && a[2] == 'm' && a[5] == '.' && a[9] == '/'
  {
  }

  lemma DailymotionText()
    ensures var a := "dailymotion.com/video/";
      && |a| == 22 && a[0] == 'd' && a[1] == 'a' && a[11] == '.' && a[15] == '/' && a[16] == 'v'
  {
  }

  lemma DriveText()
    ensures var a := "drive.google.com/file/d/";
      |a| == 24 && a[0] == 'd' && a[1] == 'r' && a[5] == '.' && a[16] == '/'
  {
  }

  lemma StreamableText()
    ensures var a := "streamable.com/";
      |a| == 15 && a[0] == 's' && a[1] == 't' && a[10] == '.' && a[14] == '/'
  {
  }

  lemma ShortHostText()
    ensures var a := "dai.ly";
      |a| == 6 && a[0] == 'd' && a[1] == 'a' && a[2] == 'i' && a[3] == '.' && a[4] == 'l' && a[5] == 'y'
  {
  }

  // ------------------------------------------------------------ scheme prefixes

  /** The scheme prefixes that stand before a host in the addresses below
      hold none of the letters that start the host literals. */
  lemma SchemeLetters()
    ensures 'y' !in "https://" && 'Y' !in "https://" && 'v' !in "https://" && 'V' !in "https://"
    ensures 'd' !in "https://" && 'D' !in "https://"
    ensures 'y' !in "https://www." && 'Y' !in "https://www." && 'd' !in "https://www." && 'D' !in "https://www."
  {
  }

  /** The query strings appended to YouTube embeds hold no slash. */
  lemma QueryText()
    ensures '/' !in "?enablejsapi=1&rel=0" && '/' !in "?enablejsapi=1" && '/' !in ""
  {
  }

  /** The optional scheme prefixes of the detailed patterns, and the
      Archive host. */
  lemma SchemeText()
    ensures |"https://www."| == 12 && "https://www."[0] == 'h' && "https://www."[8] == 'w'
    ensures |"https://"| == 8 && "https://"[0] == 'h'
    ensures forall k :: 0 <= k < 8 ==> !('A' <= "https://"[k] <= 'Z')
    ensures |"http://www."| == 11 && "http://www."[0] == 'h'
    ensures |"http://"| == 7 && "http://"[0] == 'h'
    ensures |"www."| == 4 && "www."[0] == 'w'
    ensures |"archive.org/"| == 12 && "archive.org/"[0] == 'a'
    ensures |"dailymotion.com/"| == 16 && "dailymotion.com/"[0] == 'd' && "dailymotion.com/"[1] == 'a'
    ensures "dailymotion.com/"[11] == '.' && "dailymotion.com/"[15] == '/'
  {
  }

  /** A Google Drive address splits into the scheme and the host part. */
  lemma DriveAddressText(t: string)
    ensures var s := "https://drive.google.com/file/d/" + t;
      && |s| == 32 + |t|
      && s[..8] == "https://"
      && s[8..32] == "drive.google.com/file/d/"
  {
  }

  lemma DailymotionPageScheme(t: string)
    ensures "https://www.dailymotion.com/video/" + t == "https:" + ("//www.dailymotion.com/video/" + t)
  {
  }

  lemma DriveAddressScheme(t: string)
    ensures "https://drive.google.com/file/d/" + t == "https:" + ("//drive.google.com/file/d/" + t)
  {
  }

  /** The Drive host has no upper-case letter. */
  lemma DriveHostLower()
    ensures |"drive.google.com/file/d/"| == 24
    ensures forall k :: 0 <= k < 24 ==> !('A' <= "drive.google.com/file/d/"[k] <= 'Z')
  {
  }

  // ------------------------------------------------------------ regrouping

  lemma WatchJoin(id: string)
    ensures "https://www." + "youtube.com/watch?v=" + id == "https://www.youtube.com/watch?v=" + id
  {
  }

  lemma ShortJoin(id: string)
    ensures "https://" + "youtu.be/" + id == "https://youtu.be/" + id
  {
  }

  lemma EmbedJoin(id: string, query: string)
    ensures "https://www." + "youtube.com/embed/" + id + query == "https://www.youtube.com/embed/" + id + query
  {
  }

  lemma VimeoJoin(digits: string)
    ensures "https://" + "vimeo.com/" + digits + "" == "https://vimeo.com/" + digits
  {
  }

  lemma DailymotionJoin(id: string)
    ensures "https://www." + "dailymotion.com/video/" + id + "" == "https://www.dailymotion.com/video/" + id
  {
  }

  lemma DriveJoin(id: string)
    ensures "https://" + "drive.google.com/file/d/" + id + "/preview"
         == "https://drive.google.com/file/d/" + (id + "/preview")
    ensures "/preview"[0] == '/'
    ensures '.' !in id ==> '.' !in id + "/preview"
  {
  }

  lemma EmbedSlashJoin(t: string)
    ensures "https://www.dailymotion.com/embed/video/" + t == "https://www.dailymotion.com/embed/video" + "/" + t
  {
  }

  lemma ShortSlashJoin(t: string)
    ensures "https://dai.ly/" + t == "https://dai.ly" + "/" + t
    ensures var s := "https://dai.ly/" + t; s[8..14] == "dai.ly"
  {
  }

  // ------------------------------------------------------------ templates

  /** The Vimeo player template. */
  lemma VimeoPlayerText(t: string)
    ensures var s := "https://player.vimeo.com/video/" + t;
      && |s| == 31 + |t|
      && (forall j :: 31 <= j < |s| ==> s[j] == t[j - 31])
      && s[5] == ':' && s[12] == 'e' && s[25] == 'v' && s[27] == 'd' && s[28] == 'e'
  {
  }

  /** Where the letters y, v, d and s sit in it. */
  lemma VimeoPlayerHeads(t: string, k: nat)
    requires k < 31
    ensures var c := ("https://player.vimeo.com/video/" + t)[k];
      && ((c == 'y' || c == 'Y') <==> k == 11)
      && ((c == 'v' || c == 'V') <==> (k == 15 || k == 25))
      && ((c == 'd' || c == 'D') <==> k == 27)
      && ((c == 's' || c == 'S') <==> k == 4)
  {
  }

  /** The Dailymotion embed template. */
  lemma DailymotionEmbedText(t: string)
    ensures var s := "https://www.dailymotion.com/embed/video/" + t;
      && |s| == 40 + |t|
      && (forall j :: 40 <= j < |s| ==> s[j] == t[j - 40])
      && s[5] == ':' && s[13] == 'a' && s[17] == 'm' && s[28] == 'e' && s[33] == '/' && s[36] == 'd' && s[37] == 'e'
  {
  }

  /** Where the letters y, v, d and s sit in it. */
  lemma DailymotionEmbedHeads(t: string, k: nat)
    requires k < 40
    ensures var c := ("https://www.dailymotion.com/embed/video/" + t)[k];
      && ((c == 'y' || c == 'Y') <==> k == 16)
      && ((c == 'v' || c == 'V') <==> k == 34)
      && ((c == 'd' || c == 'D') <==> (k == 12 || k == 32 || k == 36))
      && ((c == 's' || c == 'S') <==> k == 4)
  {
  }

  /** A Dailymotion video page address. */
  lemma DailymotionPageText(t: string)
    ensures var s := "https://www.dailymotion.com/video/" + t;
      && |s| == 34 + |t|
      && (forall j :: 34 <= j < |s| ==> s[j] == t[j - 34])
      && s[5] == ':' && s[13] == 'a' && s[15] == 'l' && s[17] == 'm' && s[30] == 'd' && s[31] == 'e'
  {
  }

  /** Where the letters y, v, d and s sit in it. */
  lemma DailymotionPageHeads(t: string, k: nat)
    requires k < 34
    ensures var c := ("https://www.dailymotion.com/video/" + t)[k];
      && ((c == 'y' || c == 'Y') <==> k == 16)
      && ((c == 'v' || c == 'V') <==> k == 28)
      && ((c == 'd' || c == 'D') <==> (k == 12 || k == 30))
      && ((c == 's' || c == 'S') <==> k == 4)
  {
  }

  /** A Vimeo video page address. */
  lemma VimeoPageText(t: string)
    ensures var s := "https://vimeo.com/" + t;
      && |s| == 18 + |t|
      && (forall j :: 18 <= j < |s| ==> s[j] == t[j - 18])
  {
  }

  /** Where the letters y, v, d and s sit in it. */
  lemma VimeoPageHeads(t: string, k: nat)
    requires k < 18
    ensures var c := ("https://vimeo.com/" + t)[k];
      && (c != 'y' && c != 'Y')
      && ((c == 'v' || c == 'V') <==> k == 8)
      && (c != 'd' && c != 'D')
      && ((c == 's' || c == 'S') <==> k == 4)
  {
  }

  /** The Google Drive preview template, up to the id. */
  lemma DrivePreviewText(t: string)
    ensures var s := "https://drive.google.com/file/d/" + t;
      && |s| == 32 + |t|
      && (forall j :: 32 <= j < |s| ==> s[j] == t[j - 32])
      && s[9] == 'r' && s[12] == 'e' && s[31] == '/'
  {
  }

  /** Where the letters y, v, d and s sit in it. */
  lemma DrivePreviewHeads(t: string, k: nat)
    requires k < 32
    ensures var c := ("https://drive.google.com/file/d/" + t)[k];
      && (c != 'y' && c != 'Y')
      && ((c == 'v' || c == 'V') <==> k == 11)
      && ((c == 'd' || c == 'D') <==> (k == 8 || k == 30))
      && ((c == 's' || c == 'S') <==> k == 4)
  {
  }

  /** The Streamable embed template. */
  lemma StreamableEmbedText(t: string)
    ensures var s := "https://streamable.com/e/" + t;
      && |s| == 25 + |t|
      && (forall j :: 25 <= j < |s| ==> s[j] == t[j - 25])
  {
  }

  /** Where the letters y, v, d and s sit in it. */
  lemma StreamableEmbedHeads(t: string, k: nat)
    requires k < 25
    ensures var c := ("https://streamable.com/e/" + t)[k];
      && (c != 'y' && c != 'Y')
      && (c != 'v' && c != 'V')
      && (c != 'd' && c != 'D')
      && ((c == 's' || c == 'S') <==> (k == 4 || k == 8))
  {
  }

  /** A short Dailymotion address. */
  lemma ShortDailymotionText(t: string)
    ensures var s := "https://dai.ly/" + t;
      && |s| == 15 + |t|
      && (forall j :: 15 <= j < |s| ==> s[j] == t[j - 15])
      && s[14] == '/'
  {
  }

  /** Where the letters y, v, d and s sit in it. */
  lemma ShortDailymotionHeads(t: string, k: nat)
    requires k < 15
    ensures var c := ("https://dai.ly/" + t)[k];
      && ((c == 'y' || c == 'Y') <==> k == 13)
      && (c != 'v' && c != 'V')
      && ((c == 'd' || c == 'D') <==> k == 8)
      && ((c == 's' || c == 'S') <==> k == 4)
  {
  }

  // ------------------------------------------------------------ page labels

  /** The public page labels hold no `admin`: two lack its first letter,
      and the third starts otherwise and leaves too little after. */
  lemma PublicPagesText()
    ensures 'a' !in "episodes" && 'a' !in "home"
    ensures "about"[1..] == "bout" && |"bout"| < |"admin"| && "about"[..5] != "admin"
  {
    assert "about"[..5][1] == 'b' && "admin"[1] == 'd';
  }
}

=== FILE: notifications.dfy ===
/**
 * The visitor notices of notifications.js: the greeting chosen from the
 * stored last-visit stamp, the check for episodes newer than the last
 * check, the wording of the new-episode notice, and when the permission
 * prompt is offered. Stamps are stored as decimal text.
 */
module Notifications {
  import opened Js
  import opened Episodes

  /** What a visit shows. */
  datatype Greeting = Welcome | WelcomeBack(days: int) | CheckContent

  /** `!lastVisit`: nothing stored, or the empty text. */
  predicate Absent(stored: Option<string>) {
    stored.None? || stored.value == ""
  }

  /** `Math.floor((now - parseInt(last)) / day)` for a stamp that parses;
      Dafny's division rounds down for a positive divisor, as `floor` does. */
  function DaysSince(last: int, now: int): (d: int)
    ensures d * DayMs <= now - last < (d + 1) * DayMs
  {
    (now - last) / DayMs
  }

  /** `initVisitorNotifications`: a first visit is welcomed, a visit more
      than seven whole days after the last is welcomed back, and any other
      (including one whose stamp does not parse, where the day count is
      NaN) checks for new content. The stamp becomes `now` either way. */
  function ClassifyVisitor(lastVisit: Option<string>, now: int): (r: (Greeting, string))
    ensures r.0 == Welcome <==> Absent(lastVisit)
    ensures r.0.WelcomeBack? <==>
      !Absent(lastVisit) && ParseInt(lastVisit.value).Int? && DaysSince(ParseInt(lastVisit.value).v, now) > 7
    ensures r.0.WelcomeBack? ==> r.0.days == DaysSince(ParseInt(lastVisit.value).v, now)
    ensures ParseInt(r.1) == Int(now)
  {
    ParseIntShowInt(now);
    var greeting :=
      if Absent(lastVisit) then Welcome
      else
        var last := ParseInt(lastVisit.value);
        if last.Int? && DaysSince(last.v, now) > 7 then WelcomeBack(DaysSince(last.v, now))
        else CheckContent;
    (greeting, ShowInt(now))
  }

  /** More than seven whole days have passed exactly when eight days of
      milliseconds have. */
  lemma WeekPassed(last: int, now: int)
    ensures DaysSince(last, now) > 7 <==> now - last >= 8 * DayMs
  {
    var d := DaysSince(last, now);
    if d > 7 {
      assert d * DayMs >= 8 * DayMs;
    } else {
      assert (d + 1) * DayMs <= 8 * DayMs;
    }
  }

  /** A visit after one at `now` is welcomed back exactly when eight or
      more days have passed, and checks for content otherwise. */
  lemma ReturnVisit(now: int, later: int)
    ensures var stamp := ClassifyVisitor(None, now).1;
      ClassifyVisitor(Some(stamp), later).0.WelcomeBack? <==> later - now >= 8 * DayMs
    ensures var stamp := ClassifyVisitor(None, now).1;
      later - now < 8 * DayMs ==> ClassifyVisitor(Some(stamp), later).0 == CheckContent
  {
    var stamp := ClassifyVisitor(None, now).1;
    assert ParseInt(stamp) == Int(now);
    assert stamp != "" by {
      assert ParseInt("") == NaN;
    }
    WeekPassed(now, later);
  }

  /** `ep => new Date(createdAt || subtitleDate).getTime() > parseInt(check)`:
      nothing is newer than a check stamp that does not parse. */
  predicate NewerThan(ep: Episode, check: Num) {
    check.Int? && Stamp(ep) > check.v
  }

  /** `checkForNewContent`: the episodes newer than the last check (`|| '0'`),
      each once and the first in stored order leading (the notice shows
      their count and the first title), whether the notice shows, and the
      new check stamp, written whether or not it shows. */
  function CheckForNewContent(eps: seq<Episode>, lastCheck: Option<string>, now: int)
    : (r: (seq<Episode>, bool, string))
    ensures var check := ParseInt(if Absent(lastCheck) then "0" else lastCheck.value);
      forall ep :: ep in r.0 <==> ep in eps && NewerThan(ep, check)
    ensures var check := ParseInt(if Absent(lastCheck) then "0" else lastCheck.value);
      |r.0| == Count(eps, ep => NewerThan(ep, check)) && multiset(r.0) <= multiset(eps)
    ensures var check := ParseInt(if Absent(lastCheck) then "0" else lastCheck.value);
      |r.0| > 0 ==>
        exists i :: 0 <= i < |eps| && eps[i] == r.0[0] && NewerThan(eps[i], check)
                    && forall k :: 0 <= k < i ==> !NewerThan(eps[k], check)
    ensures r.1 <==> |r.0| > 0
    ensures ParseInt(r.2) == Int(now)
  {
    ParseIntShowInt(now);
    var check := ParseInt(if Absent(lastCheck) then "0" else lastCheck.value);
    var newer := Filter(eps, ep => NewerThan(ep, check));
    FilterHead(eps, ep => NewerThan(ep, check));
    (newer, |newer| > 0, ShowInt(now))
  }

  /** With no earlier check every episode stamped after the epoch counts
      as new; after a check at `now`, only episodes stamped after `now` do. */
  lemma CheckForNewContentStamps(eps: seq<Episode>, now: int, later: int)
    ensures forall ep :: ep in CheckForNewContent(eps, None, now).0 <==> ep in eps && Stamp(ep) > 0
    ensures var stamp := CheckForNewContent(eps, None, now).2;
      forall ep :: ep in CheckForNewContent(eps, Some(stamp), later).0 <==> ep in eps && Stamp(ep) > now
  {
    ParseIntShowInt(0);
    assert ShowInt(0) == "0";
    var stamp := CheckForNewContent(eps, None, now).2;
    assert stamp != "" by {
      assert ParseInt("") == NaN;
    }
  }

  /** `showNewEpisodeNotification`: the headline and the line under it. */
  function NewEpisodeMessage(newer: seq<Episode>): (r: (string, string))
    requires |newer| > 0
    ensures |newer| == 1 ==> r == ("¡Nuevo episodio disponible! 🎬", newer[0].title)
    ensures |newer| != 1 ==>
      r == ("¡" + ShowInt(|newer|) + " nuevos episodios disponibles! 🎬✨", "Incluyendo: " + newer[0].title)
    ensures ParseInt(ShowInt(|newer|)) == Int(|newer|)
  {
    ParseIntShowInt(|newer|);
    var count := |newer|;
    if count == 1 then ("¡Nuevo episodio disponible! 🎬", newer[0].title)
    else ("¡" + ShowInt(count) + " nuevos episodios disponibles! 🎬✨", "Incluyendo: " + newer[0].title)
  }

  /** `askForNotificationPermission`: what it leaves in the asked flag. */
  function AskForPermission(): (flag: Option<string>)
    ensures !Absent(flag)
  {
    Some("true")
  }

  /** `setupNotificationPermissions`: the prompt is scheduled only when it
      was never asked, the browser has notifications, and the permission is
      still `default`. */
  function PromptScheduled(asked: Option<string>, supported: bool, permission: string): (r: bool)
    ensures r ==> Absent(asked) && supported
    ensures r <==> Absent(asked) && supported && permission == "default"
  {
    Absent(asked) && supported && permission == "default"
  }

  /** The prompt is offered at most once: a first visit with notifications
      supported and undecided schedules it, and once it has been asked no
      later visit does, whatever the browser reports. */
  lemma PromptAskedOnce(supported: bool, permission: string)
    ensures PromptScheduled(None, supported, permission) <==> supported && permission == "default"
    ensures !PromptScheduled(AskForPermission(), supported, permission)
  {
  }
}

=== FILE: patterns.dfy ===
/**
 * The URL regular expressions of the video resolvers, written out as the
 * matches a backtracking engine finds: start positions are tried from the
 * left, alternatives in the order written, and a greedy quantifier gives up
 * characters from the right. Every pattern carries the `i` flag without `u`,
 * under which only ASCII letters fold, so literals are compared with
 * `Lower`. A matcher tries one start position and answers the text of the
 * capture group the caller reads.
 */
module Patterns {
  import opened Js

  /** Where `String.prototype.match` found the pattern, and the capture. */
  datatype Match = Match(start: nat, capture: string)

  /** One regex tried at one start position. */
  type Matcher = (string, nat) -> Option<string>

  /** Alternation: the second alternative is tried only when the first fails. */
  function Or(a: Option<string>, b: Option<string>): (r: Option<string>)
    ensures r.Some? <==> a.Some? || b.Some?
    ensures a.Some? ==> r == a
    ensures a.None? ==> r == b
  {
    if a.Some? then a else b
  }

  /** Leftmost search: start positions `i`, `i + 1`, ..., `|s|` in turn. */
  function SearchFrom(s: string, i: nat, at: Matcher): (r: Option<Match>)
    requires i <= |s|
    ensures r.Some? ==> i <= r.value.start <= |s| && at(s, r.value.start) == Some(r.value.capture)
    ensures r.Some? ==> forall j :: i <= j < r.value.start ==> at(s, j).None?
    ensures r.None? ==> forall j :: i <= j <= |s| ==> at(s, j).None?
    decreases |s| - i
  {
    var here := at(s, i);
    if here.Some? then Some(Match(i, here.value))
    else if i == |s| then None
    else SearchFrom(s, i + 1, at)
  }

  /** `s.match(re)` for a regex without the `g` flag. */
  function Exec(s: string, at: Matcher): Option<Match> {
    SearchFrom(s, 0, at)
  }

  /** `re.test(s)` */
  predicate Test(s: string, at: Matcher) {
    Exec(s, at).Some?
  }

  /** The capture of `s.match(re)`, if any. */
  function Capture(s: string, at: Matcher): Option<string> {
    var m := Exec(s, at);
    if m.Some? then Some(m.value.capture) else None
  }

  /** Greedy backtracking over a split point: `hi - 1`, `hi - 2`, ..., `lo`;
      the largest split that lets the rest of the pattern match wins. */
  function Greatest(s: string, lo: nat, hi: nat, at: Matcher): (r: Option<Match>)
    ensures r.Some? ==> lo <= r.value.start < hi && at(s, r.value.start) == Some(r.value.capture)
    ensures r.Some? ==> forall j :: r.value.start < j < hi ==> at(s, j).None?
    ensures r.None? ==> forall j :: lo <= j < hi ==> at(s, j).None?
    decreases hi
  {
    if hi <= lo then None
    else
      var here := at(s, hi - 1);
      if here.Some? then Some(Match(hi - 1, here.value))
      else Greatest(s, lo, hi - 1, at)
  }

  function CaptureOf(m: Option<Match>): Option<string> {
    if m.Some? then Some(m.value.capture) else None
  }

  /** The search stops at the first position that matches. */
  lemma {:induction false} SearchFinds(s: string, i: nat, at: Matcher, m: nat)
    requires i <= m <= |s| && at(s, m).Some?
    requires forall j :: i <= j < m ==> at(s, j).None?
    ensures SearchFrom(s, i, at) == Some(Match(m, at(s, m).value))
    decreases m - i
  {
    if i < m {
      SearchFinds(s, i + 1, at, m);
    }
  }

  /** A pattern that matches nowhere makes `match` answer null. */
  lemma {:induction false} SearchFails(s: string, i: nat, at: Matcher)
    requires i <= |s|
    requires forall j :: i <= j <= |s| ==> at(s, j).None?
    ensures SearchFrom(s, i, at) == None
    decreases |s| - i
  {
    if i < |s| {
      SearchFails(s, i + 1, at);
    }
  }

  /** Backtracking stops at the largest split that works. */
  lemma {:induction false} GreatestFinds(s: string, lo: nat, hi: nat, at: Matcher, m: nat)
    requires lo <= m < hi && at(s, m).Some?
    requires forall j :: m < j < hi ==> at(s, j).None?
    ensures Greatest(s, lo, hi, at) == Some(Match(m, at(s, m).value))
    decreases hi
  {
    if m < hi - 1 {
      GreatestFinds(s, lo, hi - 1, at, m);
    }
  }

  /** When every match inside the prefix `p` would have to start at a
      character `c` that `p` does not contain, a match right after `p` is
      the leftmost one. */
  lemma CaptureAfter(s: string, p: string, at: Matcher, c: char, v: string)
    requires |p| <= |s| && s[..|p|] == p
    requires forall k :: 0 <= k < |p| ==> at(s, k).Some? ==> Lower(s[k]) == c
    requires forall x :: x in p ==> Lower(x) != c
    requires at(s, |p|) == Some(v)
    ensures Capture(s, at) == Some(v)
  {
    forall k | 0 <= k < |p| ensures at(s, k).None? {
      assert s[k] == p[k] && p[k] in p;
    }
    SearchFinds(s, 0, at, |p|);
  }

  // ------------------------------------------------------------ building blocks

  /** The literal `lit` (written in lower case) at `i`, ignoring ASCII case. */
  predicate LitAt(s: string, i: nat, lit: string) {
    i + |lit| <= |s| && forall k :: 0 <= k < |lit| ==> Lower(s[i + k]) == lit[k]
  }

  /** Each character of a literal match, one at a time. */
  lemma LitAtChar(s: string, i: nat, lit: string, k: nat)
    requires LitAt(s, i, lit) && k < |lit|
    ensures Lower(s[i + k]) == lit[k]
  {
  }

  /** One differing character rules a literal out. */
  lemma LitAtMismatch(s: string, i: nat, lit: string, k: nat)
    requires k < |lit| && i + k < |s| && Lower(s[i + k]) != lit[k]
    ensures !LitAt(s, i, lit)
  {
  }

  predicate NotSlash(c: char) { c != '/' }

  /** `.` without the `s` flag. */
  predicate NotLineTerminator(c: char) { !IsLineTerminator(c) }

  /** `[^\/\?&]` */
  predicate NotPathSeparator(c: char) { c != '/' && c != '?' && c != '&' }

  /** A non-empty greedy run of class `p` at `i`, captured: `([p]+)`. */
  function RunAt(s: string, i: nat, p: char -> bool): (r: Option<string>)
    ensures r.Some? ==> i + |r.value| <= |s| && r.value == s[i..i + |r.value|]
    ensures r.Some? ==> |r.value| > 0 && forall k :: 0 <= k < |r.value| ==> p(r.value[k])
    ensures r.Some? ==> i + |r.value| == |s| || !p(s[i + |r.value|])
    ensures r.None? <==> i >= |s| || !p(s[i])
  {
    if i <= |s| then
      var e := RunEnd(s, i, p);
      if e > i then Some(s[i..e]) else None
    else None
  }

  /** `lit([p]+)` at `i`. */
  function LitRunAt(s: string, i: nat, lit: string, p: char -> bool): (r: Option<string>)
    ensures r.Some? <==> LitAt(s, i, lit) && RunAt(s, i + |lit|, p).Some?
    ensures r.Some? ==> r == RunAt(s, i + |lit|, p)
  {
    if LitAt(s, i, lit) then RunAt(s, i + |lit|, p) else None
  }

  /** A literal-led match starts at the literal's first character. */
  lemma LitRunStartsAt(s: string, i: nat, lit: string, p: char -> bool)
    requires |lit| > 0
    ensures LitRunAt(s, i, lit, p).Some? ==> i < |s| && Lower(s[i]) == lit[0]
  {
    if LitAt(s, i, lit) {
      LitAtChar(s, i, lit, 0);
    }
  }

  /** `lit` followed by a run of class `p` that the next character (if any)
      stops: the match right after a prefix that lacks the literal's first
      letter captures exactly that run. */
  lemma LitRunShape(at: Matcher, p: string, lit: string, run: string, q: string, cls: char -> bool)
    requires forall t, i :: at(t, i) == LitRunAt(t, i, lit, cls)
    requires |lit| > 0 && forall x :: x in p ==> Lower(x) != lit[0]
    requires forall k :: 0 <= k < |lit| ==> Lower(lit[k]) == lit[k]
    requires |run| > 0 && forall k :: 0 <= k < |run| ==> cls(run[k])
    requires |q| == 0 || !cls(q[0])
    ensures Capture(p + lit + run + q, at) == Some(run)
  {
    var s := p + lit + run + q;
    var j := |p| + |lit|;
    assert LitAt(s, |p|, lit) by {
      forall k | 0 <= k < |lit| ensures Lower(s[|p| + k]) == lit[k] {
        assert s[|p| + k] == lit[k];
      }
    }
    forall k | j <= k < j + |run| ensures cls(s[k]) {
      assert s[k] == run[k - j];
    }
    if |q| > 0 {
      assert s[j + |run|] == q[0];
    }
    RunEndAt(s, j, j + |run|, cls);
    assert s[j..j + |run|] == run;
    forall k | 0 <= k < |p| ensures at(s, k).Some? ==> Lower(s[k]) == lit[0] {
      LitRunStartsAt(s, k, lit, cls);
    }
    assert s[..|p|] == p;
    CaptureAfter(s, p, at, lit[0], run);
  }

  // ------------------------------------------------------------ YouTube

  /** `[^"&?\/\s]`: a character allowed in a YouTube video id. */
  predicate IsIdChar(c: char) {
    c != '"' && c != '&' && c != '?' && c != '/' && !IsWhiteSpace(c)
  }

  /** Eleven id characters: what `([^"&?\/\s]{11})` captures. */
  predicate IsVideoId(id: string) {
    |id| == 11 && forall k :: 0 <= k < 11 ==> IsIdChar(id[k])
  }

  /** `([^"&?\/\s]{11})` at `i`. */
  function IdAt(s: string, i: nat): (r: Option<string>)
    ensures r.Some? ==> IsVideoId(r.value) && i + 11 <= |s| && r.value == s[i..i + 11]
  {
    if i + 11 <= |s| && IsVideoId(s[i..i + 11]) then Some(s[i..i + 11]) else None
  }

  /** `\/` then the id, at `m`. */
  function SlashThenId(s: string, m: nat): Option<string> {
    if m < |s| && s[m] == '/' then IdAt(s, m + 1) else None
  }

  /** `[?&]v=` then the id, at `p`. */
  function QueryThenId(s: string, p: nat): Option<string> {
    if p + 3 <= |s| && (s[p] == '?' || s[p] == '&') && Lower(s[p + 1]) == 'v' && s[p + 2] == '='
    then IdAt(s, p + 3)
    else None
  }

  /** `[^\/]+\/.+\/` then the id, at `j`. The non-slash run cannot give
      characters back (the next one must be a slash), so only `.+` is
      backtracked, from the last slash before the end of the line. */
  function PathThenIdAt(s: string, j: nat): Option<string>
    requires j <= |s|
  {
    var k := RunEnd(s, j, NotSlash);
    if k == j || k == |s| then None
    else CaptureOf(Greatest(s, k + 2, RunEnd(s, k + 1, NotLineTerminator), SlashThenId))
  }

  /** The YouTube pattern shared by every resolver:
      `(?:youtube\.com\/(?:[^\/]+\/.+\/|(?:v|e(?:mbed)?)\/|.*[?&]v=)|youtu\.be\/)([^"&?\/\s]{11})`. */
  function YouTubeAt(s: string, i: nat): (r: Option<string>)
    ensures r.Some? ==> IsVideoId(r.value)
    ensures r.Some? ==> LitAt(s, i, "youtube.com/") || LitAt(s, i, "youtu.be/")
  {
    Or(if LitAt(s, i, "youtube.com/") then
         var j := i + 12;
         Or(PathThenIdAt(s, j),
         Or(if LitAt(s, j, "v/") then IdAt(s, j + 2) else None,
         Or(if LitAt(s, j, "embed/") then IdAt(s, j + 6) else None,
         Or(if LitAt(s, j, "e/") then IdAt(s, j + 2) else None,
            CaptureOf(Greatest(s, j, RunEnd(s, j, NotLineTerminator), QueryThenId))))))
       else None,
       if LitAt(s, i, "youtu.be/") then IdAt(s, i + 9) else None)
  }

  /** Every YouTube match starts at a `y` or `Y`. */
  lemma YouTubeStartsAtY(s: string, i: nat)
    ensures YouTubeAt(s, i).Some? ==> i < |s| && Lower(s[i]) == 'y'
  {
    if LitAt(s, i, "youtube.com/") {
      LitAtChar(s, i, "youtube.com/", 0);
    }
    if LitAt(s, i, "youtu.be/") {
      LitAtChar(s, i, "youtu.be/", 0);
    }
  }

  /** The one YouTube match, at the end of a prefix without the letter y,
      is what `match` reports. */
  lemma YouTubeCaptureAfter(s: string, p: string, id: string)
    requires |p| <= |s| && s[..|p|] == p && 'y' !in p && 'Y' !in p
    requires YouTubeAt(s, |p|) == Some(id)
    ensures Capture(s, YouTubeAt) == Some(id)
  {
    forall k | 0 <= k < |p| ensures YouTubeAt(s, k).Some? ==> Lower(s[k]) == 'y' {
      YouTubeStartsAtY(s, k);
    }
    CaptureAfter(s, p, YouTubeAt, 'y', id);
  }

  /** The routes through the YouTube pattern, one lemma each: after
      `youtube.com/`, a path that does not match followed by `embed/`, ... */
  lemma YouTubeViaEmbed(s: string, i: nat)
    requires LitAt(s, i, "youtube.com/") && PathThenIdAt(s, i + 12).None?
    requires LitAt(s, i + 12, "embed/")
    requires IdAt(s, i + 18).Some?
    ensures YouTubeAt(s, i) == IdAt(s, i + 18)
  {
    LitAtChar(s, i + 12, "embed/", 0);
    LitAtMismatch(s, i + 12, "v/", 0);
  }

  /** ... or by `v/`, ... */
  lemma YouTubeViaV(s: string, i: nat)
    requires LitAt(s, i, "youtube.com/") && PathThenIdAt(s, i + 12).None?
    requires LitAt(s, i + 12, "v/")
    requires IdAt(s, i + 14).Some?
    ensures YouTubeAt(s, i) == IdAt(s, i + 14)
  {
  }

  /** ... or, when neither `v/` nor an `e` follows, by the query route. */
  lemma YouTubeViaQuery(s: string, i: nat)
    requires LitAt(s, i, "youtube.com/") && PathThenIdAt(s, i + 12).None?
    requires i + 12 < |s| && Lower(s[i + 12]) != 'v' && Lower(s[i + 12]) != 'e'
    ensures YouTubeAt(s, i)
            == CaptureOf(Greatest(s, i + 12, RunEnd(s, i + 12, NotLineTerminator), QueryThenId))
  {
    LitAtChar(s, i, "youtube.com/", 5);
    LitAtMismatch(s, i, "youtu.be/", 5);
    LitAtMismatch(s, i + 12, "v/", 0);
    LitAtMismatch(s, i + 12, "embed/", 0);
    LitAtMismatch(s, i + 12, "e/", 0);
  }

  /** ... and `youtu.be/` directly. */
  lemma YouTubeViaShort(s: string, i: nat)
    requires LitAt(s, i, "youtu.be/")
    ensures YouTubeAt(s, i) == IdAt(s, i + 9)
  {
    LitAtChar(s, i, "youtu.be/", 5);
    LitAtMismatch(s, i, "youtube.com/", 5);
  }

  /** `https://www.youtube.com/watch?v=ID` (any prefix without a y in place of
      the scheme and `www.`) yields ID. */
  lemma YouTubeWatchShape(p: string, id: string)
    requires 'y' !in p && 'Y' !in p && IsVideoId(id)
    ensures Capture(p + "youtube.com/watch?v=" + id, YouTubeAt) == Some(id)
  {
    var s := p + "youtube.com/watch?v=" + id;
    var j := |p| + 12;
    assert LitAt(s, |p|, "youtube.com/");
    assert s[j..] == "watch?v=" + id;
    WatchRouteFinds(s, j, id);
    YouTubeViaQuery(s, |p|);
    assert s[..|p|] == p;
    YouTubeCaptureAfter(s, p, id);
  }

  /** After `youtube.com/`, the text `watch?v=ID` leads the pattern down the
      query route to ID. */
  lemma WatchRouteFinds(s: string, j: nat, id: string)
    requires j <= |s| && s[j..] == "watch?v=" + id && IsVideoId(id)
    ensures PathThenIdAt(s, j).None? && j < |s| && s[j] == 'w'
    ensures CaptureOf(Greatest(s, j, RunEnd(s, j, NotLineTerminator), QueryThenId)) == Some(id)
  {
    assert s[j] == s[j..][0];
    WatchRunsToEnd(s, j, id);
    WatchQuery(s, j, id);
    WatchQueryIsLast(s, j, id);
    GreatestFinds(s, j, |s|, QueryThenId, j + 5);
  }

  lemma WatchRunsToEnd(s: string, j: nat, id: string)
    requires j <= |s| && s[j..] == "watch?v=" + id && IsVideoId(id)
    ensures RunEnd(s, j, NotSlash) == |s| && RunEnd(s, j, NotLineTerminator) == |s|
  {
    WithoutSlashRunsToEnd(s, j, "watch?v=", id);
  }

  lemma WatchQuery(s: string, j: nat, id: string)
    requires j <= |s| && s[j..] == "watch?v=" + id && IsVideoId(id)
    ensures QueryThenId(s, j + 5) == Some(id)
  {
    var t := s[j..];
    assert s[j + 5] == t[5] == '?';
    assert s[j + 6] == t[6] == 'v';
    assert s[j + 7] == t[7] == '=';
    assert s[j + 8..j + 19] == t[8..19] == id;
  }

  lemma WatchQueryIsLast(s: string, j: nat, id: string)
    requires j <= |s| && s[j..] == "watch?v=" + id && IsVideoId(id)
    ensures forall k :: j + 5 < k < |s| ==> QueryThenId(s, k).None?
  {
    forall k | j + 5 < k < |s| ensures s[k] != '?' && s[k] != '&' {
      assert s[k] == s[j..][k - j];
      if k < j + 8 {
        assert s[k] == "watch?v="[k - j];
      } else {
        assert s[k] == id[k - j - 8];
      }
    }
  }

  /** `https://youtu.be/ID` (any prefix without a y) yields ID. */
  lemma YouTubeShortShape(p: string, id: string)
    requires 'y' !in p && 'Y' !in p && IsVideoId(id)
    ensures Capture(p + "youtu.be/" + id, YouTubeAt) == Some(id)
  {
    var s := p + "youtu.be/" + id;
    assert LitAt(s, |p|, "youtu.be/");
    YouTubeViaShort(s, |p|);
    assert s[|p| + 9..|p| + 20] == id;
    assert s[..|p|] == p;
    YouTubeCaptureAfter(s, p, id);
  }

  /** After a path segment `seg/`, an id and a tail without slashes leave the
      `[^\/]+\/.+\/` route with nowhere to put its second slash. */
  lemma PathRouteFails(s: string, j: nat, seg: string, id: string, q: string)
    requires j <= |s| && s[j..] == seg + "/" + id + q
    requires |seg| > 0 && '/' !in seg && IsVideoId(id) && '/' !in q
    ensures PathThenIdAt(s, j).None?
  {
    var k := j + |seg|;
    forall m | j <= m < k ensures NotSlash(s[m]) {
      assert s[m] == s[j..][m - j] == seg[m - j];
    }
    assert s[k] == s[j..][|seg|] == '/';
    RunEndAt(s, j, k, NotSlash);
    forall m | k + 2 <= m < |s| ensures SlashThenId(s, m).None? {
      assert s[m] == s[j..][m - j];
      if m - j < |seg| + 1 + 11 {
        assert s[m] == id[m - j - |seg| - 1];
      } else {
        assert s[m] == q[m - j - |seg| - 12];
      }
    }
  }

  /** `https://www.youtube.com/embed/ID` followed by any text without a slash
      (any prefix without a y) yields ID. */
  lemma YouTubeEmbedShape(p: string, id: string, q: string)
    requires 'y' !in p && 'Y' !in p && IsVideoId(id) && '/' !in q
    ensures Capture(p + "youtube.com/embed/" + id + q, YouTubeAt) == Some(id)
  {
    var s := p + "youtube.com/embed/" + id + q;
    var j := |p| + 12;
    assert LitAt(s, |p|, "youtube.com/");
    assert LitAt(s, j, "embed/");
    PathRouteFails(s, j, "embed", id, q);
    assert s[j + 6..j + 17] == id;
    YouTubeViaEmbed(s, |p|);
    assert s[..|p|] == p;
    YouTubeCaptureAfter(s, p, id);
  }

  /** `https://www.youtube.com/v/ID` followed by any text without a slash
      (any prefix without a y) yields ID. */
  lemma YouTubeVShape(p: string, id: string, q: string)
    requires 'y' !in p && 'Y' !in p && IsVideoId(id) && '/' !in q
    ensures Capture(p + "youtube.com/v/" + id + q, YouTubeAt) == Some(id)
  {
    var s := p + "youtube.com/v/" + id + q;
    var j := |p| + 12;
    assert LitAt(s, |p|, "youtube.com/");
    assert LitAt(s, j, "v/");
    PathRouteFails(s, j, "v", id, q);
    assert s[j + 2..j + 13] == id;
    YouTubeViaV(s, |p|);
    assert s[..|p|] == p;
    YouTubeCaptureAfter(s, p, id);
  }

  /** Text with no slash and no line break, then a video id, runs unbroken
      to the end for both `[^\/]` and `.`. */
  lemma WithoutSlashRunsToEnd(s: string, j: nat, t: string, id: string)
    requires j <= |s| && s[j..] == t + id && IsVideoId(id)
    requires forall c :: c in t ==> c != '/' && !IsLineTerminator(c)
    ensures RunEnd(s, j, NotSlash) == |s| && RunEnd(s, j, NotLineTerminator) == |s|
  {
    forall k | j <= k < |s| ensures NotSlash(s[k]) && NotLineTerminator(s[k]) {
      assert s[k] == s[j..][k - j];
      if k - j < |t| {
        assert s[k] == t[k - j] && t[k - j] in t;
      } else {
        assert s[k] == id[k - j - |t|];
      }
    }
    RunEndAt(s, j, |s|, NotSlash);
    RunEndAt(s, j, |s|, NotLineTerminator);
  }

  // ------------------------------------------------------------ simple hosts

  /** `(?:vimeo\.com\/)([0-9]+)` */
  function VimeoAt(s: string, i: nat): (r: Option<string>)
    ensures r.Some? ==> |r.value| > 0 && AllDigits(r.value)
  {
    LitRunAt(s, i, "vimeo.com/", IsDigit)
  }

  /** `(?:dailymotion\.com\/video\/)([a-zA-Z0-9]+)` */
  function DailymotionVideoAt(s: string, i: nat): (r: Option<string>)
    ensures r.Some? ==> LitAt(s, i, "dailymotion.com/video/")
    ensures r.Some? ==> |r.value| > 0 && forall k :: 0 <= k < |r.value| ==> IsAlnum(r.value[k])
  {
    LitRunAt(s, i, "dailymotion.com/video/", IsAlnum)
  }

  /** `(?:drive\.google\.com\/file\/d\/)([^\/\?&]+)` */
  function DriveAt(s: string, i: nat): (r: Option<string>)
    ensures r.Some? ==> |r.value| > 0 && forall k :: 0 <= k < |r.value| ==> NotPathSeparator(r.value[k])
  {
    LitRunAt(s, i, "drive.google.com/file/d/", NotPathSeparator)
  }

  /** `(?:streamable\.com\/)([a-zA-Z0-9]+)` */
  function StreamableAt(s: string, i: nat): (r: Option<string>)
    ensures r.Some? ==> LitAt(s, i, "streamable.com/")
    ensures r.Some? ==> |r.value| > 0 && forall k :: 0 <= k < |r.value| ==> IsAlnum(r.value[k])
  {
    LitRunAt(s, i, "streamable.com/", IsAlnum)
  }

  // ------------------------------------------------------------ full patterns

  /** `(\d+)(?:$|\/|\?)` at `p`: digits that end the input or are followed by
      a slash or a question mark. */
  function TailIdAt(s: string, p: nat): (r: Option<string>)
    ensures r.Some? ==> |r.value| > 0 && AllDigits(r.value)
  {
    var d := RunAt(s, p, IsDigit);
    if d.Some? && (p + |d.value| == |s| || s[p + |d.value|] == '/' || s[p + |d.value|] == '?')
    then d else None
  }

  /** `channels\/(?:\w+\/)?` then the tail, at `j`. */
  function ChannelsAt(s: string, j: nat): Option<string> {
    if LitAt(s, j, "channels/") then
      var c := j + 9;
      var w := RunEnd(s, c, IsWordChar);
      Or(if w > c && w < |s| && s[w] == '/' then TailIdAt(s, w + 1) else None,
         TailIdAt(s, c))
    else None
  }

  /** `groups\/([^\/]*)\/videos\/` then the tail, at `j`. */
  function GroupsAt(s: string, j: nat): Option<string> {
    if LitAt(s, j, "groups/") then
      var w := RunEnd(s, j + 7, NotSlash);
      if LitAt(s, w, "/videos/") then TailIdAt(s, w + 8) else None
    else None
  }

  /** `album\/(\d+)\/video\/` then the tail, at `j`. */
  function AlbumAt(s: string, j: nat): Option<string> {
    if LitAt(s, j, "album/") then
      var w := RunEnd(s, j + 6, IsDigit);
      if w > j + 6 && LitAt(s, w, "/video/") then TailIdAt(s, w + 7) else None
    else None
  }

  /** The detailed Vimeo pattern, answering group 3:
      `(?:vimeo\.com\/(?:channels\/(?:\w+\/)?|groups\/([^\/]*)\/videos\/|album\/(\d+)\/video\/|video\/|)(\d+)(?:$|\/|\?))`. */
  function VimeoPathAt(s: string, i: nat): (r: Option<string>)
    ensures r.Some? ==> LitAt(s, i, "vimeo.com/") && |r.value| > 0 && AllDigits(r.value)
  {
    if LitAt(s, i, "vimeo.com/") then
      var j := i + 10;
      Or(ChannelsAt(s, j),
      Or(GroupsAt(s, j),
      Or(AlbumAt(s, j),
      Or(if LitAt(s, j, "video/") then TailIdAt(s, j + 6) else None,
         TailIdAt(s, j)))))
    else None
  }

  /** The part after `dailymotion\.com\/`:
      `(?:embed\/video\/|video\/|hub\/([^\/]*)\/video\/|)([a-zA-Z0-9]+)`. */
  function DailymotionRestAt(s: string, j: nat): Option<string> {
    Or(if LitAt(s, j, "embed/video/") then RunAt(s, j + 12, IsAlnum) else None,
    Or(if LitAt(s, j, "video/") then RunAt(s, j + 6, IsAlnum) else None,
    Or(HubAt(s, j),
       RunAt(s, j, IsAlnum))))
  }

  function HubAt(s: string, j: nat): Option<string> {
    if LitAt(s, j, "hub/") then
      var w := RunEnd(s, j + 4, NotSlash);
      if LitAt(s, w, "/video/") then RunAt(s, w + 7, IsAlnum) else None
    else None
  }

  /** The detailed Dailymotion pattern, answering group 2:
      `(?:dailymotion\.com\/(?:embed\/video\/|video\/|hub\/([^\/]*)\/video\/|))?([a-zA-Z0-9]+)(?:_[\w_-]+)?`.
      The whole host part is optional, so the engine falls back to a bare
      alphanumeric run; the trailing optional group never changes group 2. */
  function DailymotionAnyAt(s: string, i: nat): (r: Option<string>)
    ensures r.Some? <==> i < |s| && IsAlnum(s[i])
  {
    if LitAt(s, i, "dailymotion.com/") then
      LitAtChar(s, i, "dailymotion.com/", 0);
      Or(DailymotionRestAt(s, i + 16), RunAt(s, i, IsAlnum))
    else RunAt(s, i, IsAlnum)
  }

  /** The same pattern with the host part required, as evidently intended. */
  function DailymotionHostAt(s: string, i: nat): (r: Option<string>)
    ensures r.Some? ==> LitAt(s, i, "dailymotion.com/")
    ensures r.Some? ==> |r.value| > 0 && forall k :: 0 <= k < |r.value| ==> IsAlnum(r.value[k])
  {
    if LitAt(s, i, "dailymotion.com/") then DailymotionRestAt(s, i + 16) else None
  }

  /** `(?:https?:\/\/)?(?:www\.)?` before `core`, the optional parts tried
      greedily: with `s`, then without; with `www.`, then without. */
  function SchemeThen(s: string, i: nat, core: Matcher): Option<string> {
    Or(if LitAt(s, i, "https://www.") then core(s, i + 12) else None,
    Or(if LitAt(s, i, "https://") then core(s, i + 8) else None,
    Or(if LitAt(s, i, "http://www.") then core(s, i + 11) else None,
    Or(if LitAt(s, i, "http://") then core(s, i + 7) else None,
    Or(if LitAt(s, i, "www.") then core(s, i + 4) else None,
       core(s, i))))))
  }

  /** `(?:https?:\/\/)?(?:www\.)?drive\.google\.com\/file\/d\/([^\/\?&]+)` */
  function DriveFullAt(s: string, i: nat): Option<string> {
    SchemeThen(s, i, DriveAt)
  }

  /** `archive\.org\/(?:details|embed)\/([^\/\?&]+)` */
  function ArchiveAt(s: string, i: nat): (r: Option<string>)
    ensures r.Some? ==> LitAt(s, i, "archive.org/")
  {
    if LitAt(s, i, "archive.org/") then
      Or(LitRunAt(s, i + 12, "details/", NotPathSeparator),
         LitRunAt(s, i + 12, "embed/", NotPathSeparator))
    else None
  }

  /** `(?:https?:\/\/)?(?:www\.)?archive\.org\/(?:details|embed)\/([^\/\?&]+)` */
  function ArchiveFullAt(s: string, i: nat): Option<string> {
    SchemeThen(s, i, ArchiveAt)
  }

  // ------------------------------------------------------------ shapes

  /** No character of `p` folds to the lower-case letter `c`. */
  lemma NoFoldIn(p: string, c: char)
    requires 'a' <= c <= 'z' && c !in p && ((c as int - 32) as char) !in p
    ensures forall x :: x in p ==> Lower(x) != c
  {
  }

  /** `https://vimeo.com/DIGITS`, the digits ended by the input or by a
      non-digit, yields DIGITS (any prefix without a v). */
  lemma VimeoShape(p: string, digits: string, q: string)
    requires 'v' !in p && 'V' !in p && |digits| > 0 && AllDigits(digits)
    requires |q| == 0 || !IsDigit(q[0])
    ensures Capture(p + "vimeo.com/" + digits + q, VimeoAt) == Some(digits)
  {
    NoFoldIn(p, 'v');
    LitRunShape(VimeoAt, p, "vimeo.com/", digits, q, IsDigit);
  }

  /** `https://www.dailymotion.com/video/ID` yields ID (any prefix without
      a d). */
  lemma DailymotionVideoShape(p: string, id: string, q: string)
    requires 'd' !in p && 'D' !in p && |id| > 0 && forall k :: 0 <= k < |id| ==> IsAlnum(id[k])
    requires |q| == 0 || !IsAlnum(q[0])
    ensures Capture(p + "dailymotion.com/video/" + id + q, DailymotionVideoAt) == Some(id)
  {
    NoFoldIn(p, 'd');
    LitRunShape(DailymotionVideoAt, p, "dailymotion.com/video/", id, q, IsAlnum);
  }

  /** `https://drive.google.com/file/d/ID/view` yields ID (any prefix
      without a d). */
  lemma DriveShape(p: string, id: string, q: string)
    requires 'd' !in p && 'D' !in p && |id| > 0
    requires forall k :: 0 <= k < |id| ==> NotPathSeparator(id[k])
    requires |q| == 0 || !NotPathSeparator(q[0])
    ensures Capture(p + "drive.google.com/file/d/" + id + q, DriveAt) == Some(id)
  {
    NoFoldIn(p, 'd');
    LitRunShape(DriveAt, p, "drive.google.com/file/d/", id, q, NotPathSeparator);
  }

  /** `streamable.com/ID` yields ID (any prefix without an s). */
  lemma StreamableShape(p: string, id: string, q: string)
    requires 's' !in p && 'S' !in p && |id| > 0 && forall k :: 0 <= k < |id| ==> IsAlnum(id[k])
    requires |q| == 0 || !IsAlnum(q[0])
    ensures Capture(p + "streamable.com/" + id + q, StreamableAt) == Some(id)
  {
    NoFoldIn(p, 's');
    LitRunShape(StreamableAt, p, "streamable.com/", id, q, IsAlnum);
  }

  /** Streamable's own embed address `https://streamable.com/e/ID` reads as
      the id `e`: feeding an embed link back in does not give it back. */
  lemma StreamableEmbedReadsE(id: string)
    ensures Capture("https://streamable.com/e/" + id, StreamableAt) == Some("e")
  {
    var s := "https://streamable.com/e/" + id;
    assert s[..8] == "https://";
    assert s[8..25] == "streamable.com/e/";
    assert s[8] == 's';
    NoStreamableInScheme(s);
    StreamableAtE(s);
    SearchFinds(s, 0, StreamableAt, 8);
  }

  lemma StreamableAtE(s: string)
    requires |s| >= 25 && s[8..25] == "streamable.com/e/"
    ensures StreamableAt(s, 8) == Some("e")
  {
    assert LitAt(s, 8, "streamable.com/") by {
      forall k | 0 <= k < 15 ensures Lower(s[8 + k]) == "streamable.com/"[k] {
        assert s[8 + k] == s[8..25][k];
      }
    }
    assert s[23] == s[8..25][15] && s[24] == s[8..25][16];
    RunEndAt(s, 23, 24, IsAlnum);
    assert s[23..24] == "e";
  }

  lemma NoStreamableInScheme(s: string)
    requires |s| >= 9 && s[..8] == "https://" && s[8] == 's'
    ensures forall k :: 0 <= k < 8 ==> StreamableAt(s, k).None?
  {
    forall k | 0 <= k < 8 ensures StreamableAt(s, k).None? {
      LitRunStartsAt(s, k, "streamable.com/", IsAlnum);
      assert s[k] == "https://"[k];
      if k == 4 {
        assert s[5] == "https://"[5];
        LitAtMismatch(s, 4, "streamable.com/", 1);
      }
    }
  }

  /** The detailed Dailymotion pattern matches exactly the inputs that hold
      an ASCII letter or digit. */
  lemma DailymotionAnyMatchesAlnum(s: string)
    ensures Test(s, DailymotionAnyAt) <==> exists k :: 0 <= k < |s| && IsAlnum(s[k])
  {
    if Test(s, DailymotionAnyAt) {
      var m := Exec(s, DailymotionAnyAt).value;
      assert DailymotionAnyAt(s, m.start).Some?;
    }
    if exists k :: 0 <= k < |s| && IsAlnum(s[k]) {
      var k :| 0 <= k < |s| && IsAlnum(s[k]);
      assert DailymotionAnyAt(s, k).Some?;
    }
  }

  /** With the host part optional, a real address starting `https:` reads
      as the video id `https`. */
  lemma DailymotionAnyReadsScheme(rest: string)
    ensures Capture("https:" + rest, DailymotionAnyAt) == Some("https")
  {
    var s := "https:" + rest;
    LitAtMismatch(s, 0, "dailymotion.com/", 0);
    RunEndAt(s, 0, 5, IsAlnum);
    assert s[0..5] == "https";
    SearchFinds(s, 0, DailymotionAnyAt, 0);
  }

  /** With the host part required, `https://www.dailymotion.com/video/ID`
      yields ID (any prefix without a d). */
  lemma DailymotionHostShape(p: string, id: string, q: string)
    requires 'd' !in p && 'D' !in p && |id| > 0 && forall k :: 0 <= k < |id| ==> IsAlnum(id[k])
    requires |q| == 0 || !IsAlnum(q[0])
    ensures Capture(p + "dailymotion.com/video/" + id + q, DailymotionHostAt) == Some(id)
  {
    var s := p + "dailymotion.com/video/" + id + q;
    assert DailymotionHostAt(s, |p|) == Some(id) by {
      DailymotionHostAfter(p, id, q);
    }
    assert forall x :: x in p ==> Lower(x) != 'd' by {
      NoFoldIn(p, 'd');
    }
    assert forall k :: 0 <= k < |p| ==> DailymotionHostAt(s, k).Some? ==> Lower(s[k]) == 'd' by {
      DailymotionHostHeads(s, |p|);
    }
    assert s[..|p|] == p;
    CaptureAfter(s, p, DailymotionHostAt, 'd', id);
  }

  /** Right after the prefix the pattern reads `id` up to `q`. */
  lemma DailymotionHostAfter(p: string, id: string, q: string)
    requires |id| > 0 && forall k :: 0 <= k < |id| ==> IsAlnum(id[k])
    requires |q| == 0 || !IsAlnum(q[0])
    ensures DailymotionHostAt(p + "dailymotion.com/video/" + id + q, |p|) == Some(id)
  {
    var s := p + "dailymotion.com/video/" + id + q;
    var j := |p| + 16;
    assert LitAt(s, |p|, "dailymotion.com/");
    assert LitAt(s, j, "video/");
    LitAtMismatch(s, j, "embed/video/", 0);
    forall k | j + 6 <= k < j + 6 + |id| ensures IsAlnum(s[k]) {
      assert s[k] == id[k - j - 6];
    }
    if |q| > 0 {
      assert s[j + 6 + |id|] == q[0];
    }
    RunEndAt(s, j + 6, j + 6 + |id|, IsAlnum);
    assert s[j + 6..j + 6 + |id|] == id;
  }

  /** The Dailymotion address pattern only matches where a `d` stands. */
  lemma DailymotionHostHeads(s: string, n: nat)
    ensures forall k :: 0 <= k < n ==> DailymotionHostAt(s, k).Some? ==> Lower(s[k]) == 'd'
  {
    forall k | 0 <= k < n ensures DailymotionHostAt(s, k).Some? ==> Lower(s[k]) == 'd' {
      if LitAt(s, k, "dailymotion.com/") {
        LitAtChar(s, k, "dailymotion.com/", 0);
      }
    }
  }

  lemma VimeoPathShape(p: string, digits: string, q: string)
    requires 'v' !in p && 'V' !in p && |digits| > 0 && AllDigits(digits)
    requires |q| == 0 || q[0] == '/' || q[0] == '?'
    ensures Capture(p + "vimeo.com/" + digits + q, VimeoPathAt) == Some(digits)
  {
    var s := p + "vimeo.com/" + digits + q;
    assert VimeoPathAt(s, |p|) == Some(digits) by {
      VimeoPathAfter(p, digits, q);
    }
    assert forall x :: x in p ==> Lower(x) != 'v' by {
      NoFoldIn(p, 'v');
    }
    assert forall k :: 0 <= k < |p| ==> VimeoPathAt(s, k).Some? ==> Lower(s[k]) == 'v' by {
      VimeoPathHeadsBelow(s, |p|);
    }
    assert s[..|p|] == p;
    CaptureAfter(s, p, VimeoPathAt, 'v', digits);
  }

  /** Right after the prefix the pattern reads the digits up to `q`. */
  lemma VimeoPathAfter(p: string, digits: string, q: string)
    requires |digits| > 0 && AllDigits(digits)
    requires |q| == 0 || q[0] == '/' || q[0] == '?'
    ensures VimeoPathAt(p + "vimeo.com/" + digits + q, |p|) == Some(digits)
  {
    var s := p + "vimeo.com/" + digits + q;
    var j := |p| + 10;
    assert LitAt(s, |p|, "vimeo.com/");
    assert s[j] == digits[0];
    LitAtMismatch(s, j, "channels/", 0);
    LitAtMismatch(s, j, "groups/", 0);
    LitAtMismatch(s, j, "album/", 0);
    LitAtMismatch(s, j, "video/", 0);
    forall k | j <= k < j + |digits| ensures IsDigit(s[k]) {
      assert s[k] == digits[k - j];
    }
    if |q| > 0 {
      assert s[j + |digits|] == q[0];
    }
    RunEndAt(s, j, j + |digits|, IsDigit);
    assert s[j..j + |digits|] == digits;
  }

  /** The Vimeo path pattern only matches where a `v` stands. */
  lemma VimeoPathHeadsBelow(s: string, n: nat)
    ensures forall k :: 0 <= k < n ==> VimeoPathAt(s, k).Some? ==> Lower(s[k]) == 'v'
  {
    forall k | 0 <= k < n ensures VimeoPathAt(s, k).Some? ==> Lower(s[k]) == 'v' {
      if LitAt(s, k, "vimeo.com/") {
        LitAtChar(s, k, "vimeo.com/", 0);
      }
    }
  }

}

=== FILE: platforms.dfy ===
/**
 * The `VIDEO_PLATFORMS` table of episodes-manager.js and
 * `detectVideoPlatform`: the first platform whose detailed pattern
 * `test`s true wins. Unlike the other resolvers, this table makes the
 * whole `dailymotion.com/...` host part of the Dailymotion pattern
 * optional, so that pattern matches any input holding an ASCII letter or
 * digit and the two platforms after it are never reached.
 */
module Platforms {
  import opened Js
  import opened Patterns
  import opened Video
  import Literals

  datatype Platform = YouTube | Vimeo | Dailymotion | GoogleDrive | Archive

  /** Position in the table; `Object.entries` visits the entries in
      declaration order. */
  function Rank(p: Platform): nat {
    match p
    case YouTube => 0
    case Vimeo => 1
    case Dailymotion => 2
    case GoogleDrive => 3
    case Archive => 4
  }

  /** The pattern of each entry, as written (`fixed == false`) or with the
      Dailymotion host part required (`fixed == true`). */
  function PatternOf(p: Platform, fixed: bool): Matcher {
    match p
    case YouTube => YouTubeAt
    case Vimeo => VimeoPathAt
    case Dailymotion => if fixed then DailymotionHostAt else DailymotionAnyAt
    case GoogleDrive => DriveFullAt
    case Archive => ArchiveFullAt
  }

  /** `detectVideoPlatform`: the earliest entry whose pattern tests true. */
  function DetectWith(url: string, fixed: bool): (r: Option<Platform>)
    ensures r.Some? ==> Test(url, PatternOf(r.value, fixed))
    ensures r.Some? ==> forall q :: Rank(q) < Rank(r.value) ==> !Test(url, PatternOf(q, fixed))
    ensures r.None? <==> forall q :: !Test(url, PatternOf(q, fixed))
  {
    if Test(url, YouTubeAt) then Some(YouTube)
    else if Test(url, VimeoPathAt) then Some(Vimeo)
    else if Test(url, PatternOf(Dailymotion, fixed)) then Some(Dailymotion)
    else if Test(url, DriveFullAt) then Some(GoogleDrive)
    else if Test(url, ArchiveFullAt) then Some(Archive)
    else None
  }

  /** The table as written. */
  function Detect(url: string): Option<Platform> {
    DetectWith(url, false)
  }

  /** The table with the Dailymotion host part required. */
  function DetectFixed(url: string): Option<Platform> {
    DetectWith(url, true)
  }

  /** What an entry's `embedUrl` gives: the template of the entry around
      the pattern's capture, or nothing (`null`) when it does not match. */
  function PlatformEmbed(p: Platform, url: string, fixed: bool): (r: Option<string>)
    ensures r.Some? <==> Test(url, PatternOf(p, fixed))
  {
    var id := Capture(url, PatternOf(p, fixed));
    if id.None? then None
    else
      match p
      case YouTube => Some(YouTubeEmbed(id.value, "?enablejsapi=1"))
      case Vimeo => Some(VimeoPlayer(id.value))
      case Dailymotion => Some(DailymotionEmbed(id.value))
      case GoogleDrive => Some(DrivePreview(id.value))
      case Archive => Some(ArchiveEmbed(id.value))
  }

  /** What an entry's `thumbnailUrl` gives: only YouTube and Dailymotion
      have one. */
  function PlatformThumbnail(p: Platform, url: string, fixed: bool): (r: Option<string>)
    ensures r.Some? <==> (p == YouTube || p == Dailymotion) && Test(url, PatternOf(p, fixed))
  {
    var id := Capture(url, PatternOf(p, fixed));
    if id.None? then None
    else
      match p
      case YouTube => Some(YouTubeThumbnail(id.value))
      case Dailymotion => Some(DailymotionThumbnail(id.value))
      case _ => None
  }

  // ------------------------------------------------------------ where matches start

  /** Every match of `at` starts at an ASCII letter or digit. */
  predicate StartsAtAlnum(s: string, at: Matcher) {
    forall k :: 0 <= k <= |s| && at(s, k).Some? ==> k < |s| && IsAlnum(s[k])
  }

  lemma LetterIsAlnum(x: char, c: char)
    requires Lower(x) == c && 'a' <= c <= 'z'
    ensures IsAlnum(x)
  {
  }

  /** A literal match starts at the literal's first letter. */
  lemma LitStartsAtAlnum(s: string, k: nat, lit: string)
    requires LitAt(s, k, lit) && |lit| > 0 && 'a' <= lit[0] <= 'z'
    ensures k < |s| && IsAlnum(s[k])
  {
    LitAtChar(s, k, lit, 0);
    LetterIsAlnum(s[k], lit[0]);
  }

  lemma YouTubeStartsAtAlnum(s: string)
    ensures StartsAtAlnum(s, YouTubeAt)
  {
    forall k | 0 <= k <= |s| && YouTubeAt(s, k).Some? ensures k < |s| && IsAlnum(s[k]) {
      YouTubeStartsAtY(s, k);
      LetterIsAlnum(s[k], 'y');
    }
  }

  lemma VimeoPathStartsAtAlnum(s: string)
    ensures StartsAtAlnum(s, VimeoPathAt)
  {
    Literals.VimeoText();
    forall k | 0 <= k <= |s| && VimeoPathAt(s, k).Some? ensures k < |s| && IsAlnum(s[k]) {
      LitStartsAtAlnum(s, k, "vimeo.com/");
    }
  }

  /** An optional scheme in front of a core that starts at a letter or
      digit still starts at one: `h` of `http`, `w` of `www.`, or the core's
      own first character. */
  lemma SchemeStartsAtAlnum(s: string, core: Matcher)
    requires StartsAtAlnum(s, core)
    ensures forall k :: 0 <= k <= |s| && SchemeThen(s, k, core).Some? ==> k < |s| && IsAlnum(s[k])
  {
    Literals.SchemeText();
    forall k | 0 <= k <= |s| && SchemeThen(s, k, core).Some? ensures k < |s| && IsAlnum(s[k]) {
      if LitAt(s, k, "https://www.") {
        LitStartsAtAlnum(s, k, "https://www.");
      } else if LitAt(s, k, "https://") {
        LitStartsAtAlnum(s, k, "https://");
      } else if LitAt(s, k, "http://www.") {
        LitStartsAtAlnum(s, k, "http://www.");
      } else if LitAt(s, k, "http://") {
        LitStartsAtAlnum(s, k, "http://");
      } else if LitAt(s, k, "www.") {
        LitStartsAtAlnum(s, k, "www.");
      }
    }
  }

  lemma DriveFullStartsAtAlnum(s: string)
    ensures StartsAtAlnum(s, DriveFullAt)
  {
    Literals.DriveText();
    forall k | 0 <= k <= |s| && DriveAt(s, k).Some? ensures k < |s| && IsAlnum(s[k]) {
      LitStartsAtAlnum(s, k, "drive.google.com/file/d/");
    }
    SchemeStartsAtAlnum(s, DriveAt);
    forall k | 0 <= k <= |s| && DriveFullAt(s, k).Some? ensures k < |s| && IsAlnum(s[k]) {
      assert SchemeThen(s, k, DriveAt).Some?;
    }
  }

  lemma ArchiveFullStartsAtAlnum(s: string)
    ensures StartsAtAlnum(s, ArchiveFullAt)
  {
    Literals.SchemeText();
    forall k | 0 <= k <= |s| && ArchiveAt(s, k).Some? ensures k < |s| && IsAlnum(s[k]) {
      LitStartsAtAlnum(s, k, "archive.org/");
    }
    SchemeStartsAtAlnum(s, ArchiveAt);
    forall k | 0 <= k <= |s| && ArchiveFullAt(s, k).Some? ensures k < |s| && IsAlnum(s[k]) {
      assert SchemeThen(s, k, ArchiveAt).Some?;
    }
  }

  lemma DailymotionHostStartsAtAlnum(s: string)
    ensures StartsAtAlnum(s, DailymotionHostAt)
  {
    Literals.SchemeText();
    forall k | 0 <= k <= |s| && DailymotionHostAt(s, k).Some? ensures k < |s| && IsAlnum(s[k]) {
      LitStartsAtAlnum(s, k, "dailymotion.com/");
    }
  }

  /** A pattern that starts at a letter or digit finds nothing in text
      without one. */
  lemma NoAlnumNoMatch(s: string, at: Matcher)
    requires StartsAtAlnum(s, at)
    requires forall k :: 0 <= k < |s| ==> !IsAlnum(s[k])
    ensures !Test(s, at)
  {
    forall k | 0 <= k <= |s| ensures at(s, k).None? {
      if k < |s| {
        assert !IsAlnum(s[k]);
      }
    }
    SearchFails(s, 0, at);
  }

  // ------------------------------------------------------------ detection

  /** As written, some platform is detected exactly when the input holds
      an ASCII letter or digit. */
  lemma DetectIffAlnum(url: string)
    ensures Detect(url).Some? <==> exists k :: 0 <= k < |url| && IsAlnum(url[k])
  {
    DailymotionAnyMatchesAlnum(url);
    if forall k :: 0 <= k < |url| ==> !IsAlnum(url[k]) {
      YouTubeStartsAtAlnum(url);
      NoAlnumNoMatch(url, YouTubeAt);
      VimeoPathStartsAtAlnum(url);
      NoAlnumNoMatch(url, VimeoPathAt);
      DriveFullStartsAtAlnum(url);
      NoAlnumNoMatch(url, DriveFullAt);
      ArchiveFullStartsAtAlnum(url);
      NoAlnumNoMatch(url, ArchiveFullAt);
    }
  }

  /** As written, Google Drive and Archive.org are never detected: any
      input their patterns match holds a letter, which the Dailymotion
      entry before them already accepts. */
  lemma DetectNeverDriveOrArchive(url: string)
    ensures Detect(url) != Some(GoogleDrive) && Detect(url) != Some(Archive)
  {
    DailymotionAnyMatchesAlnum(url);
    if !Test(url, DailymotionAnyAt) {
      assert !Test(url, DriveFullAt) by {
        DriveFullStartsAtAlnum(url);
        NoAlnumNoMatch(url, DriveFullAt);
      }
      assert !Test(url, ArchiveFullAt) by {
        ArchiveFullStartsAtAlnum(url);
        NoAlnumNoMatch(url, ArchiveFullAt);
      }
    }
  }

  // ------------------------------------------------------------ a Google Drive address

  /** The address a user copies from Google Drive. */
  function DriveAddress(id: string): string {
    "https://drive.google.com/file/d/" + id
  }

  lemma VimeoPathHeads(s: string)
    ensures forall k :: 0 <= k <= |s| && VimeoPathAt(s, k).Some? ==>
      k < |s| && Lower(s[k]) == 'v' && HasAfter(s, k, '.') && HasAfter(s, k, '/')
  {
    Literals.VimeoText();
    forall k | 0 <= k <= |s| && VimeoPathAt(s, k).Some?
      ensures k < |s| && Lower(s[k]) == 'v' && HasAfter(s, k, '.') && HasAfter(s, k, '/')
    {
      LitAtChar(s, k, "vimeo.com/", 0);
      LitAtChar(s, k, "vimeo.com/", 5);
      LitAtChar(s, k, "vimeo.com/", 9);
      FoldsToSelf(s[k + 5], '.');
      FoldsToSelf(s[k + 9], '/');
    }
  }

  lemma DailymotionHostHeads(s: string)
    ensures forall k :: 0 <= k <= |s| && DailymotionHostAt(s, k).Some? ==>
      k < |s| && Lower(s[k]) == 'd' && HasAfter(s, k, '.') && HasAfter(s, k, '/')
  {
    Literals.SchemeText();
    forall k | 0 <= k <= |s| && DailymotionHostAt(s, k).Some?
      ensures k < |s| && Lower(s[k]) == 'd' && HasAfter(s, k, '.') && HasAfter(s, k, '/')
    {
      LitAtChar(s, k, "dailymotion.com/", 0);
      LitAtChar(s, k, "dailymotion.com/", 11);
      LitAtChar(s, k, "dailymotion.com/", 15);
      FoldsToSelf(s[k + 11], '.');
      FoldsToSelf(s[k + 15], '/');
    }
  }

  lemma DriveAddressTail(id: string)
    requires '.' !in id
    ensures forall j :: 32 <= j < |DriveAddress(id)| ==> DriveAddress(id)[j] != '.'
  {
    Literals.DrivePreviewText(id);
    TailLacks(DriveAddress(id), 32, id, '.');
  }

  lemma DriveAddressNoYouTube(id: string)
    requires '.' !in id
    ensures !Test(DriveAddress(id), YouTubeAt)
  {
    var s := DriveAddress(id);
    Literals.DrivePreviewText(id);
    DriveAddressTail(id);
    forall k | 0 <= k < 32 ensures Lower(s[k]) != 'y' {
      Literals.DrivePreviewHeads(id, k);
    }
    YouTubeHeads(s);
    NoMatchInTemplate(s, 32, YouTubeAt, 'y', '.');
  }

  lemma DriveAddressNoVimeo(id: string)
    requires '.' !in id
    ensures !Test(DriveAddress(id), VimeoPathAt)
  {
    var s := DriveAddress(id);
    Literals.DrivePreviewText(id);
    Literals.VimeoText();
    DriveAddressTail(id);
    assert VimeoPathAt(s, 11).None? by {
      LitAtMismatch(s, 11, "vimeo.com/", 1);
    }
    DriveAddressOneV(id);
    VimeoPathHeads(s);
    NoMatchInTemplate(s, 32, VimeoPathAt, 'v', '.');
  }

  /** Within the fixed head of a Drive address only the `v` of `preview`
      could start `vimeo.com/`. */
  lemma DriveAddressOneV(id: string)
    ensures var s := DriveAddress(id);
      |s| >= 32 && forall k :: 0 <= k < 32 && Lower(s[k]) == 'v' ==> k == 11
  {
    var s := DriveAddress(id);
    Literals.DrivePreviewText(id);
    forall k | 0 <= k < 32 && Lower(s[k]) == 'v' ensures k == 11 {
      Literals.DrivePreviewHeads(id, k);
    }
  }

  lemma DriveAddressNoDailymotionHost(id: string)
    requires '.' !in id
    ensures !Test(DriveAddress(id), DailymotionHostAt)
  {
    var s := DriveAddress(id);
    Literals.DrivePreviewText(id);
    Literals.SchemeText();
    DriveAddressTail(id);
    assert DailymotionHostAt(s, 8).None? by {
      LitAtMismatch(s, 8, "dailymotion.com/", 1);
    }
    assert DailymotionHostAt(s, 30).None? by {
      LitAtMismatch(s, 30, "dailymotion.com/", 1);
    }
    forall k | 0 <= k < 32 && Lower(s[k]) == 'd' ensures k == 8 || k == 30 {
      Literals.DrivePreviewHeads(id, k);
    }
    DailymotionHostHeads(s);
    NoMatchInTemplate(s, 32, DailymotionHostAt, 'd', '.');
  }

  /** A literal without upper-case letters that the text spells out
      matches. */
  lemma SpelledLitAt(s: string, i: nat, lit: string)
    requires i + |lit| <= |s| && s[i..i + |lit|] == lit
    requires forall k :: 0 <= k < |lit| ==> !('A' <= lit[k] <= 'Z')
    ensures LitAt(s, i, lit)
  {
    forall k | 0 <= k < |lit| ensures Lower(s[i + k]) == lit[k] {
      assert s[i + k] == s[i..i + |lit|][k];
    }
  }

  /** The id of a Drive address is one run of the id class. */
  lemma DriveAddressRun(id: string)
    requires |id| > 0 && forall k :: 0 <= k < |id| ==> NotPathSeparator(id[k])
    ensures RunAt(DriveAddress(id), 32, NotPathSeparator) == Some(id)
  {
    var s := DriveAddress(id);
    Literals.DrivePreviewText(id);
    forall j | 32 <= j < |s| ensures NotPathSeparator(s[j]) {
      assert s[j] == id[j - 32];
    }
    RunEndAt(s, 32, |s|, NotPathSeparator);
    assert s[32..|s|] == id;
  }

  /** The host part of the Drive pattern reads the id right after the
      scheme. */
  lemma DriveAddressHost(id: string)
    requires |id| > 0 && forall k :: 0 <= k < |id| ==> NotPathSeparator(id[k])
    ensures DriveAt(DriveAddress(id), 8) == Some(id)
  {
    var s := DriveAddress(id);
    Literals.DriveAddressText(id);
    Literals.DriveHostLower();
    SpelledLitAt(s, 8, "drive.google.com/file/d/");
    DriveAddressRun(id);
  }

  /** The Drive pattern matches the address at its first character and
      reads the whole id. */
  lemma DriveAddressFullMatch(id: string)
    requires |id| > 0 && forall k :: 0 <= k < |id| ==> NotPathSeparator(id[k])
    ensures DriveFullAt(DriveAddress(id), 0) == Some(id)
  {
    var s := DriveAddress(id);
    Literals.DriveAddressText(id);
    Literals.SchemeText();
    Literals.DrivePreviewHeads(id, 8);
    LitAtMismatch(s, 0, "https://www.", 8);
    SpelledLitAt(s, 0, "https://");
    DriveAddressHost(id);
  }

  /** As written, a Google Drive address is taken for Dailymotion, and its
      embed is that of the video `https`. */
  lemma DriveAddressMisread(id: string)
    requires '.' !in id
    ensures Detect(DriveAddress(id)) == Some(Dailymotion)
    ensures PlatformEmbed(Dailymotion, DriveAddress(id), false) == Some(DailymotionEmbed("https"))
  {
    DriveAddressNoYouTube(id);
    DriveAddressNoVimeo(id);
    Literals.DriveAddressScheme(id);
    DailymotionAnyReadsScheme("//drive.google.com/file/d/" + id);
  }

  /** With the Dailymotion host part required, a Google Drive address is
      detected as Google Drive and embedded as its preview. */
  lemma DriveAddressDetectedFixed(id: string)
    requires |id| > 0 && forall k :: 0 <= k < |id| ==> NotPathSeparator(id[k])
    requires '.' !in id
    ensures DetectFixed(DriveAddress(id)) == Some(GoogleDrive)
    ensures PlatformEmbed(GoogleDrive, DriveAddress(id), true) == Some(DrivePreview(id))
  {
    DriveAddressNoYouTube(id);
    DriveAddressNoVimeo(id);
    DriveAddressNoDailymotionHost(id);
    DriveAddressFullMatch(id);
    SearchFinds(DriveAddress(id), 0, DriveFullAt, 0);
  }

  // ------------------------------------------------------------ other addresses

  /** A watch address is detected as YouTube; this table's embed carries
      `?enablejsapi=1` only. */
  lemma WatchAddressDetected(id: string)
    requires IsVideoId(id)
    ensures var url := "https://www.youtube.com/watch?v=" + id;
      && Detect(url) == Some(YouTube) && DetectFixed(url) == Some(YouTube)
      && PlatformEmbed(YouTube, url, false) == Some(YouTubeEmbed(id, "?enablejsapi=1"))
      && PlatformThumbnail(YouTube, url, false) == Some(YouTubeThumbnail(id))
  {
    YouTubeWatchRead(id);
  }

  lemma DailymotionPageNoVimeoPath(id: string)
    requires forall k :: 0 <= k < |id| ==> IsAlnum(id[k])
    ensures !Test("https://www.dailymotion.com/video/" + id, VimeoPathAt)
  {
    var url := "https://www.dailymotion.com/video/" + id;
    Literals.DailymotionPageText(id);
    Literals.VimeoText();
    DailymotionPageTail(id);
    assert VimeoPathAt(url, 28).None? by {
      LitAtMismatch(url, 28, "vimeo.com/", 2);
    }
    forall k | 0 <= k < 34 && Lower(url[k]) == 'v' ensures k == 28 {
      Literals.DailymotionPageHeads(id, k);
    }
    VimeoPathHeads(url);
    NoMatchInTemplate(url, 34, VimeoPathAt, 'v', '/');
  }

  /** As written, even a Dailymotion video page is read as the video
      `https`. */
  lemma DailymotionPageMisread(id: string)
    requires |id| > 0 && forall k :: 0 <= k < |id| ==> IsAlnum(id[k])
    ensures Detect("https://www.dailymotion.com/video/" + id) == Some(Dailymotion)
    ensures PlatformEmbed(Dailymotion, "https://www.dailymotion.com/video/" + id, false)
      == Some(DailymotionEmbed("https"))
  {
    DailymotionPageNoYouTube(id);
    DailymotionPageNoVimeoPath(id);
    Literals.DailymotionPageScheme(id);
    DailymotionAnyReadsScheme("//www.dailymotion.com/video/" + id);
  }

  /** With the host part required, a Dailymotion video page is read as its
      own id. */
  lemma DailymotionPageDetectedFixed(id: string)
    requires |id| > 0 && forall k :: 0 <= k < |id| ==> IsAlnum(id[k])
    ensures DetectFixed("https://www.dailymotion.com/video/" + id) == Some(Dailymotion)
    ensures PlatformEmbed(Dailymotion, "https://www.dailymotion.com/video/" + id, true)
      == Some(DailymotionEmbed(id))
    ensures PlatformThumbnail(Dailymotion, "https://www.dailymotion.com/video/" + id, true)
      == Some(DailymotionThumbnail(id))
  {
    DailymotionPageNoYouTube(id);
    DailymotionPageNoVimeoPath(id);
    Literals.SchemeLetters();
    Literals.DailymotionJoin(id);
    DailymotionHostShape("https://www.", id, "");
  }
}

=== FILE: resolvers.dfy ===
/**
 * The `processVideoUrl` / `generateThumbnail` variants of the scripts,
 * each a first-match-wins chain over the patterns of module Video, and
 * what they do to the addresses they produce.
 */
module Resolvers {
  import opened Js
  import opened Patterns
  import opened Video
  import Literals

  // ------------------------------------------------------------ data-manager.js

  /** YouTube, Vimeo, Dailymotion, Google Drive, Streamable, in that order;
      an input none of them reads passes through. */
  function FiveHostEmbed(url: string): (r: string)
    ensures YouTubeId(url).Some? ==> r == YouTubeEmbed(YouTubeId(url).value, PlayerQuery)
    ensures YouTubeId(url).None? && VimeoId(url).Some? ==> r == VimeoPlayer(VimeoId(url).value)
    ensures YouTubeId(url).None? && VimeoId(url).None? && DailymotionId(url).Some? ==>
      r == DailymotionEmbed(DailymotionId(url).value)
    ensures YouTubeId(url).None? && VimeoId(url).None? && DailymotionId(url).None? && DriveId(url).Some? ==>
      r == DrivePreview(DriveId(url).value)
    ensures (YouTubeId(url).None? && VimeoId(url).None? && DailymotionId(url).None? && DriveId(url).None?
             && StreamableId(url).Some?) ==> r == StreamableEmbed(StreamableId(url).value)
    ensures (YouTubeId(url).None? && VimeoId(url).None? && DailymotionId(url).None? && DriveId(url).None?
             && StreamableId(url).None?) ==> r == url
  {
    match YouTubeId(url)
    case Some(id) => YouTubeEmbed(id, PlayerQuery)
    case None =>
      match VimeoId(url)
      case Some(id) => VimeoPlayer(id)
      case None =>
        match DailymotionId(url)
        case Some(id) => DailymotionEmbed(id)
        case None =>
          match DriveId(url)
          case Some(id) => DrivePreview(id)
          case None =>
            match StreamableId(url)
            case Some(id) => StreamableEmbed(id)
            case None => url
  }

  /** YouTube thumbnail, else Dailymotion thumbnail, else the placeholder. */
  function ThumbnailOrPlaceholder(url: string): (r: string)
    ensures YouTubeId(url).Some? ==> r == YouTubeThumbnail(YouTubeId(url).value)
    ensures YouTubeId(url).None? && DailymotionId(url).Some? ==> r == DailymotionThumbnail(DailymotionId(url).value)
    ensures YouTubeId(url).None? && DailymotionId(url).None? ==> r == ThumbnailPlaceholder
  {
    match YouTubeId(url)
    case Some(id) => YouTubeThumbnail(id)
    case None =>
      match DailymotionId(url)
      case Some(id) => DailymotionThumbnail(id)
      case None => ThumbnailPlaceholder
  }

  // ------------------------------------------------------------ episodes-admin.js, admin-system.js, admin-system-complete.js

  /** YouTube, Vimeo, Dailymotion, in that order; anything else passes
      through. */
  function ThreeHostEmbed(url: string): (r: string)
    ensures YouTubeId(url).Some? ==> r == YouTubeEmbed(YouTubeId(url).value, PlayerQuery)
    ensures YouTubeId(url).None? && VimeoId(url).Some? ==> r == VimeoPlayer(VimeoId(url).value)
    ensures YouTubeId(url).None? && VimeoId(url).None? && DailymotionId(url).Some? ==>
      r == DailymotionEmbed(DailymotionId(url).value)
    ensures YouTubeId(url).None? && VimeoId(url).None? && DailymotionId(url).None? ==> r == url
  {
    match YouTubeId(url)
    case Some(id) => YouTubeEmbed(id, PlayerQuery)
    case None =>
      match VimeoId(url)
      case Some(id) => VimeoPlayer(id)
      case None =>
        match DailymotionId(url)
        case Some(id) => DailymotionEmbed(id)
        case None => url
  }

  /** episodes-admin.js: YouTube thumbnail, else Dailymotion thumbnail,
      else none (`null`). */
  function TwoHostThumbnail(url: string): (r: Option<string>)
    ensures YouTubeId(url).Some? ==> r == Some(YouTubeThumbnail(YouTubeId(url).value))
    ensures YouTubeId(url).None? && DailymotionId(url).Some? ==>
      r == Some(DailymotionThumbnail(DailymotionId(url).value))
    ensures r.None? <==> YouTubeId(url).None? && DailymotionId(url).None?
  {
    match YouTubeId(url)
    case Some(id) => Some(YouTubeThumbnail(id))
    case None =>
      match DailymotionId(url)
      case Some(id) => Some(DailymotionThumbnail(id))
      case None => None
  }

  /** admin-system.js and admin-system-complete.js: a thumbnail for YouTube
      only. */
  function YouTubeOnlyThumbnail(url: string): (r: Option<string>)
    ensures r.Some? <==> YouTubeId(url).Some?
    ensures r.Some? ==> r.value == YouTubeThumbnail(YouTubeId(url).value)
  {
    match YouTubeId(url)
    case Some(id) => Some(YouTubeThumbnail(id))
    case None => None
  }

  // ------------------------------------------------------------ admin-simple.js, admin-simple-fixed.js

  /** `url.split('/').pop()` after `url.includes('dai.ly')`: the embed of
      the text after the last slash, or of the whole input without one. */
  function ShortHostEmbed(url: string): (r: string)
    ensures exists k :: 0 <= k <= |url| && (k == 0 || url[k - 1] == '/')
                        && '/' !in url[k..] && r == DailymotionEmbed(url[k..])
  {
    LastSegmentIsTail(url);
    DailymotionEmbed(LastSegment(url))
  }

  /** admin-simple.js: YouTube with a bare embed, then any input holding
      `dai.ly`, then Dailymotion; no Vimeo rule. */
  function BareEmbed(url: string): (r: string)
    ensures YouTubeId(url).Some? ==> r == YouTubeEmbed(YouTubeId(url).value, "")
    ensures YouTubeId(url).None? && Contains(url, "dai.ly") ==> r == ShortHostEmbed(url)
    ensures YouTubeId(url).None? && !Contains(url, "dai.ly") && DailymotionId(url).Some? ==>
      r == DailymotionEmbed(DailymotionId(url).value)
    ensures YouTubeId(url).None? && !Contains(url, "dai.ly") && DailymotionId(url).None? ==> r == url
  {
    match YouTubeId(url)
    case Some(id) => YouTubeEmbed(id, "")
    case None =>
      if Contains(url, "dai.ly") then ShortHostEmbed(url)
      else
        match DailymotionId(url)
        case Some(id) => DailymotionEmbed(id)
        case None => url
  }

  /** admin-simple-fixed.js: YouTube, then `dai.ly`, then Dailymotion, then
      Vimeo. */
  function ShortFirstEmbed(url: string): (r: string)
    ensures YouTubeId(url).Some? ==> r == YouTubeEmbed(YouTubeId(url).value, PlayerQuery)
    ensures YouTubeId(url).None? && Contains(url, "dai.ly") ==> r == ShortHostEmbed(url)
    ensures YouTubeId(url).None? && !Contains(url, "dai.ly") && DailymotionId(url).Some? ==>
      r == DailymotionEmbed(DailymotionId(url).value)
    ensures YouTubeId(url).None? && !Contains(url, "dai.ly") && DailymotionId(url).None? && VimeoId(url).Some? ==>
      r == VimeoPlayer(VimeoId(url).value)
    ensures YouTubeId(url).None? && !Contains(url, "dai.ly") && DailymotionId(url).None? && VimeoId(url).None? ==>
      r == url
  {
    match YouTubeId(url)
    case Some(id) => YouTubeEmbed(id, PlayerQuery)
    case None =>
      if Contains(url, "dai.ly") then ShortHostEmbed(url)
      else
        match DailymotionId(url)
        case Some(id) => DailymotionEmbed(id)
        case None =>
          match VimeoId(url)
          case Some(id) => VimeoPlayer(id)
          case None => url
  }

  /** Both simple scripts: YouTube thumbnail, else the Dailymotion
      placeholder for input holding `dai.ly` or `dailymotion` (exact case),
      else none. */
  function ShortAwareThumbnail(url: string): (r: Option<string>)
    ensures YouTubeId(url).Some? ==> r == Some(YouTubeThumbnail(YouTubeId(url).value))
    ensures YouTubeId(url).None? ==>
      (r == Some(DailymotionPlaceholder) <==> Contains(url, "dai.ly") || Contains(url, "dailymotion"))
    ensures r.None? <==> YouTubeId(url).None? && !Contains(url, "dai.ly") && !Contains(url, "dailymotion")
  {
    match YouTubeId(url)
    case Some(id) => Some(YouTubeThumbnail(id))
    case None =>
      if Contains(url, "dai.ly") || Contains(url, "dailymotion") then Some(DailymotionPlaceholder)
      else None
  }

  // ------------------------------------------------------------ fixed points

  lemma PlayerQueryHasNoSlash()
    ensures '/' !in PlayerQuery && '/' !in ""
  {
    Literals.QueryText();
  }

  /** Resolving a resolved address changes nothing, except for the two
      cases below: a Streamable embed address reads back as the id `e`
      (StreamableEmbedNotFixed), and a Drive id holding a dot is not
      covered. */
  lemma FiveHostIdempotent(url: string)
    requires StreamableRuleUnused(url)
    requires YouTubeId(url).None? && VimeoId(url).None? && DailymotionId(url).None? && DriveId(url).Some? ==>
      '.' !in DriveId(url).value
    ensures FiveHostEmbed(FiveHostEmbed(url)) == FiveHostEmbed(url)
  {
    PlayerQueryHasNoSlash();
    if YouTubeId(url).Some? {
      YouTubeEmbedRead(YouTubeId(url).value, PlayerQuery);
    } else if VimeoId(url).Some? {
      VimeoPlayerInert(VimeoId(url).value);
    } else if DailymotionId(url).Some? {
      AlnumLacks(DailymotionId(url).value);
      DailymotionEmbedInert(DailymotionId(url).value);
    } else if DriveId(url).Some? {
      DrivePreviewRead(DriveId(url).value);
    }
  }

  /** The Streamable rule is not the one that fires. */
  predicate StreamableRuleUnused(url: string) {
    YouTubeId(url).Some? || VimeoId(url).Some? || DailymotionId(url).Some? || DriveId(url).Some?
    || StreamableId(url).None?
  }

  /** Feeding a Streamable result back in yields the embed of the id `e`,
      which differs from the first result unless the id was `e`. */
  lemma StreamableEmbedNotFixed(url: string)
    requires !StreamableRuleUnused(url)
    ensures FiveHostEmbed(FiveHostEmbed(url)) == StreamableEmbed("e")
    ensures FiveHostEmbed(FiveHostEmbed(url)) == FiveHostEmbed(url) <==> StreamableId(url) == Some("e")
  {
    var id := StreamableId(url).value;
    StreamableEmbedRead(id);
    Literals.StreamableEmbedText(id);
    Literals.StreamableEmbedText("e");
    if StreamableEmbed("e") == StreamableEmbed(id) {
      assert id == StreamableEmbed(id)[25..];
    }
  }

  lemma ThreeHostIdempotent(url: string)
    ensures ThreeHostEmbed(ThreeHostEmbed(url)) == ThreeHostEmbed(url)
  {
    PlayerQueryHasNoSlash();
    if YouTubeId(url).Some? {
      YouTubeEmbedRead(YouTubeId(url).value, PlayerQuery);
    } else if VimeoId(url).Some? {
      VimeoPlayerInert(VimeoId(url).value);
    } else if DailymotionId(url).Some? {
      AlnumLacks(DailymotionId(url).value);
      DailymotionEmbedInert(DailymotionId(url).value);
    }
  }

  /** A Dailymotion embed address of a slash-free segment is a fixed point
      of both simple resolvers: it either holds `dai.ly`, whose last
      segment rebuilds it, or it holds no pattern at all. */
  lemma EmbedFixedUnderShortRules(seg: string)
    requires '/' !in seg
    ensures BareEmbed(DailymotionEmbed(seg)) == DailymotionEmbed(seg)
    ensures ShortFirstEmbed(DailymotionEmbed(seg)) == DailymotionEmbed(seg)
  {
    DailymotionEmbedInert(seg);
  }

  lemma BareIdempotent(url: string)
    ensures BareEmbed(BareEmbed(url)) == BareEmbed(url)
  {
    PlayerQueryHasNoSlash();
    if YouTubeId(url).Some? {
      YouTubeEmbedRead(YouTubeId(url).value, "");
    } else if Contains(url, "dai.ly") {
      EmbedFixedUnderShortRules(LastSegment(url));
    } else if DailymotionId(url).Some? {
      AlnumLacks(DailymotionId(url).value);
      EmbedFixedUnderShortRules(DailymotionId(url).value);
    }
  }

  lemma ShortFirstIdempotent(url: string)
    ensures ShortFirstEmbed(ShortFirstEmbed(url)) == ShortFirstEmbed(url)
  {
    PlayerQueryHasNoSlash();
    if YouTubeId(url).Some? {
      YouTubeEmbedRead(YouTubeId(url).value, PlayerQuery);
    } else if Contains(url, "dai.ly") {
      EmbedFixedUnderShortRules(LastSegment(url));
    } else if DailymotionId(url).Some? {
      AlnumLacks(DailymotionId(url).value);
      EmbedFixedUnderShortRules(DailymotionId(url).value);
    } else if VimeoId(url).Some? {
      VimeoPlayerInert(VimeoId(url).value);
    }
  }

  /** Input without a dot passes every resolver unchanged and gets the
      fallback thumbnail. */
  lemma DotlessPassesThrough(url: string)
    requires '.' !in url
    ensures FiveHostEmbed(url) == url && ThreeHostEmbed(url) == url
    ensures BareEmbed(url) == url && ShortFirstEmbed(url) == url
    ensures ThumbnailOrPlaceholder(url) == ThumbnailPlaceholder
    ensures TwoHostThumbnail(url).None? && YouTubeOnlyThumbnail(url).None?
  {
    DotlessHasNoVideo(url);
  }

  // ------------------------------------------------------------ addresses as users paste them

  /** A watch address resolves to the embed of its id under every resolver. */
  lemma WatchAddressResolves(id: string)
    requires IsVideoId(id)
    ensures var url := "https://www.youtube.com/watch?v=" + id;
      && FiveHostEmbed(url) == YouTubeEmbed(id, PlayerQuery)
      && ThreeHostEmbed(url) == YouTubeEmbed(id, PlayerQuery)
      && BareEmbed(url) == YouTubeEmbed(id, "")
      && ShortFirstEmbed(url) == YouTubeEmbed(id, PlayerQuery)
      && ThumbnailOrPlaceholder(url) == YouTubeThumbnail(id)
  {
    YouTubeWatchRead(id);
  }

  /** A Vimeo page resolves to its player, except under admin-simple.js,
      which has no Vimeo rule and passes it through. */
  lemma VimeoAddressResolves(digits: string)
    requires |digits| > 0 && AllDigits(digits)
    ensures var url := "https://vimeo.com/" + digits;
      && FiveHostEmbed(url) == VimeoPlayer(digits)
      && ThreeHostEmbed(url) == VimeoPlayer(digits)
      && ShortFirstEmbed(url) == VimeoPlayer(digits)
      && BareEmbed(url) == url
  {
    VimeoPageRead(digits);
  }

  /** A Dailymotion video page resolves to its embed under every resolver. */
  lemma DailymotionAddressResolves(id: string)
    requires |id| > 0 && forall k :: 0 <= k < |id| ==> IsAlnum(id[k])
    ensures var url := "https://www.dailymotion.com/video/" + id;
      && FiveHostEmbed(url) == DailymotionEmbed(id)
      && ThreeHostEmbed(url) == DailymotionEmbed(id)
      && BareEmbed(url) == DailymotionEmbed(id)
      && ShortFirstEmbed(url) == DailymotionEmbed(id)
      && ThumbnailOrPlaceholder(url) == DailymotionThumbnail(id)
  {
    DailymotionPageRead(id);
  }

  /** A short Dailymotion address resolves, under both simple resolvers, to
      the embed of its last segment, and gets the Dailymotion placeholder. */
  lemma ShortAddressResolves(seg: string)
    requires '/' !in seg
    ensures var url := "https://dai.ly/" + seg;
      && BareEmbed(url) == DailymotionEmbed(seg)
      && ShortFirstEmbed(url) == DailymotionEmbed(seg)
      && ShortAwareThumbnail(url) == Some(DailymotionPlaceholder)
  {
    ShortDailymotionRead(seg);
  }
}

=== FILE: sessions.dfy ===
/**
 * The admin session gate shared by the site and the admin pages: one
 * pair of fixed credentials, a session record holding a username and an
 * expiry stamp (milliseconds), and the checks each page makes of it.
 * The stored token is base64 of JSON in the program; here it is either
 * absent, text that does not decode, or a decoded record.
 */
module Sessions {
  import opened Js

  const AdminUsername := "XMyUsername"
  const AdminPassword := "admin123"

  const MonthMs := 30 * DayMs

  /** A decoded token. A field missing from the JSON is None. */
  datatype Session = Session(username: Option<string>, loginTime: int, expiry: Option<int>)

  /** What sits under a session key. */
  datatype Stored = Missing | Garbled | Decoded(session: Session)

  /** `session.expiry > Date.now()`: a missing expiry compares false. */
  predicate Unexpired(s: Session, now: int) {
    s.expiry.Some? && s.expiry.value > now
  }

  /** The answer of a check and what is left under the key afterwards. */
  datatype Check = Check(valid: bool, store: Stored)

  /** `checkAuth` of admin-system.js and admin-system-complete.js and
      `checkAdminSession` of main.js: valid exactly when the token decodes
      and has not expired; a token that does not decode is removed, and
      an expired one is left in place. */
  function CheckAuth(st: Stored, now: int): (r: Check)
    ensures r.valid <==> st.Decoded? && Unexpired(st.session, now)
    ensures r.store != st <==> st.Garbled?
    ensures r.store.Garbled? == false
    ensures r.store.Decoded? ==> r.store == st
  {
    match st
    case Missing => Check(false, Missing)
    case Garbled => Check(false, Missing)
    case Decoded(s) => Check(s.expiry.Some? && s.expiry.value > now, st)
  }

  /** The session check of `initializeAdmin` in admin-simple-fixed.js:
      it rejects on `expiry <= now`, so a token without an expiry passes,
      and it removes every token it rejects, expired ones included. */
  function InitializeAdmin(st: Stored, now: int): (r: Check)
    ensures r.valid <==> st.Decoded? && !(st.session.expiry.Some? && st.session.expiry.value <= now)
    ensures r.valid ==> r.store == st
    ensures !r.valid ==> r.store.Missing?
  {
    match st
    case Missing => Check(false, Missing)
    case Garbled => Check(false, Missing)
    case Decoded(s) =>
      if s.expiry.Some? && s.expiry.value <= now then Check(false, Missing) else Check(true, st)
  }

  /** The two checks agree on every token that carries an expiry; a token
      without one passes only `initializeAdmin`. */
  lemma InitializeAdminAgrees(st: Stored, now: int)
    ensures st.Decoded? && st.session.expiry.Some? ==> (InitializeAdmin(st, now).valid <==> CheckAuth(st, now).valid)
    ensures st.Decoded? && st.session.expiry.None? ==> InitializeAdmin(st, now).valid && !CheckAuth(st, now).valid
  {
  }

  /** The site's login dialogs of main.js, main-fixed.js and script.js:
      only the fixed pair is accepted, and the new token lives one day. */
  function SiteLogin(user: string, pass: string, now: int): (r: Option<Session>)
    ensures r.Some? <==> user == AdminUsername && pass == AdminPassword
    ensures r.Some? ==> (r.value.username == Some(user) && r.value.loginTime == now
      && r.value.expiry == Some(now + 86_400_000))
  {
    if user == AdminUsername && pass == AdminPassword then Some(Session(Some(user), now, Some(now + DayMs)))
    else None
  }

  /** A fresh site login is accepted by `checkAuth` until one day has
      passed, and refused from then on. */
  lemma SiteLoginLasts(now: int, t: int)
    ensures var s := SiteLogin(AdminUsername, AdminPassword, now);
      s.Some? && (CheckAuth(Decoded(s.value), t).valid <==> t < now + DayMs)
  {
  }

  // ------------------------------------------------------------ auth.js

  /** `checkSession`: the token decodes, names the admin user and has not
      expired. A token that does not decode stays where it is. */
  predicate CheckSession(st: Stored, now: int) {
    st.Decoded? && st.session.username == Some(AdminUsername) && Unexpired(st.session, now)
  }

  /** The `adminSession` key and the `lastLogin` stamp. */
  datatype AuthStore = AuthStore(session: Stored, lastLogin: Option<int>)

  /** `login(username, password, rememberMe)`: on the fixed pair, a token
      that lasts thirty days with `rememberMe` and one day without, and
      the login stamp; otherwise nothing is written. */
  function Login(store: AuthStore, user: string, pass: string, rememberMe: bool, now: int)
    : (r: (bool, AuthStore))
    ensures r.0 <==> user == AdminUsername && pass == AdminPassword
    ensures !r.0 ==> r.1 == store
    ensures r.0 ==> (r.1.lastLogin == Some(now) && r.1.session.Decoded?
      && r.1.session.session.username == Some(AdminUsername)
      && r.1.session.session.expiry == Some(now + if rememberMe then 2_592_000_000 else 86_400_000))
  {
    if user == AdminUsername && pass == AdminPassword then
      var expiry := if rememberMe then now + MonthMs else now + DayMs;
      (true, AuthStore(Decoded(Session(Some(user), now, Some(expiry))), Some(now)))
    else (false, store)
  }

  /** `logout`: the token is removed, the login stamp kept. */
  function Logout(store: AuthStore): (r: AuthStore)
    ensures r.session.Missing? && r.lastLogin == store.lastLogin
  {
    store.(session := Missing)
  }

  /** A login makes `checkSession` hold until its expiry and a logout
      makes it fail, whatever came before. */
  lemma LoginThenCheck(store: AuthStore, rememberMe: bool, now: int, t: int)
    ensures var r := Login(store, AdminUsername, AdminPassword, rememberMe, now);
      r.0 && (CheckSession(r.1.session, t) <==> t < now + (if rememberMe then MonthMs else DayMs))
    ensures !CheckSession(Logout(store).session, t)
  {
  }

  /** Where `handleAuth` sends the browser. */
  datatype Redirect = Stay | ToLogin | ToDashboard

  /** `handleAuth`: a page under `/admin/` other than the login page needs
      a valid session, and the login page forwards a signed-in user to
      the dashboard. */
  function HandleAuth(path: string, st: Stored, now: int): (r: Redirect)
    ensures r == ToLogin <==>
      Contains(path, "/admin/") && !Contains(path, "/admin/index.html") && !CheckSession(st, now)
    ensures r == ToDashboard <==> Contains(path, "/admin/index.html") && CheckSession(st, now)
  {
    var valid := CheckSession(st, now);
    if Contains(path, "/admin/") && !Contains(path, "/admin/index.html") && !valid then ToLogin
    else if Contains(path, "/admin/index.html") && valid then ToDashboard
    else Stay
  }
}

=== FILE: site.dfy ===
/**
 * The public site of main.js, script.js and main-fixed.js: the featured
 * row, the counters, the "new" badge, the view increment behind the player,
 * the theme toggle and the visit counter. The site's login dialogs are
 * `Sessions.SiteLogin` and its session check is `Sessions.CheckAuth`.
 */
module Site {
  import opened Js
  import opened Episodes
  import Resolvers
  import Video
  import AdminSimpleFixed

  // ------------------------------------------------------------ featured row

  /** `ep.featured && ep.published` */
  predicate IsShowcase(ep: Episode) { ep.featured && ep.published }

  /** main.js and script.js: `filter(featured && published).slice(0, 6)`. */
  function FeaturedFirstSix(eps: seq<Episode>): (r: seq<Episode>)
    ensures |r| <= 6
    ensures forall ep :: ep in r ==> ep in eps && ep.featured && ep.published
    ensures r <= Filter(eps, IsShowcase)
  {
    Take(Filter(eps, IsShowcase), 6)
  }

  /** With six or fewer showcase episodes every one of them is shown; with
      more, exactly six are. */
  lemma FeaturedFirstSixComplete(eps: seq<Episode>)
    ensures Count(eps, IsShowcase) <= 6 ==>
      forall ep :: ep in eps && ep.featured && ep.published ==> ep in FeaturedFirstSix(eps)
    ensures Count(eps, IsShowcase) > 6 ==> |FeaturedFirstSix(eps)| == 6
  {
    if Count(eps, IsShowcase) <= 6 {
      assert FeaturedFirstSix(eps) == Filter(eps, IsShowcase);
    }
  }

  /** main-fixed.js: every showcase episode, uncapped; only when there is
      none, the six newest published episodes, or all of them when fewer
      are published. The sort runs on a filtered copy, so the stored order
      is untouched. */
  function FeaturedOrRecent(eps: seq<Episode>): (r: seq<Episode>)
    ensures forall ep :: ep in r ==> ep in eps && ep.published
    ensures Count(eps, IsShowcase) > 0 ==> forall ep :: ep in r <==> ep in eps && IsShowcase(ep)
    ensures Count(eps, IsShowcase) == 0 ==> |r| <= 6 && |r| <= Count(eps, IsPublished)
    ensures Count(eps, IsShowcase) > 0 ==> |r| == Count(eps, IsShowcase)
    ensures Count(eps, IsShowcase) == 0 ==>
      |r| == if Count(eps, IsPublished) < 6 then Count(eps, IsPublished) else 6
  {
    var showcase := Filter(eps, IsShowcase);
    if |showcase| > 0 then showcase
    else
      var recent := SortDesc(Filter(eps, IsPublished), Stamp);
      assert forall ep :: ep in recent ==> ep in Filter(eps, IsPublished) by {
        forall ep | ep in recent
          ensures ep in Filter(eps, IsPublished)
        {
          assert ep in multiset(recent);
        }
      }
      Take(recent, 6)
  }

  /** The fallback is newest first, and no published episode it leaves out
      is newer than one it shows. */
  lemma FeaturedFallbackNewest(eps: seq<Episode>)
    requires Count(eps, IsShowcase) == 0
    ensures SortedBy(FeaturedOrRecent(eps), Stamp)
    ensures forall ep :: ep in eps && ep.published && ep !in FeaturedOrRecent(eps) ==>
      forall i :: 0 <= i < |FeaturedOrRecent(eps)| ==> Stamp(ep) <= Stamp(FeaturedOrRecent(eps)[i])
  {
    var pub := Filter(eps, IsPublished);
    var recent := SortDesc(pub, Stamp);
    SortDescSorted(pub, Stamp);
    TakeSorted(recent, 6, Stamp);
    assert FeaturedOrRecent(eps) == Take(recent, 6);
    forall ep | ep in eps && ep.published && ep !in Take(recent, 6)
      ensures forall i :: 0 <= i < |Take(recent, 6)| ==> Stamp(ep) <= Stamp(Take(recent, 6)[i])
    {
      assert ep in pub;
      assert ep in multiset(recent);
      TakeLeavesLower(recent, 6, Stamp, ep);
    }
  }

  // ------------------------------------------------------------ counters

  /** The three counters on the home page. */
  datatype Counters = Counters(episodes: nat, seasons: nat, views: int)

  /** main.js and script.js: every episode, every distinct season, and the
      views of all. */
  function CountersAll(eps: seq<Episode>): (c: Counters)
    ensures c.episodes == |eps| && c.views == Total(eps, Views)
    ensures c.seasons <= c.episodes && (c.episodes > 0 ==> c.seasons > 0)
  {
    SeasonsBound(eps);
    Counters(|eps|, |Seasons(eps)|, Total(eps, Views))
  }

  /** main-fixed.js: published episodes and their seasons, but the views
      of all. */
  function CountersPublished(eps: seq<Episode>): (c: Counters)
    ensures c.episodes == Count(eps, IsPublished) && c.views == Total(eps, Views)
    ensures c.seasons <= c.episodes
  {
    var pub := Filter(eps, IsPublished);
    SeasonsBound(pub);
    Counters(|pub|, |Seasons(pub)|, Total(eps, Views))
  }

  /** The published counters never exceed the full ones, share the view
      total, and equal them when every episode is published. */
  lemma {:induction false} CountersCompare(eps: seq<Episode>)
    ensures CountersPublished(eps).episodes <= CountersAll(eps).episodes
    ensures CountersPublished(eps).seasons <= CountersAll(eps).seasons
    ensures CountersPublished(eps).views == CountersAll(eps).views
    ensures (forall j :: 0 <= j < |eps| ==> eps[j].published) ==> CountersPublished(eps) == CountersAll(eps)
  {
    var pub := Filter(eps, IsPublished);
    assert Seasons(pub) <= Seasons(eps);
    SubsetSize(Seasons(pub), Seasons(eps));
    if forall j :: 0 <= j < |eps| ==> eps[j].published {
      FilterKeepsAll(eps, IsPublished);
    }
  }

  // ------------------------------------------------------------ isNewEpisode

  /** main-fixed.js `isNewEpisode`: created (or subtitled) within the last
      three days. */
  predicate IsNewEpisode(ep: Episode, now: int) {
    Stamp(ep) > now - 3 * DayMs
  }

  /** The badge shows from the stamp on for exactly three days, and once
      gone it does not come back. */
  lemma NewEpisodeWindow(ep: Episode, now: int, later: int)
    ensures IsNewEpisode(ep, now) <==> now < Stamp(ep) + 259_200_000
    ensures now <= later && IsNewEpisode(ep, later) ==> IsNewEpisode(ep, now)
  {
  }

  // ------------------------------------------------------------ playEpisode

  /** The address the player opens: the stored embed (or the video
      address when it is empty), replaced by the Dailymotion embed of the
      last segment whenever the video address holds `dai.ly`. */
  function PlayerUrl(ep: Episode): (u: string)
    ensures Contains(ep.videoUrl, "dai.ly") ==> u == Resolvers.ShortHostEmbed(ep.videoUrl)
    ensures !Contains(ep.videoUrl, "dai.ly") && ep.embedUrl != "" ==> u == ep.embedUrl
    ensures !Contains(ep.videoUrl, "dai.ly") && ep.embedUrl == "" ==> u == ep.videoUrl
  {
    if Contains(ep.videoUrl, "dai.ly") then Resolvers.ShortHostEmbed(ep.videoUrl)
    else if ep.embedUrl != "" then ep.embedUrl
    else ep.videoUrl
  }

  /** The player's `dai.ly` rewrite agrees with the stand-alone admin
      page's: an episode saved there from a `dai.ly` address plays the
      embed stored with it. */
  lemma PlayerUrlMatchesSavedEmbed(eps: seq<Episode>, f: AdminSimpleFixed.Form, freshId: string, now: int)
    requires AdminSimpleFixed.SaveEpisode(eps, f, freshId, now).Ok?
    requires Contains(Trim(f.videoUrl), "dai.ly") && Video.YouTubeId(Trim(f.videoUrl)).None?
    ensures var ep := AdminSimpleFixed.SaveEpisode(eps, f, freshId, now).value[0];
      PlayerUrl(ep) == ep.embedUrl
  {
  }

  /** main-fixed.js `playEpisode`: an unknown id is an error and writes
      nothing; otherwise the views go up by one and the player opens. */
  function PlayEpisode(eps: seq<Episode>, id: string): (r: Result<(seq<Episode>, string)>)
    ensures r.Fail? <==> IndexOf(eps, id).None?
    ensures r.Fail? ==> r.error == "Episodio no encontrado"
    ensures r.Ok? ==> (r.value.0 == IncrementViews(eps, id)
      && r.value.1 == PlayerUrl(eps[IndexOf(eps, id).value]))
  {
    var i := IndexOf(eps, id);
    if i.None? then Fail("Episodio no encontrado")
    else Ok((IncrementViews(eps, id), PlayerUrl(eps[i.value])))
  }

  /** Playing adds exactly one view to the total and to the episode, and
      changes nothing else. */
  lemma PlayEpisodeCountsOnce(eps: seq<Episode>, id: string)
    requires PlayEpisode(eps, id).Ok?
    ensures var after := PlayEpisode(eps, id).value.0;
      Total(after, Views) == Total(eps, Views) + 1 && Total(after, Likes) == Total(eps, Likes)
      && |after| == |eps|
  {
    IncrementViewsTotal(eps, id);
  }

  // ------------------------------------------------------------ theme and visits

  /** script.js: the theme shown at start, `stored || 'light'`. */
  function InitialTheme(stored: Option<string>): (t: string)
    ensures stored.Some? && stored.value != "" ==> t == stored.value
    ensures stored.None? || stored.value == "" ==> t == "light"
  {
    if stored.Some? && stored.value != "" then stored.value else "light"
  }

  /** script.js theme button: `light` becomes `dark`, anything else
      becomes `light`. */
  function ToggleTheme(current: string): (t: string)
    ensures t == "dark" <==> current == "light"
    ensures t == "light" <==> current != "light"
  {
    if current == "light" then "dark" else "light"
  }

  /** Reloading shows the theme last chosen: the toggle reads the theme
      shown, and `applyTheme` stores what it shows. A first visit starts
      light and one press makes it dark. */
  lemma ThemeSurvivesReload(stored: Option<string>)
    ensures var shown := InitialTheme(stored);
      var pressed := ToggleTheme(shown);
      InitialTheme(Some(pressed)) == pressed
      && (shown == "light" || shown == "dark" ==> ToggleTheme(pressed) == shown)
    ensures stored.None? ==> ToggleTheme(InitialTheme(stored)) == "dark"
  {
  }

  /** Two presses give back either theme; from any other value the first
      press settles on `light`. */
  lemma ToggleThemeTwice(current: string)
    ensures current == "light" || current == "dark" ==> ToggleTheme(ToggleTheme(current)) == current
    ensures ToggleTheme(ToggleTheme(ToggleTheme(current))) == ToggleTheme(current)
  {
  }

  /** script.js `trackVisit`: `parseInt(stored || '0') + 1`, written back
      as text. */
  function TrackVisit(stored: Option<string>): (r: string)
    ensures stored.None? || stored.value == "" ==> ParseInt(r) == Int(1)
    ensures stored.Some? && ParseInt(stored.value).Int? ==> ParseInt(r) == Int(ParseInt(stored.value).v + 1)
  {
    var text := if stored.Some? && stored.value != "" then stored.value else "0";
    ParseIntShowInt(0);
    assert ParseInt("0") == Int(0) by {
      assert ShowInt(0) == "0";
    }
    ShowNum(PlusOneNum(ParseInt(text)))
  }

  /** `k` visits starting from an empty store. */
  function Visits(k: nat): Option<string> {
    if k == 0 then None else Some(TrackVisit(Visits(k - 1)))
  }

  /** After `k` visits the stored counter reads `k`. */
  lemma {:induction false} VisitsCounted(k: nat)
    ensures k > 0 ==> ParseInt(Visits(k).value) == Int(k)
  {
    if k > 1 {
      VisitsCounted(k - 1);
    }
  }
}

=== FILE: ui_updater.dfy ===
/**
 * The page label ui-updater.js works out from the address path, the
 * empty-list placeholder, and which pages refresh their dashboard figures
 * when the statistics change.
 */
module UiUpdater {
  import opened Js
  import Literals

  /** `detectCurrentPage`: `admin` anywhere in the path wins; inside it
      `dashboard`, then `episodios`, then `stats`; outside it `episodios`,
      then `acerca`; otherwise the home page. */
  function DetectCurrentPage(path: string): (page: string)
    ensures page in {"admin-dashboard", "admin-episodes", "admin-stats", "admin", "episodes", "about", "home"}
    ensures Contains(path, "admin") && Contains(path, "dashboard") ==> page == "admin-dashboard"
    ensures Contains(path, "admin") && !Contains(path, "dashboard") && Contains(path, "episodios") ==> page == "admin-episodes"
    ensures Contains(path, "admin") && !Contains(path, "dashboard") && !Contains(path, "episodios") && Contains(path, "stats") ==>
      page == "admin-stats"
    ensures Contains(path, "admin") && !Contains(path, "dashboard") && !Contains(path, "episodios") && !Contains(path, "stats") ==>
      page == "admin"
    ensures !Contains(path, "admin") && Contains(path, "episodios") ==> page == "episodes"
    ensures !Contains(path, "admin") && !Contains(path, "episodios") && Contains(path, "acerca") ==> page == "about"
    ensures !Contains(path, "admin") && !Contains(path, "episodios") && !Contains(path, "acerca") ==> page == "home"
  {
    if Contains(path, "admin") then
      if Contains(path, "dashboard") then "admin-dashboard"
      else if Contains(path, "episodios") then "admin-episodes"
      else if Contains(path, "stats") then "admin-stats"
      else "admin"
    else if Contains(path, "episodios") then "episodes"
    else if Contains(path, "acerca") then "about"
    else "home"
  }

  /** An admin path never gets a public label, and a public path never an
      admin one: the labels that start with `admin` are exactly those of
      paths holding `admin`. */
  lemma AdminPrecedence(path: string)
    ensures StartsWith(DetectCurrentPage(path), "admin") <==> Contains(path, "admin")
    ensures Contains(path, "admin") ==> DetectCurrentPage(path) != "episodes"
  {
  }

  /** `handleStatsUpdated`: the dashboard figures refresh only when the
      page label holds `admin`. */
  predicate RefreshesDashboard(page: string) {
    Contains(page, "admin")
  }

  /** Statistics reach the dashboard figures exactly on admin paths. */
  lemma {:induction false} StatsGating(path: string)
    ensures RefreshesDashboard(DetectCurrentPage(path)) <==> Contains(path, "admin")
  {
    var page := DetectCurrentPage(path);
    if Contains(path, "admin") {
      assert StartsWith(page, "admin");
    } else {
      Literals.PublicPagesText();
      if page == "about" {
        ShorterHasNot("bout", "admin");
      } else if page == "episodes" {
        NotContainsWithoutHead("episodes", "admin");
      } else {
        NotContainsWithoutHead("home", "admin");
      }
    }
  }

  /** A text shorter than `sub` does not contain it. */
  lemma {:induction false} ShorterHasNot(s: string, sub: string)
    requires |s| < |sub|
    ensures !Contains(s, sub)
    decreases |s|
  {
    if |s| > 0 {
      ShorterHasNot(s[1..], sub);
    }
  }

  /** The markup shown for an empty episode list. */
  const EmptyEpisodes := "No hay episodios disponibles"

  /** `getEmptyState`: the templates by kind; only `episodios` is there. */
  const EmptyStates: map<string, string> := map["episodios" := EmptyEpisodes]

  /** `states[type] || states.episodios`: every kind gets the episode
      list's placeholder. */
  function GetEmptyState(kind: string): (r: string)
    ensures r == EmptyEpisodes
  {
    if kind in EmptyStates && EmptyStates[kind] != "" then EmptyStates[kind] else EmptyStates["episodios"]
  }
}

=== FILE: video.dfy ===
/**
 * What the video resolvers have in common: the id each URL pattern
 * captures, the embed and thumbnail address templates, and what the
 * patterns read in the addresses the templates produce. The resolvers of
 * the individual scripts are built from these pieces.
 */
module Video {
  import opened Js
  import opened Patterns
  import Literals

  // ------------------------------------------------------------ captured ids

  /** Group 1 of the YouTube pattern. */
  function YouTubeId(url: string): (r: Option<string>)
    ensures r.Some? ==> IsVideoId(r.value)
  {
    Capture(url, YouTubeAt)
  }

  /** Group 1 of `(?:vimeo\.com\/)([0-9]+)`. */
  function VimeoId(url: string): (r: Option<string>)
    ensures r.Some? ==> |r.value| > 0 && AllDigits(r.value)
  {
    Capture(url, VimeoAt)
  }

  /** Group 1 of `(?:dailymotion\.com\/video\/)([a-zA-Z0-9]+)`. */
  function DailymotionId(url: string): (r: Option<string>)
    ensures r.Some? ==> |r.value| > 0 && forall k :: 0 <= k < |r.value| ==> IsAlnum(r.value[k])
  {
    Capture(url, DailymotionVideoAt)
  }

  /** Group 1 of `(?:drive\.google\.com\/file\/d\/)([^\/\?&]+)`. */
  function DriveId(url: string): (r: Option<string>)
    ensures r.Some? ==> |r.value| > 0 && forall k :: 0 <= k < |r.value| ==> NotPathSeparator(r.value[k])
  {
    Capture(url, DriveAt)
  }

  /** Group 1 of `(?:streamable\.com\/)([a-zA-Z0-9]+)`. */
  function StreamableId(url: string): (r: Option<string>)
    ensures r.Some? ==> |r.value| > 0 && forall k :: 0 <= k < |r.value| ==> IsAlnum(r.value[k])
  {
    Capture(url, StreamableAt)
  }

  // ------------------------------------------------------------ templates

  function YouTubeEmbed(id: string, query: string): string {
    "https://www.youtube.com/embed/" + id + query
  }

  /** The query string most resolvers append to a YouTube embed. */
  const PlayerQuery: string := "?enablejsapi=1&rel=0"

  function YouTubeThumbnail(id: string): string {
    "https://img.youtube.com/vi/" + id + "/mqdefault.jpg"
  }

  function VimeoPlayer(id: string): string {
    "https://player.vimeo.com/video/" + id
  }

  function DailymotionEmbed(id: string): string {
    "https://www.dailymotion.com/embed/video/" + id
  }

  function DailymotionThumbnail(id: string): string {
    "https://www.dailymotion.com/thumbnail/video/" + id
  }

  function DrivePreview(id: string): string {
    "https://drive.google.com/file/d/" + (id + "/preview")
  }

  function StreamableEmbed(id: string): string {
    "https://streamable.com/e/" + id
  }

  function ArchiveEmbed(id: string): string {
    "https://archive.org/embed/" + id
  }

  const ThumbnailPlaceholder: string := "img/thumbnail-placeholder.jpg"
  const FormThumbnailPlaceholder: string := "../img/thumbnail-placeholder.jpg"
  const DailymotionPlaceholder: string := "img/dailymotion-placeholder.jpg"

  // ------------------------------------------------------------ where matches start

  /** The character `d` occurs somewhere after position `k`. */
  predicate HasAfter(s: string, k: nat, d: char) {
    exists j :: k < j < |s| && s[j] == d
  }

  /** Only the character itself folds to a character that is not a
      lower-case letter. */
  lemma FoldsToSelf(x: char, d: char)
    requires Lower(x) == d && !('a' <= d <= 'z')
    ensures x == d
  {
  }

  /** Every match of `lit([cls]+)` starts at the literal's first letter `c`
      and has the literal's dot and slash after it. */
  lemma LitRunHeads(s: string, lit: string, cls: char -> bool, c: char, dot: nat, slash: nat)
    requires 0 < dot < |lit| && 0 < slash < |lit|
    requires lit[0] == c && lit[dot] == '.' && lit[slash] == '/'
    ensures forall k :: 0 <= k <= |s| && LitRunAt(s, k, lit, cls).Some? ==>
      k < |s| && Lower(s[k]) == c && HasAfter(s, k, '.') && HasAfter(s, k, '/')
  {
    forall k | 0 <= k <= |s| && LitRunAt(s, k, lit, cls).Some?
      ensures k < |s| && Lower(s[k]) == c && HasAfter(s, k, '.') && HasAfter(s, k, '/')
    {
      LitAtChar(s, k, lit, 0);
      LitAtChar(s, k, lit, dot);
      LitAtChar(s, k, lit, slash);
      FoldsToSelf(s[k + dot], '.');
      FoldsToSelf(s[k + slash], '/');
    }
  }

  /** Every YouTube match starts at a `y` and has a dot and a slash after it. */
  lemma YouTubeHeads(s: string)
    ensures forall k :: 0 <= k <= |s| && YouTubeAt(s, k).Some? ==>
      k < |s| && Lower(s[k]) == 'y' && HasAfter(s, k, '.') && HasAfter(s, k, '/')
  {
    Literals.YouTubeText();
    forall k | 0 <= k <= |s| && YouTubeAt(s, k).Some?
      ensures k < |s| && Lower(s[k]) == 'y' && HasAfter(s, k, '.') && HasAfter(s, k, '/')
    {
      if LitAt(s, k, "youtube.com/") {
        LitAtChar(s, k, "youtube.com/", 0);
        LitAtChar(s, k, "youtube.com/", 7);
        LitAtChar(s, k, "youtube.com/", 11);
        FoldsToSelf(s[k + 7], '.');
        FoldsToSelf(s[k + 11], '/');
      } else {
        LitAtChar(s, k, "youtu.be/", 0);
        LitAtChar(s, k, "youtu.be/", 5);
        LitAtChar(s, k, "youtu.be/", 8);
        FoldsToSelf(s[k + 5], '.');
        FoldsToSelf(s[k + 8], '/');
      }
    }
  }

  lemma VimeoHeads(s: string)
    ensures forall k :: 0 <= k <= |s| && VimeoAt(s, k).Some? ==>
      k < |s| && Lower(s[k]) == 'v' && HasAfter(s, k, '.') && HasAfter(s, k, '/')
  {
    Literals.VimeoText();
    LitRunHeads(s, "vimeo.com/", IsDigit, 'v', 5, 9);
  }

  lemma DailymotionHeads(s: string)
    ensures forall k :: 0 <= k <= |s| && DailymotionVideoAt(s, k).Some? ==>
      k < |s| && Lower(s[k]) == 'd' && HasAfter(s, k, '.') && HasAfter(s, k, '/')
  {
    Literals.DailymotionText();
    LitRunHeads(s, "dailymotion.com/video/", IsAlnum, 'd', 11, 15);
  }

  lemma DriveHeads(s: string)
    ensures forall k :: 0 <= k <= |s| && DriveAt(s, k).Some? ==>
      k < |s| && Lower(s[k]) == 'd' && HasAfter(s, k, '.') && HasAfter(s, k, '/')
  {
    Literals.DriveText();
    LitRunHeads(s, "drive.google.com/file/d/", NotPathSeparator, 'd', 5, 16);
  }

  lemma StreamableHeads(s: string)
    ensures forall k :: 0 <= k <= |s| && StreamableAt(s, k).Some? ==>
      k < |s| && Lower(s[k]) == 's' && HasAfter(s, k, '.') && HasAfter(s, k, '/')
  {
    Literals.StreamableText();
    LitRunHeads(s, "streamable.com/", IsAlnum, 's', 10, 14);
  }

  // ------------------------------------------------------------ no match

  /** A pattern that fails at every start position fails. */
  lemma NoMatchAnywhere(s: string, at: Matcher)
    requires forall k :: 0 <= k <= |s| ==> at(s, k).None?
    ensures Capture(s, at) == None
  {
    SearchFails(s, 0, at);
  }

  /** A pattern whose matches start at the letter `c` and need the
      character `d` further on finds nothing in a text whose tail from `n`
      lacks `d`, once every `c` before `n` is ruled out. */
  lemma NoMatchInTemplate(s: string, n: nat, at: Matcher, c: char, d: char)
    requires n <= |s|
    requires forall k :: 0 <= k <= |s| && at(s, k).Some? ==>
      k < |s| && Lower(s[k]) == c && HasAfter(s, k, d)
    requires forall j :: n <= j < |s| ==> s[j] != d
    requires forall k :: 0 <= k < n && Lower(s[k]) == c ==> at(s, k).None?
    ensures Capture(s, at) == None
  {
    NoMatchAnywhere(s, at);
  }

  /** The tail of `s` from `n` on is `t`; it lacks what `t` lacks. */
  lemma TailLacks(s: string, n: nat, t: string, d: char)
    requires |s| == n + |t| && forall j :: n <= j < |s| ==> s[j] == t[j - n]
    requires d !in t
    ensures forall j :: n <= j < |s| ==> s[j] != d
  {
    forall j | n <= j < |s| ensures s[j] != d {
      assert t[j - n] in t;
    }
  }

  lemma DigitsLack(digits: string)
    requires AllDigits(digits)
    ensures '/' !in digits && '.' !in digits && 'd' !in digits && 'y' !in digits && 'Y' !in digits
  {
    forall c | c in digits ensures IsDigit(c) {
      var i :| 0 <= i < |digits| && digits[i] == c;
    }
  }

  lemma AlnumLacks(id: string)
    requires forall k :: 0 <= k < |id| ==> IsAlnum(id[k])
    ensures '/' !in id && '.' !in id
  {
    forall c | c in id ensures IsAlnum(c) {
      var i :| 0 <= i < |id| && id[i] == c;
    }
  }

  /** No `dai.ly` where no `d`, `a` pair has a dot two places further on. */
  lemma NoShortHost(s: string)
    requires forall i :: 0 <= i < |s| - 3 ==> s[i] != 'd' || s[i + 1] != 'a' || s[i + 3] != '.'
    ensures !Contains(s, "dai.ly")
  {
    Literals.ShortHostText();
    forall i: nat ensures !OccursAt(s, "dai.ly", i) {
      if i + 6 <= |s| {
        assert s[i..i + 6][0] == s[i] && s[i..i + 6][1] == s[i + 1] && s[i..i + 6][3] == s[i + 3];
      }
    }
    ContainsIff(s, "dai.ly");
  }

  /** Text without a dot holds none of the hosts: every resolver passes it
      through unchanged. */
  lemma DotlessHasNoVideo(url: string)
    requires '.' !in url
    ensures YouTubeId(url).None? && VimeoId(url).None? && DailymotionId(url).None?
    ensures DriveId(url).None? && StreamableId(url).None?
    ensures !Contains(url, "dai.ly")
  {
    forall j | 0 <= j < |url| ensures url[j] != '.' {
      assert url[j] in url;
    }
    YouTubeHeads(url);
    NoMatchInTemplate(url, 0, YouTubeAt, 'y', '.');
    VimeoHeads(url);
    NoMatchInTemplate(url, 0, VimeoAt, 'v', '.');
    DailymotionHeads(url);
    NoMatchInTemplate(url, 0, DailymotionVideoAt, 'd', '.');
    DriveHeads(url);
    NoMatchInTemplate(url, 0, DriveAt, 'd', '.');
    StreamableHeads(url);
    NoMatchInTemplate(url, 0, StreamableAt, 's', '.');
    NoShortHost(url);
  }

  // ------------------------------------------------------------ YouTube addresses

  /** `https://www.youtube.com/watch?v=ID` */
  lemma YouTubeWatchRead(id: string)
    requires IsVideoId(id)
    ensures YouTubeId("https://www.youtube.com/watch?v=" + id) == Some(id)
  {
    Literals.SchemeLetters();
    Literals.WatchJoin(id);
    YouTubeWatchShape("https://www.", id);
  }

  /** `https://youtu.be/ID` */
  lemma YouTubeShortRead(id: string)
    requires IsVideoId(id)
    ensures YouTubeId("https://youtu.be/" + id) == Some(id)
  {
    Literals.SchemeLetters();
    Literals.ShortJoin(id);
    YouTubeShortShape("https://", id);
  }

  /** A YouTube embed address, with any query string after the id, reads
      back as its own id. */
  lemma YouTubeEmbedRead(id: string, query: string)
    requires IsVideoId(id) && '/' !in query
    ensures YouTubeId(YouTubeEmbed(id, query)) == Some(id)
  {
    Literals.SchemeLetters();
    Literals.EmbedJoin(id, query);
    YouTubeEmbedShape("https://www.", id, query);
  }

  // ------------------------------------------------------------ Vimeo page

  /** `https://vimeo.com/DIGITS` holds a Vimeo id and no other host. */
  lemma VimeoPageRead(digits: string)
    requires |digits| > 0 && AllDigits(digits)
    ensures var url := "https://vimeo.com/" + digits;
      && VimeoId(url) == Some(digits)
      && YouTubeId(url).None? && DailymotionId(url).None? && DriveId(url).None?
      && !Contains(url, "dai.ly")
  {
    Literals.SchemeLetters();
    Literals.VimeoJoin(digits);
    VimeoShape("https://", digits, "");
    VimeoPageNoYouTube(digits);
    VimeoPageNoOther(digits);
  }

  /** Neither the page address nor its digits hold a `y` or a `d`. */
  lemma VimeoPageLetters(digits: string)
    requires AllDigits(digits)
    ensures var url := "https://vimeo.com/" + digits;
      forall k :: 0 <= k < |url| ==> url[k] !in "yYdD"
  {
    var url := "https://vimeo.com/" + digits;
    Literals.VimeoPageText(digits);
    forall k | 0 <= k < |url| ensures url[k] !in "yYdD" {
      if k < 18 {
        Literals.VimeoPageHeads(digits, k);
      } else {
        assert IsDigit(digits[k - 18]);
      }
    }
  }

  lemma VimeoPageNoYouTube(digits: string)
    requires AllDigits(digits)
    ensures YouTubeId("https://vimeo.com/" + digits).None?
  {
    var url := "https://vimeo.com/" + digits;
    VimeoPageLetters(digits);
    YouTubeHeads(url);
    NoMatchInTemplate(url, |url|, YouTubeAt, 'y', '/');
  }

  lemma VimeoPageNoOther(digits: string)
    requires AllDigits(digits)
    ensures var url := "https://vimeo.com/" + digits;
      DailymotionId(url).None? && DriveId(url).None? && !Contains(url, "dai.ly")
  {
    VimeoPageNoDailymotion(digits);
    VimeoPageNoDrive(digits);
    VimeoPageLetters(digits);
    NoShortHost("https://vimeo.com/" + digits);
  }

  lemma VimeoPageNoDailymotion(digits: string)
    requires AllDigits(digits)
    ensures DailymotionId("https://vimeo.com/" + digits).None?
  {
    var url := "https://vimeo.com/" + digits;
    VimeoPageLetters(digits);
    DailymotionHeads(url);
    NoMatchInTemplate(url, |url|, DailymotionVideoAt, 'd', '/');
  }

  lemma VimeoPageNoDrive(digits: string)
    requires AllDigits(digits)
    ensures DriveId("https://vimeo.com/" + digits).None?
  {
    var url := "https://vimeo.com/" + digits;
    VimeoPageLetters(digits);
    DriveHeads(url);
    NoMatchInTemplate(url, |url|, DriveAt, 'd', '/');
  }

  // ------------------------------------------------------------ Dailymotion page

  /** `https://www.dailymotion.com/video/ID` holds a Dailymotion id, no
      YouTube or Vimeo id, and no `dai.ly`. */
  lemma DailymotionPageRead(id: string)
    requires |id| > 0 && forall k :: 0 <= k < |id| ==> IsAlnum(id[k])
    ensures var url := "https://www.dailymotion.com/video/" + id;
      && DailymotionId(url) == Some(id)
      && YouTubeId(url).None? && VimeoId(url).None? && !Contains(url, "dai.ly")
  {
    Literals.SchemeLetters();
    Literals.DailymotionJoin(id);
    DailymotionVideoShape("https://www.", id, "");
    DailymotionPageNoYouTube(id);
    DailymotionPageNoVimeo(id);
    DailymotionPageNoShortHost(id);
  }

  /** The page address's tail, the id, has no slash and no dot. */
  lemma DailymotionPageTail(id: string)
    requires forall k :: 0 <= k < |id| ==> IsAlnum(id[k])
    ensures var url := "https://www.dailymotion.com/video/" + id;
      forall j :: 34 <= j < |url| ==> url[j] != '/' && url[j] != '.'
  {
    var url := "https://www.dailymotion.com/video/" + id;
    Literals.DailymotionPageText(id);
    AlnumLacks(id);
    TailLacks(url, 34, id, '/');
    TailLacks(url, 34, id, '.');
  }

  lemma DailymotionPageNoYouTube(id: string)
    requires forall k :: 0 <= k < |id| ==> IsAlnum(id[k])
    ensures YouTubeId("https://www.dailymotion.com/video/" + id).None?
  {
    var url := "https://www.dailymotion.com/video/" + id;
    Literals.DailymotionPageText(id);
    Literals.YouTubeText();
    DailymotionPageTail(id);
    assert YouTubeAt(url, 16).None? by {
      LitAtMismatch(url, 16, "youtube.com/", 1);
      LitAtMismatch(url, 16, "youtu.be/", 1);
    }
    DailymotionPageOneY(id);
    YouTubeHeads(url);
    NoMatchInTemplate(url, 34, YouTubeAt, 'y', '/');
  }

  /** Within the fixed head of a Dailymotion page address only the `y` of
      `dailymotion` could start a YouTube host. */
  lemma DailymotionPageOneY(id: string)
    ensures var url := "https://www.dailymotion.com/video/" + id;
      |url| >= 34 && forall k :: 0 <= k < 34 && Lower(url[k]) == 'y' ==> k == 16
  {
    var url := "https://www.dailymotion.com/video/" + id;
    Literals.DailymotionPageText(id);
    forall k | 0 <= k < 34 && Lower(url[k]) == 'y' ensures k == 16 {
      Literals.DailymotionPageHeads(id, k);
    }
  }

  lemma DailymotionPageNoVimeo(id: string)
    requires forall k :: 0 <= k < |id| ==> IsAlnum(id[k])
    ensures VimeoId("https://www.dailymotion.com/video/" + id).None?
  {
    var url := "https://www.dailymotion.com/video/" + id;
    Literals.DailymotionPageText(id);
    Literals.VimeoText();
    DailymotionPageTail(id);
    assert VimeoAt(url, 28).None? by {
      LitAtMismatch(url, 28, "vimeo.com/", 2);
    }
    forall k | 0 <= k < 34 && Lower(url[k]) == 'v' ensures k == 28 {
      Literals.DailymotionPageHeads(id, k);
    }
    VimeoHeads(url);
    NoMatchInTemplate(url, 34, VimeoAt, 'v', '/');
  }

  lemma DailymotionPageNoShortHost(id: string)
    requires forall k :: 0 <= k < |id| ==> IsAlnum(id[k])
    ensures !Contains("https://www.dailymotion.com/video/" + id, "dai.ly")
  {
    DailymotionPageNoDaiDot(id);
    NoShortHost("https://www.dailymotion.com/video/" + id);
  }

  /** Its two `d`s are followed by `ail` and `eo`. */
  lemma DailymotionPageNoDaiDot(id: string)
    requires forall k :: 0 <= k < |id| ==> IsAlnum(id[k])
    ensures var url := "https://www.dailymotion.com/video/" + id;
      forall i :: 0 <= i < |url| - 3 ==> url[i] != 'd' || url[i + 1] != 'a' || url[i + 3] != '.'
  {
    var url := "https://www.dailymotion.com/video/" + id;
    DailymotionPageTail(id);
    Literals.DailymotionPageText(id);
    forall i | 0 <= i < |url| - 3 ensures url[i] != 'd' || url[i + 1] != 'a' || url[i + 3] != '.' {
      if i == 12 {
        assert url[15] != '.';
      } else if i == 30 {
        assert url[31] != 'a';
      } else if i < 34 {
        Literals.DailymotionPageHeads(id, i);
        assert url[i] != 'd';
      } else {
        assert url[i + 3] != '.';
      }
    }
  }

  // ------------------------------------------------------------ short Dailymotion

  /** `https://dai.ly/SEGMENT` holds no YouTube id, holds the short host, and
      its last segment is SEGMENT. */
  lemma ShortDailymotionRead(seg: string)
    requires '/' !in seg
    ensures var url := "https://dai.ly/" + seg;
      && YouTubeId(url).None? && Contains(url, "dai.ly") && LastSegment(url) == seg
  {
    var url := "https://dai.ly/" + seg;
    Literals.ShortDailymotionText(seg);
    Literals.YouTubeText();
    Literals.ShortSlashJoin(seg);
    TailLacks(url, 15, seg, '/');
    assert YouTubeAt(url, 13).None? by {
      LitAtMismatch(url, 13, "youtube.com/", 1);
      LitAtMismatch(url, 13, "youtu.be/", 1);
    }
    forall k | 0 <= k < 15 && Lower(url[k]) == 'y' ensures k == 13 {
      Literals.ShortDailymotionHeads(seg, k);
    }
    YouTubeHeads(url);
    NoMatchInTemplate(url, 15, YouTubeAt, 'y', '/');
    assert OccursAt(url, "dai.ly", 8);
    ContainsIff(url, "dai.ly");
    LastSegmentAfterSlash("https://dai.ly", seg);
  }

  // ------------------------------------------------------------ Vimeo player

  /** A Vimeo player address holds no id of any pattern and no `dai.ly`. */
  lemma VimeoPlayerInert(digits: string)
    requires AllDigits(digits)
    ensures var out := VimeoPlayer(digits);
      && YouTubeId(out).None? && VimeoId(out).None? && DailymotionId(out).None?
      && DriveId(out).None? && StreamableId(out).None? && !Contains(out, "dai.ly")
  {
    VimeoPlayerNoYouTube(digits);
    VimeoPlayerNoVimeo(digits);
    VimeoPlayerNoDailymotion(digits);
    VimeoPlayerNoDrive(digits);
    VimeoPlayerNoStreamable(digits);
    VimeoPlayerNoShortHost(digits);
  }

  /** The player address's tail, the digits, has no slash. */
  lemma VimeoPlayerTail(digits: string)
    requires AllDigits(digits)
    ensures forall j :: 31 <= j < |VimeoPlayer(digits)| ==> VimeoPlayer(digits)[j] != '/'
  {
    Literals.VimeoPlayerText(digits);
    DigitsLack(digits);
    TailLacks(VimeoPlayer(digits), 31, digits, '/');
  }

  lemma VimeoPlayerNoYouTube(digits: string)
    requires AllDigits(digits)
    ensures YouTubeId(VimeoPlayer(digits)).None?
  {
    var out := VimeoPlayer(digits);
    Literals.VimeoPlayerText(digits);
    Literals.YouTubeText();
    VimeoPlayerTail(digits);
    assert YouTubeAt(out, 11).None? by {
      LitAtMismatch(out, 11, "youtube.com/", 1);
      LitAtMismatch(out, 11, "youtu.be/", 1);
    }
    forall k | 0 <= k < 31 && Lower(out[k]) == 'y' ensures k == 11 {
      Literals.VimeoPlayerHeads(digits, k);
    }
    YouTubeHeads(out);
    NoMatchInTemplate(out, 31, YouTubeAt, 'y', '/');
  }

  /** Its first `v` starts `vimeo.com/` but a letter follows; its second
      starts `vid`. */
  lemma VimeoPlayerV(digits: string)
    ensures VimeoAt(VimeoPlayer(digits), 15).None? && VimeoAt(VimeoPlayer(digits), 25).None?
  {
    var out := VimeoPlayer(digits);
    Literals.VimeoPlayerText(digits);
    Literals.VimeoText();
    assert !IsDigit(out[25]);
    LitAtMismatch(out, 25, "vimeo.com/", 2);
  }

  lemma VimeoPlayerNoVimeo(digits: string)
    requires AllDigits(digits)
    ensures VimeoId(VimeoPlayer(digits)).None?
  {
    var out := VimeoPlayer(digits);
    VimeoPlayerTail(digits);
    VimeoPlayerV(digits);
    forall k | 0 <= k < 31 && Lower(out[k]) == 'v' ensures k == 15 || k == 25 {
      Literals.VimeoPlayerHeads(digits, k);
    }
    VimeoHeads(out);
    NoMatchInTemplate(out, 31, VimeoAt, 'v', '/');
  }

  lemma VimeoPlayerNoDailymotion(digits: string)
    requires AllDigits(digits)
    ensures DailymotionId(VimeoPlayer(digits)).None?
  {
    var out := VimeoPlayer(digits);
    Literals.VimeoPlayerText(digits);
    Literals.DailymotionText();
    VimeoPlayerTail(digits);
    assert DailymotionVideoAt(out, 27).None? by {
      LitAtMismatch(out, 27, "dailymotion.com/video/", 1);
    }
    forall k | 0 <= k < 31 && Lower(out[k]) == 'd' ensures k == 27 {
      Literals.VimeoPlayerHeads(digits, k);
    }
    DailymotionHeads(out);
    NoMatchInTemplate(out, 31, DailymotionVideoAt, 'd', '/');
  }

  lemma VimeoPlayerNoDrive(digits: string)
    requires AllDigits(digits)
    ensures DriveId(VimeoPlayer(digits)).None?
  {
    var out := VimeoPlayer(digits);
    Literals.VimeoPlayerText(digits);
    Literals.DriveText();
    VimeoPlayerTail(digits);
    assert DriveAt(out, 27).None? by {
      LitAtMismatch(out, 27, "drive.google.com/file/d/", 1);
    }
    forall k | 0 <= k < 31 && Lower(out[k]) == 'd' ensures k == 27 {
      Literals.VimeoPlayerHeads(digits, k);
    }
    DriveHeads(out);
    NoMatchInTemplate(out, 31, DriveAt, 'd', '/');
  }

  lemma VimeoPlayerNoStreamable(digits: string)
    requires AllDigits(digits)
    ensures StreamableId(VimeoPlayer(digits)).None?
  {
    var out := VimeoPlayer(digits);
    Literals.VimeoPlayerText(digits);
    Literals.StreamableText();
    VimeoPlayerTail(digits);
    assert StreamableAt(out, 4).None? by {
      LitAtMismatch(out, 4, "streamable.com/", 1);
    }
    forall k | 0 <= k < 31 && Lower(out[k]) == 's' ensures k == 4 {
      Literals.VimeoPlayerHeads(digits, k);
    }
    StreamableHeads(out);
    NoMatchInTemplate(out, 31, StreamableAt, 's', '/');
  }

  lemma VimeoPlayerNoShortHost(digits: string)
    requires AllDigits(digits)
    ensures !Contains(VimeoPlayer(digits), "dai.ly")
  {
    var out := VimeoPlayer(digits);
    Literals.VimeoPlayerText(digits);
    DigitsLack(digits);
    TailLacks(out, 31, digits, 'd');
    forall i | 0 <= i < |out| - 3 ensures out[i] != 'd' || out[i + 1] != 'a' || out[i + 3] != '.' {
      if i < 31 {
        Literals.VimeoPlayerHeads(digits, i);
      }
    }
    NoShortHost(out);
  }

  // ------------------------------------------------------------ Dailymotion embed

  /** A Dailymotion embed address of a slash-free segment holds no id of
      any pattern, and its last segment is that segment. */
  lemma DailymotionEmbedInert(seg: string)
    requires '/' !in seg
    ensures var out := DailymotionEmbed(seg);
      && YouTubeId(out).None? && VimeoId(out).None? && DailymotionId(out).None?
      && DriveId(out).None? && StreamableId(out).None? && LastSegment(out) == seg
  {
    DailymotionEmbedNoYouTube(seg);
    DailymotionEmbedNoVimeo(seg);
    DailymotionEmbedNoDailymotion(seg);
    DailymotionEmbedNoDrive(seg);
    DailymotionEmbedNoStreamable(seg);
    Literals.EmbedSlashJoin(seg);
    LastSegmentAfterSlash("https://www.dailymotion.com/embed/video", seg);
  }

  lemma DailymotionEmbedTail(seg: string)
    requires '/' !in seg
    ensures forall j :: 40 <= j < |DailymotionEmbed(seg)| ==> DailymotionEmbed(seg)[j] != '/'
  {
    Literals.DailymotionEmbedText(seg);
    TailLacks(DailymotionEmbed(seg), 40, seg, '/');
  }

  /** Its one `y` is followed by an `m`. */
  lemma DailymotionEmbedY(seg: string)
    ensures YouTubeAt(DailymotionEmbed(seg), 16).None?
  {
    var out := DailymotionEmbed(seg);
    Literals.DailymotionEmbedText(seg);
    Literals.YouTubeText();
    LitAtMismatch(out, 16, "youtube.com/", 1);
    LitAtMismatch(out, 16, "youtu.be/", 1);
  }

  lemma DailymotionEmbedNoYouTube(seg: string)
    requires '/' !in seg
    ensures YouTubeId(DailymotionEmbed(seg)).None?
  {
    var out := DailymotionEmbed(seg);
    DailymotionEmbedTail(seg);
    DailymotionEmbedY(seg);
    forall k | 0 <= k < 40 && Lower(out[k]) == 'y' ensures k == 16 {
      Literals.DailymotionEmbedHeads(seg, k);
    }
    YouTubeHeads(out);
    NoMatchInTemplate(out, 40, YouTubeAt, 'y', '/');
  }

  lemma DailymotionEmbedNoVimeo(seg: string)
    requires '/' !in seg
    ensures VimeoId(DailymotionEmbed(seg)).None?
  {
    var out := DailymotionEmbed(seg);
    Literals.DailymotionEmbedText(seg);
    Literals.VimeoText();
    DailymotionEmbedTail(seg);
    assert VimeoAt(out, 34).None? by {
      LitAtMismatch(out, 34, "vimeo.com/", 2);
    }
    forall k | 0 <= k < 40 && Lower(out[k]) == 'v' ensures k == 34 {
      Literals.DailymotionEmbedHeads(seg, k);
    }
    VimeoHeads(out);
    NoMatchInTemplate(out, 40, VimeoAt, 'v', '/');
  }

  /** Its three `d`s are followed by `ailymotion.com/e`, `/` and `e`. */
  lemma DailymotionEmbedD(seg: string)
    ensures var out := DailymotionEmbed(seg);
      && DailymotionVideoAt(out, 12).None? && DailymotionVideoAt(out, 32).None?
      && DailymotionVideoAt(out, 36).None?
      && DriveAt(out, 12).None? && DriveAt(out, 32).None? && DriveAt(out, 36).None?
  {
    var out := DailymotionEmbed(seg);
    Literals.DailymotionEmbedText(seg);
    Literals.DailymotionText();
    Literals.DriveText();
    LitAtMismatch(out, 12, "dailymotion.com/video/", 16);
    LitAtMismatch(out, 32, "dailymotion.com/video/", 1);
    LitAtMismatch(out, 36, "dailymotion.com/video/", 1);
    LitAtMismatch(out, 12, "drive.google.com/file/d/", 1);
    LitAtMismatch(out, 32, "drive.google.com/file/d/", 1);
    LitAtMismatch(out, 36, "drive.google.com/file/d/", 1);
  }

  lemma DailymotionEmbedNoDailymotion(seg: string)
    requires '/' !in seg
    ensures DailymotionId(DailymotionEmbed(seg)).None?
  {
    var out := DailymotionEmbed(seg);
    DailymotionEmbedTail(seg);
    DailymotionEmbedD(seg);
    forall k | 0 <= k < 40 && Lower(out[k]) == 'd' ensures k == 12 || k == 32 || k == 36 {
      Literals.DailymotionEmbedHeads(seg, k);
    }
    DailymotionHeads(out);
    NoMatchInTemplate(out, 40, DailymotionVideoAt, 'd', '/');
  }

  lemma DailymotionEmbedNoDrive(seg: string)
    requires '/' !in seg
    ensures DriveId(DailymotionEmbed(seg)).None?
  {
    var out := DailymotionEmbed(seg);
    DailymotionEmbedTail(seg);
    DailymotionEmbedD(seg);
    forall k | 0 <= k < 40 && Lower(out[k]) == 'd' ensures k == 12 || k == 32 || k == 36 {
      Literals.DailymotionEmbedHeads(seg, k);
    }
    DriveHeads(out);
    NoMatchInTemplate(out, 40, DriveAt, 'd', '/');
  }

  lemma DailymotionEmbedNoStreamable(seg: string)
    requires '/' !in seg
    ensures StreamableId(DailymotionEmbed(seg)).None?
  {
    var out := DailymotionEmbed(seg);
    Literals.DailymotionEmbedText(seg);
    Literals.StreamableText();
    DailymotionEmbedTail(seg);
    assert StreamableAt(out, 4).None? by {
      LitAtMismatch(out, 4, "streamable.com/", 1);
    }
    forall k | 0 <= k < 40 && Lower(out[k]) == 's' ensures k == 4 {
      Literals.DailymotionEmbedHeads(seg, k);
    }
    StreamableHeads(out);
    NoMatchInTemplate(out, 40, StreamableAt, 's', '/');
  }

  // ------------------------------------------------------------ Drive preview

  /** A Drive preview address of a dot-free id reads back as that id, and
      holds no id of the patterns tried before Drive. */
  lemma DrivePreviewRead(id: string)
    requires |id| > 0 && '.' !in id && forall k :: 0 <= k < |id| ==> NotPathSeparator(id[k])
    ensures var out := DrivePreview(id);
      && DriveId(out) == Some(id)
      && YouTubeId(out).None? && VimeoId(out).None? && DailymotionId(out).None?
  {
    Literals.SchemeLetters();
    Literals.DriveJoin(id);
    DriveShape("https://", id, "/preview");
    DrivePreviewNoYouTube(id);
    DrivePreviewNoVimeo(id);
    DrivePreviewNoDailymotion(id);
  }

  lemma DrivePreviewTail(id: string)
    requires '.' !in id
    ensures forall j :: 32 <= j < |DrivePreview(id)| ==> DrivePreview(id)[j] != '.'
  {
    Literals.DrivePreviewText(id + "/preview");
    Literals.DriveJoin(id);
    TailLacks(DrivePreview(id), 32, id + "/preview", '.');
  }

  lemma DrivePreviewNoYouTube(id: string)
    requires '.' !in id
    ensures YouTubeId(DrivePreview(id)).None?
  {
    var out := DrivePreview(id);
    Literals.DrivePreviewText(id + "/preview");
    DrivePreviewTail(id);
    forall k | 0 <= k < 32 ensures Lower(out[k]) != 'y' {
      Literals.DrivePreviewHeads(id + "/preview", k);
    }
    YouTubeHeads(out);
    NoMatchInTemplate(out, 32, YouTubeAt, 'y', '.');
  }

  lemma DrivePreviewNoVimeo(id: string)
    requires '.' !in id
    ensures VimeoId(DrivePreview(id)).None?
  {
    var out := DrivePreview(id);
    Literals.DrivePreviewText(id + "/preview");
    Literals.VimeoText();
    DrivePreviewTail(id);
    assert VimeoAt(out, 11).None? by {
      LitAtMismatch(out, 11, "vimeo.com/", 1);
    }
    forall k | 0 <= k < 32 && Lower(out[k]) == 'v' ensures k == 11 {
      Literals.DrivePreviewHeads(id + "/preview", k);
    }
    VimeoHeads(out);
    NoMatchInTemplate(out, 32, VimeoAt, 'v', '.');
  }

  lemma DrivePreviewNoDailymotion(id: string)
    requires '.' !in id
    ensures DailymotionId(DrivePreview(id)).None?
  {
    var out := DrivePreview(id);
    Literals.DrivePreviewText(id + "/preview");
    Literals.DailymotionText();
    DrivePreviewTail(id);
    assert DailymotionVideoAt(out, 8).None? by {
      LitAtMismatch(out, 8, "dailymotion.com/video/", 1);
    }
    assert DailymotionVideoAt(out, 30).None? by {
      LitAtMismatch(out, 30, "dailymotion.com/video/", 1);
    }
    forall k | 0 <= k < 32 && Lower(out[k]) == 'd' ensures k == 8 || k == 30 {
      Literals.DrivePreviewHeads(id + "/preview", k);
    }
    DailymotionHeads(out);
    NoMatchInTemplate(out, 32, DailymotionVideoAt, 'd', '.');
  }

  // ------------------------------------------------------------ Streamable embed

  /** A Streamable embed address holds no id of the patterns tried before
      Streamable, and Streamable's own pattern reads it as the id `e`. */
  lemma StreamableEmbedRead(id: string)
    requires forall k :: 0 <= k < |id| ==> IsAlnum(id[k])
    ensures var out := StreamableEmbed(id);
      && YouTubeId(out).None? && VimeoId(out).None? && DailymotionId(out).None?
      && DriveId(out).None? && StreamableId(out) == Some("e")
  {
    var out := StreamableEmbed(id);
    Literals.StreamableEmbedText(id);
    AlnumLacks(id);
    TailLacks(out, 25, id, '/');
    forall k | 0 <= k < 25 ensures Lower(out[k]) != 'y' && Lower(out[k]) != 'v' && Lower(out[k]) != 'd' {
      Literals.StreamableEmbedHeads(id, k);
    }
    YouTubeHeads(out);
    NoMatchInTemplate(out, 25, YouTubeAt, 'y', '/');
    VimeoHeads(out);
    NoMatchInTemplate(out, 25, VimeoAt, 'v', '/');
    DailymotionHeads(out);
    NoMatchInTemplate(out, 25, DailymotionVideoAt, 'd', '/');
    DriveHeads(out);
    NoMatchInTemplate(out, 25, DriveAt, 'd', '/');
    StreamableEmbedReadsE(id);
  }
}
